=== FILE: README.md ===
# DPE data pipeline — a Dafny model

This project models the data side of an energy-performance (DPE) dashboard,
which predicts a home's energy cost from open ADEME data. It covers:

- the `DataCleaner` pipeline (`src/processing/data_cleaner.py`). This is the
  reference tables its constructor builds from the climate-zone and communes
  files, and the eleven stages `clean_all` runs on the raw ADEME table: dating
  the buildings, whitelisting columns, IQR outlier removal on cost and surface,
  collapsing rare heating energies into "Autre", the storey range, zero-padding
  the INSEE and department codes, splitting `_geopoint`, mapping climate zones,
  and the altitude merge with its department-mean fallback;
- the ADEME requester (`src/data_requesters/ademe.py`): the total-count probe,
  the pagination loop of `custom_lines_request` (limit, falsy replies,
  `next` links, progress reports), the normalisation of the dataset schema,
  field names and the grouping of fields by `x-group`;
- the department and climate-zone resolution of
  `src/data_requesters/geo_features.py`;
- the `retry_on_error` decorator (`src/data_requesters/helper.py`);
- the elevation lookup (`src/data_requesters/elevation.py`);
- `prepare_data` (`backend/services/data_preparation.py`), which builds the
  feature record for the prediction models;
- `diff_icon` (`pages/retrain_models.py`).

A pandas table is a `Tables.Frame`: a column list and rows that map column
names to cells (`Missing` for NaN/None, `Int`, `Num`, `Text`). A stage that
raises in Python returns `Err` of a `CleanError` naming the exception's cause.

Everything outside the program is a parameter:

- the current year;
- Python's float rendering (`str(x)`) and parsing (`float(s)`);
- the lines of the two CSV files;
- the address-search service and the city-info lookup;
- the elevation service;
- the replies of the ADEME count probe and of each page;
- the outcome of each attempt of a retried call.

Module layout: `Wrappers`, `PyStr` (the Python string methods used: `zfill`,
`strip`, `split`, `upper`, `isdigit`, `int`), `Tables`, `Stats` (sorting,
pandas' linear-interpolation quantile, median, mean, Tukey fences), then one
module per stage or requester. `Cleaner` composes the stages.

Where the docstrings and the code differ, the model follows the code:

- The IQR rule is not idempotent: a second pass can drop more rows
  (`Outliers.IqrFilterNotIdempotent`).
- `dropna(inplace=True)` in `level_cleaning` acts on a copy and changes
  nothing. The `dropna` in `cost_cleaning` is redundant with the mask that
  follows (`Outliers.DropnaRedundant`).
- The altitude merge leaves the communes' `code_insee` column in the table.
- `zfill` keeps a leading sign in front.
- An unknown department maps to the zone "Unknown". An INSEE code is taken as
  the department without any search. `altitude_moyenne` is never filled by
  `get_zone_and_altitude`, and its zone keeps the `str` placeholder when no
  department is found.

One place departs from this. `prepare_data` reads `input_data.city`, but the
request model declares no `city` field; the city is its `Location`. As written, every call therefore raises
`AttributeError`. `DataPreparation.PrepareDataAsWritten` models that read, and
`DataPreparation.AsWrittenAlwaysRaises` shows it fails for every input.
`DataPreparation.PrepareData`, which the rest of the model describes, reads the
location instead (see "## Findings").

## Model

| member | source | states |
|---|---|---|
| PyStr.Zfill | src/processing/data_cleaner.py:170-185 | the padded code has length max(len, width); a long code is returned as is; a short one gets zeros in front, after its sign if it has one |
| PyStr.ZfillIdempotent | src/processing/data_cleaner.py:173-175 | padding an already padded code changes nothing |
| PyStr.ZfillKeepsSuffix | src/processing/data_cleaner.py:173-175 | an unsigned code is a suffix of its padded form and every character before it is '0' |
| PyStr.Take | src/data_requesters/geo_features.py:47-54 | a slice `s[:n]` is a prefix of `s` whose length is n clamped to len(s) |
| PyStr.Strip | src/data_requesters/geo_features.py:34 | the stripped token is a slice of the input with only whitespace cut off on either side; it neither starts nor ends with whitespace, and is empty only for an all-whitespace input |
| PyStr.AsciiUpper | src/data_requesters/geo_features.py:39 | upper-casing keeps the length, shifts lower-case ASCII letters and keeps every other character |
| PyStr.CorsicanSpellings | src/data_requesters/geo_features.py:39-40 | the upper-cased test accepts exactly "2A", "2a", "2B" and "2b" |
| PyStr.Split | src/processing/data_cleaner.py:191 | the pieces contain no separator, there is at least one, and joining them with the separator gives the input back |
| PyStr.SplitJoin | src/data_requesters/geo_features.py:34 | splitting undoes joining for pieces without the separator |
| PyStr.ParseDecimal | src/data_requesters/geo_features.py:121 | `int()` reads the decimal rendering of every integer back to that integer |
| PyStr.DigitsParse | src/data_requesters/geo_features.py:121 | `int()` of a digit string is the number it denotes |
| PyStr.NatDigitsValue | src/data_requesters/geo_features.py:121 | the decimal digits of n denote n |
| Tables.Filter | src/processing/data_cleaner.py:107-110 | boolean-mask indexing keeps a subsequence of the rows, and a row is kept iff it is a row of the input the mask accepts |
| Tables.FilterCounts | src/processing/data_cleaner.py:107-110 | a kept row occurs as many times as in the input, a dropped one never |
| Tables.FilterIdempotent | src/processing/data_cleaner.py:159-162 | masking twice with the same mask keeps the same rows |
| Tables.FilterImplied | src/processing/data_cleaner.py:99-110 | a first mask implied by the second one changes nothing |
| Tables.FilterKeepsAll | src/processing/data_cleaner.py:146-149 | a mask accepting every row keeps them all |
| Tables.ValuesWithoutMissing | src/processing/data_cleaner.py:99-103 | dropping the rows missing the column leaves the values the quantiles see unchanged |
| Tables.SubsequenceShorter | src/processing/data_cleaner.py:107-110 | the rows a filter keeps are no more numerous than the input and come from it |
| Tables.WithColumn | src/processing/data_cleaner.py:199 | assigning a column keeps the column list if it is there and appends it otherwise |
| Tables.WithoutColumn | src/processing/data_cleaner.py:193 | dropping a column removes exactly that name and keeps the order of the rest |
| Stats.Insert | src/processing/data_cleaner.py:102-103 | inserting into sorted values gives sorted values with the new one added |
| Stats.Sort | src/processing/data_cleaner.py:102-103 | the values the quantile interpolates are a sorted permutation of the column's values |
| Stats.SortOfSorted | src/processing/data_cleaner.py:102-103 | sorting sorted values changes nothing |
| Stats.Quantile | src/processing/data_cleaner.py:102-103 | the p-quantile lies between the two order statistics around position (n-1)p |
| Stats.QuantileOfSorted | src/processing/data_cleaner.py:102-103 | the quantile of sorted values is the linear interpolation x[k] + (x[k+1]-x[k]) frac at position k + frac |
| Stats.QuantileWithinRange | src/processing/data_cleaner.py:102-103 | every quantile lies between the smallest and the largest value |
| Stats.QuantileMonotone | src/processing/data_cleaner.py:102-104 | a higher probability never gives a lower quantile, so Q1 <= Q3 and the IQR is non-negative |
| Stats.Median | src/processing/data_cleaner.py:84-86 | the median lies between the smallest and the largest year |
| Stats.MedianOdd | src/processing/data_cleaner.py:84-86 | an odd count has its middle value as median |
| Stats.MedianEven | src/processing/data_cleaner.py:84-86 | an even count has the midpoint of its two middle values as median |
| Stats.MeanWithin | src/processing/data_cleaner.py:26 | a department's mean altitude lies within any bounds of its communes' altitudes |
| Stats.TukeyFences | src/processing/data_cleaner.py:102-110 | the fences enclose [Q1, Q3] and sit at the same distance (1.5 IQR) outside it |
| Codes.ZfillColumn | src/processing/data_cleaner.py:170-185 | fails iff the column is missing; every code becomes `zfill(width)` of its `str()` rendering, so a string of at least `width` characters, and no other cell changes |
| Codes.InseeCodeCleaning | src/processing/data_cleaner.py:166-177 | fails iff `code_insee_ban` is missing; every INSEE code becomes `str(code).zfill(5)`, at least 5 characters, and every other column and cell is kept |
| Codes.CleanDepartmentCode | src/processing/data_cleaner.py:179-186 | fails iff `code_departement_ban` is missing; every department code becomes `str(code).zfill(2)`, at least 2 characters, and every other column and cell is kept |
| Codes.ZfillCell | src/processing/data_cleaner.py:170-175 | an unsigned code shorter than the width gets exactly the missing zeros in front, a longer one is kept |
| Codes.ZfillColumnIdempotent | src/processing/data_cleaner.py:170-185 | padding a padded column again changes nothing |
| Codes.Pieces | src/processing/data_cleaner.py:191 | a text cell splits into the pieces of `str.split(",")`, a non-text cell into one NaN |
| Codes.Width | src/processing/data_cleaner.py:191 | the width of the expanded split is the largest piece count, 0 only for no rows |
| Codes.WidthAttained | src/processing/data_cleaner.py:191 | some row has exactly as many pieces as the expanded split has columns |
| Codes.BadToken | src/processing/data_cleaner.py:191 | no token is reported iff every piece of every row parses as a float; a reported one does not parse |
| Codes.SplitRow | src/processing/data_cleaner.py:190-193 | a split row gains `lat` and `lon`, loses `_geopoint` and keeps every other cell |
| Codes.SplitColumns | src/processing/data_cleaner.py:190-193 | the columns after the split are the old ones plus `lat` and `lon`, without `_geopoint` |
| Codes.SplitCoordinates | src/processing/data_cleaner.py:188-195 | fails on a missing `_geopoint`, on a piece that is not a float (naming it) or on a split width other than 2; otherwise every row is split |
| Codes.SplitRowRoundTrip | src/processing/data_cleaner.py:190-193 | a point written "lat,lon" splits into two float pieces that give back lat and lon |
| Enrichment.ZoneTable | src/processing/data_cleaner.py:16-21 | the department -> zone table has exactly the departments of the file as keys |
| Enrichment.LastLineWins | src/processing/data_cleaner.py:19-21 | a department listed several times gets the zone of its last line |
| Enrichment.ZoneFromLine | src/processing/data_cleaner.py:19-21 | every entry of the table comes from a line of the file |
| Enrichment.ZoneOf | src/processing/data_cleaner.py:199-201 | a row gets a zone iff its department code is a string the table knows, NaN otherwise |
| Enrichment.MapClimateZones | src/processing/data_cleaner.py:197-203 | fails iff the department column is missing; otherwise adds `zone_climatique` to every row |
| Enrichment.ZoneAssigned | src/processing/data_cleaner.py:199-201 | each row's zone is the table's zone of its department (NaN when unknown) and every other cell is kept |
| Enrichment.ZoneFromFile | src/processing/data_cleaner.py:197-203 | every zone assigned is paired with the row's department on some line of the zone file |
| Enrichment.MapClimateZonesIdempotent | src/processing/data_cleaner.py:197-203 | mapping the zones twice gives the same table |
| Enrichment.FindCity | src/processing/data_cleaner.py:209-211 | the merge matches a commune iff the row's INSEE code is that commune's code |
| Enrichment.FindOwnCity | src/processing/data_cleaner.py:209-211 | with unique codes, a commune's own code matches that commune |
| Enrichment.DepartmentMean | src/processing/data_cleaner.py:26 | a department has a mean altitude iff one of its communes has a known altitude |
| Enrichment.DepartmentMeanWithin | src/processing/data_cleaner.py:26 | the department mean lies within any bounds of the communes' altitudes |
| Enrichment.ExtractAltitude | src/processing/data_cleaner.py:205-227 | fails iff a merge key column is missing; otherwise keeps one row per input row and adds `code_insee` and `altitude_moyenne` at the end |
| Enrichment.CommuneAltitude | src/processing/data_cleaner.py:209-211 | a row whose INSEE code names a commune of known altitude gets that code and altitude |
| Enrichment.DepartmentFallback | src/processing/data_cleaner.py:213-225 | a row with no commune altitude gets the mean altitude of its department's communes, or NaN when there is none |
| Enrichment.AltitudeCell | src/processing/data_cleaner.py:209-225 | each altitude is the commune's, else the department mean, else NaN |
| Enrichment.AltitudeWithin | src/processing/data_cleaner.py:205-227 | every altitude filled in lies within the bounds of the communes' altitudes |
| EnergyLabels.Collapse | src/processing/data_cleaner.py:126-133 | each energy whose share of the non-missing cells is under 15 % becomes "Autre", every other cell is kept |
| EnergyLabels.EnergieTypeCleaning | src/processing/data_cleaner.py:114-135 | fails iff the energy column is missing; otherwise only the energy cells change, each to its collapsed value |
| EnergyLabels.CollapseCounts | src/processing/data_cleaner.py:118-133 | collapsing keeps the number of present cells and the count of every frequent energy, and removes every rare one |
| EnergyLabels.CollapseIdempotent | src/processing/data_cleaner.py:126-133 | collapsing a collapsed column changes nothing |
| EnergyLabels.EnergieTypeCleaningIdempotent | src/processing/data_cleaner.py:114-135 | cleaning the energy column twice is cleaning it once |
| EnergyLabels.FrequentLabelsMass | src/processing/data_cleaner.py:123-128 | k energies each holding at least 15 % hold at least 15k % together |
| EnergyLabels.AtMostSixSurvivors | src/processing/data_cleaner.py:123-133 | after collapsing, at most six energies besides "Autre" remain |
| ConstructionYear.Truncate | src/processing/data_cleaner.py:89 | `astype(int)` truncates toward zero |
| ConstructionYear.WithYear | src/processing/data_cleaner.py:79-81 | a table without the year column gets it, filled with the current year; a table with it is unchanged |
| ConstructionYear.Dated | src/processing/data_cleaner.py:89-92 | a dated row has the integer year and the age current year minus year, other cells kept |
| ConstructionYear.FillYears | src/processing/data_cleaner.py:84-92 | fails iff the years are not numeric or all missing; otherwise dates every row with its year or the median year |
| ConstructionYear.AddConstructionYear | src/processing/data_cleaner.py:73-94 | cannot fail without the year column; otherwise fails iff a year is a string or every year is missing; each row gets this year, its own year truncated, or the truncated median, plus the age; other cells are kept |
| ConstructionYear.AddConstructionYearFixes | src/processing/data_cleaner.py:73-94 | a table already dated is a fixed point |
| ConstructionYear.AddConstructionYearIdempotent | src/processing/data_cleaner.py:73-94 | dating a dated table again changes nothing |
| ConstructionYear.DateRowsDated | src/processing/data_cleaner.py:89-92 | every dated row has an integer year and the matching age |
| ConstructionYear.RedatedRow | src/processing/data_cleaner.py:89-92 | dating a dated row gives it back |
| Outliers.IqrFilter | src/processing/data_cleaner.py:101-110 | fails iff the column is missing or holds a string; keeps a subsequence of the rows, exactly those with a number within the Tukey fences, each with all its copies, and none when the column has no value |
| Outliers.CostCleaning | src/processing/data_cleaner.py:96-112 | fails iff the cost column is missing or holds a string; is the IQR rule on the cost column: a subsequence keeping exactly the rows whose cost lies within the fences, each with all its copies |
| Outliers.DropnaRedundant | src/processing/data_cleaner.py:96-112 | dropping missing costs first gives the same result as the IQR mask alone |
| Outliers.SurfaceCleaning | src/processing/data_cleaner.py:137-151 | fails iff the surface column is missing or holds a string; keeps a subsequence of the rows, exactly those whose surface lies within the Tukey fences, each with all its copies, and none when no surface is known |
| Outliers.LevelCleaning | src/processing/data_cleaner.py:153-164 | fails iff the storey column is missing or holds a string; keeps exactly the rows with 1 to 10 storeys, in order, each with all its copies |
| Outliers.LevelCleaningIdempotent | src/processing/data_cleaner.py:153-164 | the storey filter applied twice keeps the same rows |
| Outliers.IqrKeepsInterquartile | src/processing/data_cleaner.py:101-110 | every row whose value lies between Q1 and Q3 survives the IQR rule |
| Outliers.SixQuartiles | src/processing/data_cleaner.py:141-143 | for six ordered values Q1 and Q3 interpolate a quarter and three quarters of the way |
| Outliers.FiveQuartiles | src/processing/data_cleaner.py:141-143 | for five ordered values Q1 and Q3 are the second and fourth values |
| Outliers.IqrDropsLast | src/processing/data_cleaner.py:141-149 | when the fences enclose all values but the last, which is above them, the rule drops just that one |
| Outliers.FirstPass | src/processing/data_cleaner.py:137-151 | surfaces 1, 2, 3, 4, 10, 100 lose 100 |
| Outliers.SecondPass | src/processing/data_cleaner.py:137-151 | surfaces 1, 2, 3, 4, 10 lose 10 |
| Outliers.IqrFilterNotIdempotent | src/processing/data_cleaner.py:137-151 | a second surface cleaning can drop rows the first one kept |
| Selection.FirstAbsent | src/processing/data_cleaner.py:70 | the column reported missing is a wanted one the table lacks; none is reported iff all are present |
| Selection.SelectColumns | src/processing/data_cleaner.py:70 | fails iff a listed column is missing, naming one; otherwise the table has exactly those columns in that order, one row per row, with the same cells |
| Selection.SelectRelevantVariables | src/processing/data_cleaner.py:33-71 | fails iff a whitelisted column is missing; otherwise exactly the 31 whitelisted columns remain, no row is lost, each kept cell is unchanged and every other cell is dropped |
| Selection.SelectIdempotent | src/processing/data_cleaner.py:70 | selecting the same columns twice is selecting them once |
| Selection.ProjectOwnKeys | src/processing/data_cleaner.py:70 | projecting a row onto its own keys gives it back |
| Cleaner.SelectRows | src/processing/data_cleaner.py:231-236 | dating, selection and the three filters leave the whitelisted columns and fewer rows, each dated with 1 to 10 storeys |
| Cleaner.SelectionKeepsDated | src/processing/data_cleaner.py:231-232 | whitelisting after dating keeps every row dated and every row |
| Cleaner.IqrKeepsDated | src/processing/data_cleaner.py:233-235 | the IQR stages keep dated rows dated and never add rows |
| Cleaner.EnergyKeepsDated | src/processing/data_cleaner.py:234 | relabelling the energies keeps the rows dated |
| Cleaner.LevelKeepsDated | src/processing/data_cleaner.py:236 | after the storey filter every row is dated and has 1 to 10 storeys |
| Cleaner.FormatColumns | src/processing/data_cleaner.py:237-241 | the code, split and enrichment stages give the whitelist minus `_geopoint` plus lat, lon, zone, code_insee and altitude, and keep each row's year, age and storeys |
| Cleaner.FormatCodes | src/processing/data_cleaner.py:237-239 | the code stages give the split column list and keep each row's year, age and storeys |
| Cleaner.FormattedColumns | src/processing/data_cleaner.py:237-241 | the column list after the last five stages is exactly the formatted one |
| Cleaner.Enrich | src/processing/data_cleaner.py:240-241 | the zone and altitude stages add their columns and keep each row's year, age and storeys |
| Cleaner.NoMergeClash | src/processing/data_cleaner.py:209-211 | neither column the altitude merge brings is already in the whitelisted table, so no merge suffix arises |
| Cleaner.DatedColumnsSelected | src/processing/data_cleaner.py:52-67 | the whitelist keeps the year and age columns |
| Cleaner.ZfillKeepsChecked | src/processing/data_cleaner.py:170-184 | padding a code column keeps each row's year, age and storeys |
| Cleaner.SplitKeepsChecked | src/processing/data_cleaner.py:190-193 | splitting coordinates keeps each row's year, age and storeys |
| Cleaner.ZonesKeepChecked | src/processing/data_cleaner.py:199-201 | mapping zones keeps each row's year, age and storeys |
| Cleaner.AltitudeKeepsChecked | src/processing/data_cleaner.py:209-225 | the altitude merge keeps each row's year, age and storeys |
| Cleaner.CleanAll | src/processing/data_cleaner.py:229-243 | a cleaned table has exactly the final columns and no more rows than the raw one, and every row is dated with 1 to 10 storeys |
| Cleaner.CheckedRowsStayClean | src/processing/data_cleaner.py:237-241 | rows whose year, age and storeys are untouched stay clean |
| Cleaner.FeaturesAreFinalColumns | backend/services/data_preparation.py:35-44 | every column of the prediction feature record is a column of the cleaned table |
| AdemeFields.NormalizeField | src/data_requesters/ademe.py:255-262 | a field keeps its key and type, takes the first truthy of label, title and key as label, "" as missing description and "Non classé" as missing group |
| AdemeFields.NormalizeFields | src/data_requesters/ademe.py:255-264 | one normalised field per schema entry, in order |
| AdemeFields.FieldNames | src/data_requesters/ademe.py:281-282 | the names are the fields' keys, in order |
| AdemeFields.SchemaKeysAndGroups | src/data_requesters/ademe.py:253-310 | the field names read back the schema's keys in order; no group is named ""; an entry without a truthy x-group lands in "Non classé" |
| AdemeFields.InGroup | src/data_requesters/ademe.py:304-308 | a group's fields are fields of the input carrying that group |
| AdemeFields.Find | src/data_requesters/ademe.py:306 | a group is found at an index carrying its name, and not found iff no group has it |
| AdemeFields.GroupsCover | src/data_requesters/ademe.py:302-310 | every field's group is a key of the grouping |
| AdemeFields.GroupsDistinct | src/data_requesters/ademe.py:302-310 | no group appears twice |
| AdemeFields.GroupsContents | src/data_requesters/ademe.py:304-308 | each group holds exactly the fields of that group, in input order, and is non-empty |
| AdemeFields.GroupFieldsPartition | src/data_requesters/ademe.py:302-310 | the grouping partitions the fields: distinct groups, exact contents, full cover |
| AdemeFields.GroupSizesSum | src/data_requesters/ademe.py:302-310 | the group sizes add up to the number of fields |
| AdemePagination.CountParams | src/data_requesters/ademe.py:42 | the probe sends the request's params with `size` overridden to 1, or only `size=1` |
| AdemePagination.PageParams | src/data_requesters/ademe.py:71 | the page params are the caller's keyword arguments plus `size`, a caller's `size` winning |
| AdemePagination.GetLength | src/data_requesters/ademe.py:33-46 | the total is the reply's `total`, 0 when there is no reply or no such key |
| AdemePagination.EffectiveTotal | src/data_requesters/ademe.py:76-78 | a limit below the total replaces it; otherwise the total stands |
| AdemePagination.ReceivedGrows | src/data_requesters/ademe.py:99 | the records held never shrink as pages arrive |
| AdemePagination.ReportsAt | src/data_requesters/ademe.py:101-102 | the k-th progress report counts the records of the first k+1 pages |
| AdemePagination.UnderLimitAt | src/data_requesters/ademe.py:92-93 | each page was requested while fewer than `limit` records were held |
| AdemePagination.ChainedFollows | src/data_requesters/ademe.py:107-108 | each request after the first goes to the previous page's `next` link, without params |
| AdemePagination.Next | src/data_requesters/ademe.py:95-108 | one loop turn records the request it sent and moves to the reply's `next` link with no params |
| AdemePagination.Paginate | src/data_requesters/ademe.py:90-108 | the loop returns the pages' records in receipt order, follows `next` links, respects the limit check, reports progress per page and stops only at a falsy URL or reply or at the limit |
| AdemePagination.LoopFacts | src/data_requesters/ademe.py:90-108 | the loop's requests follow the links, each sent under the limit, with progress matching the records held |
| AdemePagination.CustomLinesRequest | src/data_requesters/ademe.py:48-111 | probe first with size 1, report (0, total), no page request for a zero total, then the pagination loop from the lines URL with the page params; one progress report per page with data, each carrying the records then held and the effective total |
| AdemePagination.ProgressGrows | src/data_requesters/ademe.py:99-102 | the progress reports never decrease |
| Retry.PowNonNegative | src/data_requesters/helper.py:25 | a non-negative backoff factor gives a non-negative wait |
| Retry.ScheduleAt | src/data_requesters/helper.py:25 | the j-th wait is backoff_factor to the power j |
| Retry.RetryOnError | src/data_requesters/helper.py:13-29 | with max_retries <= 0 nothing is called and None returned; otherwise at most max_retries calls, all but the last raising, non-negative waits 1, b, b^2 between them, returning the first value, re-raising the last error after exactly max_retries calls, or raising from `time.sleep` when b makes a wait negative, which b >= 0 rules out |
| Retry.TotalWait | src/data_requesters/helper.py:16-27 | (b - 1) times the total wait over k retries is b^k - 1 |
| Retry.DefaultTotalWait | src/data_requesters/helper.py:5-27 | with the default factor 2, k retries wait 2^k - 1 seconds in all |
| Elevation.GetElevation | src/data_requesters/elevation.py:13-39 | no request iff a coordinate is missing or zero, else exactly one with both; None for no reply or no result; else the first point's elevation, and an IndexError exactly when a reply with a non-zero count lists no point |
| Elevation.ElevationFound | src/data_requesters/elevation.py:24-39 | an elevation is returned iff both coordinates are truthy and the service matched at least one point, and it is the first point's |
| GeoFeatures.MapDeptToZone | src/data_requesters/geo_features.py:19-23 | the zone is the first one listing the department, "Unknown" when none does |
| GeoFeatures.ZoneFor | src/data_requesters/geo_features.py:111-125 | Corsican codes use department 20, others their `int()` value; a code `int()` rejects gives no zone |
| GeoFeatures.CorsicaIsTwenty | src/data_requesters/geo_features.py:115-118 | "2A", "2b" and "20" get the same zone |
| GeoFeatures.ExtractDepartment | src/data_requesters/geo_features.py:26-56 | a numeric context token (zero-padded) or a Corsican one (upper-cased) wins, then the postcode's first 2 characters (3 overseas), then a numeric citycode's first 2; never an empty code |
| GeoFeatures.ExtractedDepartmentHasZone | src/data_requesters/geo_features.py:110-125 | a department taken from the context or the citycode always gets a zone |
| GeoFeatures.GetZoneAndAltitude | src/data_requesters/geo_features.py:59-127 | altitude is never set; an INSEE code gives the department with no search; otherwise one search iff a city is given; neither an INSEE code nor a city, a failed or empty search, or a coordinate list shorter than 2, leaves the initial dict; coordinates are read as [lon, lat], none without geometry; the department is extracted from the match; the zone is the department's, or the placeholder without one |
| GeoFeatures.SearchedContextHasZone | src/data_requesters/geo_features.py:82-125 | a city whose first search match has a context naming a department always ends with a zone name, never the placeholder or None |
| DataPreparation.PrepareData | backend/services/data_preparation.py:8-48 | reading the location: no city info gives None and no request; otherwise the record copies the input and the zone, altitude 0 without coordinates, else the elevation or 0, an elevation error propagating |
| DataPreparation.Attribute | backend/models/input_model.py:20-27 | reading an attribute of the request succeeds iff `InputData` declares it, `Location` giving the location; a name it does not declare, such as `city`, raises `AttributeError` naming it |
| DataPreparation.PrepareWith | backend/services/data_preparation.py:18-48 | passing an undeclared attribute to the city lookup raises before any lookup; a declared one gives the preparation of the information found for its value |
| DataPreparation.PrepareDataAsWritten | backend/services/data_preparation.py:18 | as written, the read of `input_data.city` raises `AttributeError` before the city lookup |
| DataPreparation.AsWrittenAlwaysRaises | backend/services/data_preparation.py:18 | as written, every call raises `AttributeError: city`, whatever the city services answer |
| DataPreparation.AttributesRebuild | backend/models/input_model.py:20-27 | the seven declared attributes carry the whole request: validating them back gives the same `InputData` |
| DataPreparation.LocationReadPrepares | backend/services/data_preparation.py:18-21 | reading `Location` gives the preparation of the user's location, a table whenever the city is known |
| DataPreparation.ZeroCoordinateMeansZeroAltitude | backend/services/data_preparation.py:24-32 | a zero latitude or longitude sends no elevation request and gives altitude 0 |
| RetrainModels.DiffIcon | pages/retrain_models.py:35-44 | no previous value gives no icon; equal values the dash; otherwise the up icon iff the metric moved the better way, else the warning |
| RetrainModels.FlipDirection | pages/retrain_models.py:41-44 | for distinct values, flipping which direction is better swaps the up and warning icons |
| RetrainModels.SwapValues | pages/retrain_models.py:41-44 | for distinct values, swapping new and old swaps the up and warning icons |

## Left out

- Reading the CSV files, HTTP requests, JSON decoding, `print`, `time.sleep` and `datetime.now()` are not modelled. Their results are parameters, and the model records the requests a function sends.
- Python's float formatting and parsing are parameters (`render`, `parse`); the model does not fix how `str(48.85)` or `float("48.85")` behave.
- The 15 % share in `energie_type_cleaning` is compared exactly (`count * 100 < 15 * n`), not in floating point.
- pandas dtypes are reduced to four cell kinds. A column with a string cell is "not numeric" and every arithmetic stage on it fails.
- Enrichment.ExtractAltitude: requires that the communes' INSEE codes are unique and that the table does not already hold `code_insee` or `altitude_moyenne`. The merge suffixes (`_x`, `_y`) and row duplication that the source would produce otherwise are not modelled; `Cleaner.NoMergeClash` shows the pipeline never meets the second case.
- Codes.ZfillCell: states the padding only for unsigned codes; `PyStr.Zfill` covers signed ones.
- Cleaner.CleanAll: states what a successful run yields; which stage fails for which input is stated stage by stage, not for the whole chain.
- AdemePagination.Paginate: requires that the reply chain ends (some reply is falsy or has no `next` link). An endless chain, on which the source loops forever, is not modelled.
- AdemePagination.CustomLinesRequest: the same requirement as `Paginate`. A page reply lacking `results`, or an empty dict (falsy) reply to the count probe, are not modelled.
- Elevation.GetElevation: a reply is never the empty (falsy) dict, and `resultCount` is always present. The `delay` argument is left out: `time.sleep(delay)` only waits before the request, or raises `ValueError` when negative, and no caller passes it.
- GeoFeatures.ExtractDepartment: `isdigit` is modelled on ASCII digits only. Python's `str.isdigit` also accepts other Unicode digits such as "²", which would make the context token win here.
- GeoFeatures.ZoneFor: `int()` is modelled on ASCII digits only. Python's `int` also reads other Unicode decimal digits ("١٣" is 13), which give a zone in the source and none in the model.
- GeoFeatures.ExtractedDepartmentHasZone: holds for ASCII context tokens and citycodes only. In Python a context token "²" passes `isdigit` and then makes `int()` raise, so the zone becomes `None`.
- GeoFeatures.SearchedContextHasZone: the same ASCII restriction as `ExtractedDepartmentHasZone`.
- GeoFeatures.GetZoneAndAltitude: the debug keys `_context`, `_postcode` and `_citycode` that the source adds to the result dict after a match are not modelled, and neither are coordinates that are not numbers.
- DataPreparation.PrepareData: reads the location, as intended. The source as written raises `AttributeError` on `input_data.city` for every request; `DataPreparation.PrepareDataAsWritten` models that.
- Float arithmetic is exact: `Stats.Quantile`, `Stats.TukeyFences`, `Stats.Mean`, `Enrichment.DepartmentMean`, `ConstructionYear.FillYears` and `RetrainModels.DiffIcon` compute over `real`. Float rounding, infinities and NaN values produced by arithmetic are not modelled; a NaN cell is `Missing`.
- Codes.ZfillColumn: a missing cell renders as "nan". In an object column pandas renders a Python `None` as "None" under `astype(str)`; the model does not tell `None` from NaN.
- Codes.ZfillColumn: an `Int` cell renders in decimal whatever the rest of the column holds. In pandas an integer column with a NaN is a float column, so `astype(str)` renders 1001 as "1001.0". Codes stored as `Num` go through `render`, which may give that form.
- ConstructionYear.FillYears: models the `fillna(..., inplace=True)` on `df[col]` as filling the table's column, which is pandas' behaviour before Copy-on-Write. Under pandas 3 the fill is lost, and `astype(int)` then raises on the missing years.
- The other requester methods of `src/data_requesters/ademe.py` (`get_bydepartement`, `get_all_departments_count` and `get_all_data`, lines 113-222), `print_available_fields` (printing only) and the `BaseAPIRequester` fetch internals are outside this model. `get_dataset_fields` is modelled from the schema list on; the HTTP call before it is a parameter.
- The retry decorator's `print` calls are not modelled. `time.sleep` is recorded as the list of waits, and its `ValueError` on a negative wait is modelled; a float `backoff_factor` is not.
- `geo_api.get_city_info` is an oracle in `prepare_data`. The source file defining `geo_api` is not part of this model.
- The model training, the dashboard pages other than `diff_icon`, and the API routes are not part of this model.

## Findings

| source | as written | input that shows it | evidently intended | confidence | as-written member | corrected member |
|---|---|---|---|---|---|---|
| backend/services/data_preparation.py:18 | `geo_api.get_city_info(ville=input_data.city)`, but `InputData` (backend/models/input_model.py:20-27) has no `city` field | any request, e.g. `Location="Lyon"` | read `input_data.Location` | high (not executed) | DataPreparation.AsWrittenAlwaysRaises | DataPreparation.LocationReadPrepares |

=== FILE: ademe_fields.dfy ===
/**
 * The dataset-metadata transforms of src/data_requesters/ademe.py:
 * `get_dataset_fields` (normalising the schema entries the dataset endpoint
 * returns) and `get_fields_by_group` (grouping them by `x-group`).
 *
 * The schema itself is fetched over HTTP; here it is the input.
 */
module AdemeFields {
  import opened Wrappers

  /** One raw schema entry; `None` when the key is absent (or null). */
  datatype SchemaEntry = SchemaEntry(
    key: Option<string>,
    labelText: Option<string>,
    title: Option<string>,
    kind: Option<string>,
    description: Option<string>,
    group: Option<string>)

  /** A normalised field: `{key, label, type, description, x-group}`. */
  datatype Field = Field(
    key: Option<string>,
    labelText: Option<string>,
    kind: Option<string>,
    description: string,
    group: string)

  /** The group of fields without an `x-group`. */
  const Unclassified: string := "Non class\U{e9}"

  /** Python truthiness of an optional string. */
  predicate Truthy(s: Option<string>) {
    s.Some? && s.value != ""
  }

  /** `label or title or key`, `description or ""`, `x-group or "Non classé"`. */
  function NormalizeField(e: SchemaEntry): (f: Field)
    ensures f.key == e.key && f.kind == e.kind
    ensures Truthy(e.labelText) ==> f.labelText == e.labelText
    ensures !Truthy(e.labelText) && Truthy(e.title) ==> f.labelText == e.title
    ensures !Truthy(e.labelText) && !Truthy(e.title) ==> f.labelText == e.key
    ensures f.description == (if Truthy(e.description) then e.description.value else "")
    ensures f.group == (if Truthy(e.group) then e.group.value else Unclassified)
    ensures f.group != ""
  {
    Field(
      e.key,
      if Truthy(e.labelText) then e.labelText else if Truthy(e.title) then e.title else e.key,
      e.kind,
      if Truthy(e.description) then e.description.value else "",
      if Truthy(e.group) then e.group.value else Unclassified)
  }

  /** `get_dataset_fields`: one normalised field per schema entry, in schema order. */
  function NormalizeFields(schema: seq<SchemaEntry>): (fields: seq<Field>)
    ensures |fields| == |schema|
    ensures forall i :: 0 <= i < |schema| ==> fields[i] == NormalizeField(schema[i])
  {
    seq(|schema|, i requires 0 <= i < |schema| => NormalizeField(schema[i]))
  }

  /** `get_field_names`: the keys, in schema order. */
  function FieldNames(fields: seq<Field>): (names: seq<Option<string>>)
    ensures |names| == |fields|
    ensures forall i :: 0 <= i < |fields| ==> names[i] == fields[i].key
  {
    seq(|fields|, i requires 0 <= i < |fields| => fields[i].key)
  }

  // ---------------------------------------------------------------------------
  // Grouping
  // ---------------------------------------------------------------------------

  /** One entry of the insertion-ordered dict `groups`. */
  datatype Group = Group(name: string, fields: seq<Field>)

  /** The fields of one group, in input order: the reference definition. */
  function InGroup(fields: seq<Field>, name: string): (r: seq<Field>)
    ensures |r| <= |fields|
    ensures forall f :: f in r ==> f in fields && f.group == name
  {
    if fields == [] then []
    else
      var last := fields[|fields| - 1];
      InGroup(fields[..|fields| - 1], name) + (if last.group == name then [last] else [])
  }

  /** The position of the group called `name`, if there is one. */
  function Find(gs: seq<Group>, name: string): (r: Option<nat>)
    ensures r.Some? ==> r.value < |gs| && gs[r.value].name == name
    ensures r.None? ==> forall i :: 0 <= i < |gs| ==> gs[i].name != name
  {
    if gs == [] then None
    else if gs[|gs| - 1].name == name then Some(|gs| - 1)
    else Find(gs[..|gs| - 1], name)
  }

  /** One turn of the loop: append to the field's group, creating it at the end when new. */
  function AddField(gs: seq<Group>, f: Field): seq<Group> {
    match Find(gs, f.group)
    case Some(i) => gs[i := Group(f.group, gs[i].fields + [f])]
    case None => gs + [Group(f.group, [f])]
  }

  /** `get_fields_by_group` over already normalised fields. */
  function GroupFields(fields: seq<Field>): seq<Group> {
    if fields == [] then []
    else AddField(GroupFields(fields[..|fields| - 1]), fields[|fields| - 1])
  }

  /** The group names, in dict order. */
  function Names(gs: seq<Group>): seq<string> {
    seq(|gs|, i requires 0 <= i < |gs| => gs[i].name)
  }

  /** Some group is called `name`. */
  predicate HasGroup(gs: seq<Group>, name: string) {
    exists i :: 0 <= i < |gs| && gs[i].name == name
  }

  predicate DistinctNames(gs: seq<Group>) {
    forall i, j :: 0 <= i < j < |gs| ==> gs[i].name != gs[j].name
  }

  function TotalSize(gs: seq<Group>): nat {
    if gs == [] then 0 else TotalSize(gs[..|gs| - 1]) + |gs[|gs| - 1].fields|
  }

  /** Every field's `x-group` names one of the groups. */
  lemma {:induction false} GroupsCover(fields: seq<Field>)
    ensures forall f :: f in fields ==> HasGroup(GroupFields(fields), f.group)
    decreases |fields|
  {
    if fields != [] {
      var init := fields[..|fields| - 1];
      var f := fields[|fields| - 1];
      GroupsCover(init);
      var prev := GroupFields(init);
      var gs := GroupFields(fields);
      assert |prev| <= |gs|;
      assert forall i :: 0 <= i < |prev| ==> gs[i].name == prev[i].name;
      forall g | g in fields
        ensures HasGroup(gs, g.group)
      {
        if g in init {
          var i :| 0 <= i < |prev| && prev[i].name == g.group;
          assert gs[i].name == g.group;
        } else {
          match Find(prev, f.group)
          case Some(i) =>
            assert gs[i].name == g.group;
          case None =>
            assert gs[|prev|].name == g.group;
        }
      }
    }
  }

  /** No two groups share a name. */
  lemma {:induction false} GroupsDistinct(fields: seq<Field>)
    ensures DistinctNames(GroupFields(fields))
    decreases |fields|
  {
    if fields != [] {
      var init := fields[..|fields| - 1];
      var f := fields[|fields| - 1];
      GroupsDistinct(init);
      var prev := GroupFields(init);
      var gs := GroupFields(fields);
      assert forall i :: 0 <= i < |prev| ==> gs[i].name == prev[i].name;
    }
  }

  /** Each group holds exactly the fields of its `x-group`, in input order, and is not empty. */
  lemma {:induction false} GroupsContents(fields: seq<Field>)
    ensures forall i :: 0 <= i < |GroupFields(fields)| ==>
      GroupFields(fields)[i].fields == InGroup(fields, GroupFields(fields)[i].name) && GroupFields(fields)[i].fields != []
    decreases |fields|
  {
    if fields != [] {
      var init := fields[..|fields| - 1];
      var f := fields[|fields| - 1];
      GroupsContents(init);
      var prev := GroupFields(init);
      assert forall j :: 0 <= j < |prev| ==> prev[j].fields == InGroup(init, prev[j].name) && prev[j].fields != [];
      var gs := GroupFields(fields);
      assert gs == AddField(prev, f);
      forall i | 0 <= i < |gs|
        ensures gs[i].fields == InGroup(fields, gs[i].name) && gs[i].fields != []
      {
        var name := gs[i].name;
        assert InGroup(fields, name) == InGroup(init, name) + (if f.group == name then [f] else []);
        match Find(prev, f.group)
        case Some(k) =>
          assert gs == prev[k := Group(f.group, prev[k].fields + [f])];
          if i != k {
            GroupsDistinct(init);
            assert gs[i] == prev[i];
            assert prev[i].name != f.group;
            assert gs[i].fields == InGroup(init, name);
          } else {
            assert prev[k].fields == InGroup(init, f.group);
            assert gs[i].fields == InGroup(init, name) + [f];
          }
        case None =>
          assert gs == prev + [Group(f.group, [f])];
          if i < |prev| {
            assert gs[i] == prev[i];
            assert prev[i].name != f.group;
            assert gs[i].fields == InGroup(init, name);
          } else {
            GroupsCover(init);
            forall g | g in init
              ensures g.group != f.group
            {
              var j :| 0 <= j < |prev| && prev[j].name == g.group;
            }
            InGroupEmpty(init, f.group);
          }
      }
    }
  }

  /**
   * The grouping is a partition: one group per distinct `x-group`, each
   * holding exactly the fields of that group in input order, with sizes
   * adding up to the number of fields.
   */
  lemma GroupFieldsPartition(fields: seq<Field>)
    ensures var gs := GroupFields(fields);
      && DistinctNames(gs)
      && (forall i :: 0 <= i < |gs| ==> gs[i].fields == InGroup(fields, gs[i].name) && gs[i].fields != [])
      && (forall f :: f in fields ==> HasGroup(gs, f.group))
      && TotalSize(gs) == |fields|
  {
    GroupsCover(fields);
    GroupsDistinct(fields);
    GroupsContents(fields);
    GroupSizesSum(fields);
  }

  /**
   * From schema to groups: `get_field_names` reads back the schema's keys in
   * order, no group of `get_fields_by_group` is named "", and an entry
   * without a truthy `x-group` lands in the "Non classé" group.
   */
  lemma SchemaKeysAndGroups(schema: seq<SchemaEntry>)
    ensures |FieldNames(NormalizeFields(schema))| == |schema|
    ensures forall i :: 0 <= i < |schema| ==> FieldNames(NormalizeFields(schema))[i] == schema[i].key
    ensures forall i :: 0 <= i < |GroupFields(NormalizeFields(schema))| ==> GroupFields(NormalizeFields(schema))[i].name != ""
    ensures forall i :: 0 <= i < |schema| && !Truthy(schema[i].group) ==>
      HasGroup(GroupFields(NormalizeFields(schema)), Unclassified)
  {
    var fields := NormalizeFields(schema);
    var gs := GroupFields(fields);
    GroupsContents(fields);
    GroupsCover(fields);
    forall i | 0 <= i < |gs|
      ensures gs[i].name != ""
    {
      var f := gs[i].fields[0];
      assert f in InGroup(fields, gs[i].name);
      var k :| 0 <= k < |fields| && fields[k] == f;
    }
    forall i | 0 <= i < |schema| && !Truthy(schema[i].group)
      ensures HasGroup(gs, Unclassified)
    {
      assert fields[i] in fields;
    }
  }

  lemma {:induction false} InGroupEmpty(fields: seq<Field>, name: string)
    requires forall f :: f in fields ==> f.group != name
    ensures InGroup(fields, name) == []
    decreases |fields|
  {
    if fields != [] {
      InGroupEmpty(fields[..|fields| - 1], name);
    }
  }

  /** The group sizes add up to the number of fields. */
  lemma {:induction false} GroupSizesSum(fields: seq<Field>)
    ensures TotalSize(GroupFields(fields)) == |fields|
    decreases |fields|
  {
    if fields != [] {
      var init := fields[..|fields| - 1];
      var f := fields[|fields| - 1];
      GroupSizesSum(init);
      var prev := GroupFields(init);
      match Find(prev, f.group)
      case Some(i) =>
        TotalSizeUpdate(prev, i, Group(f.group, prev[i].fields + [f]));
      case None =>
        assert (prev + [Group(f.group, [f])])[..|prev|] == prev;
    }
  }

  lemma {:induction false} TotalSizeUpdate(gs: seq<Group>, i: nat, g: Group)
    requires i < |gs|
    ensures TotalSize(gs[i := g]) + |gs[i].fields| == TotalSize(gs) + |g.fields|
    decreases |gs|
  {
    var n := |gs| - 1;
    if i < n {
      TotalSizeUpdate(gs[..n], i, g);
      assert gs[i := g][..n] == gs[..n][i := g];
    } else {
      assert gs[i := g][..n] == gs[..n];
    }
  }
}

=== FILE: ademe_pagination.dfy ===
/**
 * The paginated lines request of src/data_requesters/ademe.py:
 * `__get_length` (the count probe) and `custom_lines_request` (the loop that
 * follows `next` links, stops at `limit`, and reports progress).
 *
 * Every GET goes through the generic fetcher, whose observable result is the
 * JSON or a falsy value. The probe's reply is a parameter; the page replies
 * are the sequence of answers to the successive page requests, so page `k`
 * is the reply to the `k`-th page request. The model records every request
 * sent and every progress-callback invocation.
 */
module AdemePagination {
  import opened Wrappers

  /** A query-parameter value: the page size is an integer, filters are text. */
  datatype Param = IntParam(n: int) | TextParam(text: string)

  type Params = map<string, Param>

  /** One GET: its URL and its query parameters (`None` when the call passes none). */
  datatype Request = Request(url: string, params: Option<Params>)

  /** A page of the lines endpoint: `{results, next}`. */
  datatype Page<R> = Page(results: seq<R>, next: Option<string>)

  /** The count probe's JSON, whose `total` may be absent. */
  datatype CountReply = CountReply(total: Option<int>)

  /** One `progress_callback(fetched, total)` invocation. */
  datatype Progress = Progress(fetched: int, total: int)

  const BaseExisting: string := "https://data.ademe.fr/data-fair/api/v1/datasets/dpe03existant"
  const BaseNew: string := "https://data.ademe.fr/data-fair/api/v1/datasets/dpe02neuf"

  /** The lines endpoint of the existing-housing or the new-housing dataset. */
  function LinesUrl(neuf: bool): string {
    (if neuf then BaseNew else BaseExisting) + "/lines"
  }

  // ---------------------------------------------------------------------------
  // The count probe
  // ---------------------------------------------------------------------------

  /** The probe's params: the caller's params with `size` forced to 1. */
  function CountParams(params: Option<Params>): (p: Params)
    ensures "size" in p && p["size"] == IntParam(1)
    ensures params.Some? ==> p.Keys == params.value.Keys + {"size"}
    ensures params.Some? ==> forall k :: k in params.value && k != "size" ==> p[k] == params.value[k]
    ensures params.None? ==> p == map["size" := IntParam(1)]
  {
    if params.Some? && |params.value| > 0 then params.value + map["size" := IntParam(1)]
    else map["size" := IntParam(1)]
  }

  /** `{"size": size} | kwargs`: the page size, unless the caller's params set their own. */
  function PageParams(size: int, kwargs: Params): (p: Params)
    ensures p.Keys == kwargs.Keys + {"size"}
    ensures forall k :: k in kwargs ==> p[k] == kwargs[k]
    ensures "size" !in kwargs ==> p["size"] == IntParam(size)
  {
    map["size" := IntParam(size)] + kwargs
  }

  /** `__get_length`'s value: the reply's `total`, 0 without a reply or without the key. */
  function GetLength(reply: Option<CountReply>): (n: int)
    ensures reply.None? || reply.value.total.None? ==> n == 0
    ensures reply.Some? && reply.value.total.Some? ==> n == reply.value.total.value
  {
    match reply
    case None => 0
    case Some(data) => data.total.GetOr(0)
  }

  /** The total progress is reported against: `limit` when it is set and smaller. */
  function EffectiveTotal(total: int, limit: Option<int>): (t: int)
    ensures limit.None? ==> t == total
    ensures limit.Some? ==> t <= total && t <= limit.value && (t == total || t == limit.value)
  {
    if limit.Some? && limit.value < total then limit.value else total
  }

  // ---------------------------------------------------------------------------
  // Page replies
  // ---------------------------------------------------------------------------

  /** Python truthiness of the `url` loop variable. */
  predicate Falsy(url: Option<string>) {
    url.None? || |url.value| == 0
  }

  /** A reply that stops the loop by itself: no data, or no link to a next page. */
  predicate EndsChain<R>(reply: Option<Page<R>>) {
    reply.None? || Falsy(reply.value.next)
  }

  /** Some reply from position `i` on ends the chain of `next` links. */
  predicate ChainEnds<R>(pages: seq<Option<Page<R>>>, i: nat) {
    exists j :: i <= j < |pages| && EndsChain(pages[j])
  }

  /** The records a reply contributes: its results, none for a falsy reply. */
  function Results<R>(reply: Option<Page<R>>): seq<R> {
    if reply.Some? then reply.value.results else []
  }

  /** The records of replies `i` to `j - 1`, in receipt order. */
  function Received<R>(pages: seq<Option<Page<R>>>, i: nat, j: nat): seq<R>
    requires i <= j <= |pages|
    decreases j - i
  {
    if i == j then [] else Received(pages, i, j - 1) + Results(pages[j - 1])
  }

  /** Receiving more replies never loses records. */
  lemma {:induction false} ReceivedGrows<R>(pages: seq<Option<Page<R>>>, i: nat, j: nat, k: nat)
    requires i <= j <= k <= |pages|
    ensures |Received(pages, i, j)| <= |Received(pages, i, k)|
    decreases k - j
  {
    if j < k {
      ReceivedGrows(pages, i, j, k - 1);
      assert |Received(pages, i, k)| == |Received(pages, i, k - 1)| + |Results(pages[k - 1])|;
    }
  }

  /** The records after one more reply with data. */
  lemma ReceivedStep<R>(pages: seq<Option<Page<R>>>, n: nat, records: seq<R>)
    requires n < |pages| && pages[n].Some? && records == Received(pages, 0, n)
    ensures records + pages[n].value.results == Received(pages, 0, n + 1)
  {
  }

  /** The progress reports after each of the first `n` replies, with the records then held. */
  function Reports<R>(pages: seq<Option<Page<R>>>, n: nat, total: int): (ps: seq<Progress>)
    requires n <= |pages|
    ensures |ps| == n
  {
    if n == 0 then [] else Reports(pages, n - 1, total) + [Progress(|Received(pages, 0, n)|, total)]
  }

  lemma {:induction false} ReportsAt<R>(pages: seq<Option<Page<R>>>, n: nat, total: int, k: nat)
    requires k < n <= |pages|
    ensures Reports(pages, n, total)[k] == Progress(|Received(pages, 0, k + 1)|, total)
    decreases n
  {
    if k < n - 1 {
      ReportsAt(pages, n - 1, total, k);
    }
  }

  /** Each of the first `n` page requests was sent while fewer than `limit` records were held. */
  predicate UnderLimit<R>(pages: seq<Option<Page<R>>>, n: nat, limit: int)
    requires n <= |pages|
  {
    n == 0 || (UnderLimit(pages, n - 1, limit) && |Received(pages, 0, n - 1)| < limit)
  }

  lemma {:induction false} UnderLimitAt<R>(pages: seq<Option<Page<R>>>, n: nat, limit: int, k: nat)
    requires k < n <= |pages| && UnderLimit(pages, n, limit)
    ensures |Received(pages, 0, k)| < limit
    decreases n
  {
    if k < n - 1 {
      UnderLimitAt(pages, n - 1, limit, k);
    }
  }

  /** Request `req` goes to the non-empty `next` link of reply `j`, without params. */
  predicate Follows<R>(pages: seq<Option<Page<R>>>, j: nat, req: Request) {
    && j < |pages|
    && pages[j].Some?
    && pages[j].value.next == Some(req.url)
    && |req.url| > 0
    && req.params.None?
  }

  /** Each page request after the first follows the link of the reply before it. */
  predicate FollowsLinks<R>(pages: seq<Option<Page<R>>>, requests: seq<Request>) {
    forall j :: 1 <= j < |requests| ==> Follows(pages, j - 1, requests[j])
  }

  /** `FollowsLinks`, stated one request at a time, as the loop builds it. */
  predicate Chained<R>(pages: seq<Option<Page<R>>>, requests: seq<Request>)
    decreases |requests|
  {
    || |requests| <= 1
    || (Chained(pages, requests[..|requests| - 1]) && Follows(pages, |requests| - 2, requests[|requests| - 1]))
  }

  lemma ChainedExtend<R>(pages: seq<Option<Page<R>>>, sent: seq<Request>, req: Request)
    requires Chained(pages, sent)
    requires |sent| > 0 ==> Follows(pages, |sent| - 1, req)
    ensures Chained(pages, sent + [req])
  {
    assert (sent + [req])[..|sent|] == sent;
  }

  lemma {:induction false} ChainedFollows<R>(pages: seq<Option<Page<R>>>, requests: seq<Request>)
    requires Chained(pages, requests)
    ensures FollowsLinks(pages, requests)
    decreases |requests|
  {
    if |requests| > 1 {
      var n := |requests| - 1;
      ChainedFollows(pages, requests[..n]);
      forall j | 1 <= j <= n ensures Follows(pages, j - 1, requests[j]) {
        if j < n {
          assert requests[j] == requests[..n][j];
        }
      }
    }
  }

  // ---------------------------------------------------------------------------
  // custom_lines_request
  // ---------------------------------------------------------------------------

  /** The loop's variables: the next URL and params, and what was gathered so far. */
  datatype Loop<R> = Loop(url: Option<string>, params: Option<Params>, records: seq<R>,
                          requests: seq<Request>, progress: seq<Progress>)

  /** One turn of the loop on a reply with data: send, append, report, follow `next` without params. */
  function Next<R>(s: Loop<R>, page: Page<R>, total: int): (t: Loop<R>)
    requires s.url.Some?
    ensures |t.requests| == |s.requests| + 1 && t.requests[|s.requests|] == Request(s.url.value, s.params)
    ensures t.url == page.next && t.params.None?
  {
    var records := s.records + page.results;
    Loop(page.next, None, records, s.requests + [Request(s.url.value, s.params)],
         s.progress + [Progress(|records|, total)])
  }

  /**
   * The pagination loop, entered at `url0` with `params0`: stop at a falsy URL
   * or once `limit` records are held; otherwise fetch, stop on a falsy reply,
   * append its results, report progress and follow `next` without params.
   */
  method Paginate<R>(pages: seq<Option<Page<R>>>, url0: string, params0: Params, limit: Option<int>, total: int)
    returns (records: seq<R>, requests: seq<Request>, progress: seq<Progress>)
    requires |url0| > 0 && ChainEnds(pages, 0)
    ensures Paginated(pages, url0, params0, limit, total, records, requests, progress)
  {
    var st: Loop<R> := Loop(Some(url0), Some(params0), [], [], []);
    // A reply that ends the chain: the loop cannot run past it.
    ghost var end :| 0 <= end < |pages| && EndsChain(pages[end]);
    while !Falsy(st.url)
      invariant Looping(pages, url0, params0, limit, total, st)
      invariant Falsy(st.url) || |st.requests| <= end
      decreases end + 1 - |st.requests|
    {
      if limit.Some? && |st.records| >= limit.value {
        break;
      }
      var data := pages[|st.requests|];
      if data.None? {
        StoppedOnFalsyReply(pages, url0, params0, limit, total, st);
        records, requests, progress := st.records, st.requests + [Request(st.url.value, st.params)], st.progress;
        return;
      }
      Advance(pages, url0, params0, limit, total, st);
      st := Next(st, data.value, total);
    }
    Stopped(pages, url0, params0, limit, total, st);
    records, requests, progress := st.records, st.requests, st.progress;
  }

  /**
   * What the pagination loop leaves behind: the requests it sent, the first
   * with `params0` and each later one along the `next` link of the reply
   * before it; the records of their replies in receipt order; one progress
   * report per reply with data; each request sent while fewer than `limit`
   * records were held; and a stop because the chain ended or the limit was
   * reached.
   */
  ghost predicate Paginated<R>(pages: seq<Option<Page<R>>>, url0: string, params0: Params, limit: Option<int>,
                               total: int, records: seq<R>, requests: seq<Request>, progress: seq<Progress>)
  {
    && |requests| <= |pages|
    && records == Received(pages, 0, |requests|)
    && (|requests| > 0 ==> requests[0] == Request(url0, Some(params0)))
    && Chained(pages, requests)
    && (limit.Some? ==> UnderLimit(pages, |requests|, limit.value))
    && (|requests| == 0 ==> limit.Some? && limit.value <= 0)
    && (|requests| > 0 ==> EndsChain(pages[|requests| - 1]) || (limit.Some? && |records| >= limit.value))
    && |progress| == (if |requests| > 0 && pages[|requests| - 1].None? then |requests| - 1 else |requests|)
    && progress == Reports(pages, |progress|, total)
  }

  /** The loop stops at a falsy URL or at the limit, having received every reply it asked for. */
  lemma Stopped<R>(pages: seq<Option<Page<R>>>, url0: string, params0: Params, limit: Option<int>, total: int,
                   st: Loop<R>)
    requires Looping(pages, url0, params0, limit, total, st)
    requires |url0| > 0 && (Falsy(st.url) || (limit.Some? && |st.records| >= limit.value))
    ensures Paginated(pages, url0, params0, limit, total, st.records, st.requests, st.progress)
  {
  }

  /** The loop stops at a falsy reply: the request was sent, nothing was received. */
  lemma StoppedOnFalsyReply<R>(pages: seq<Option<Page<R>>>, url0: string, params0: Params, limit: Option<int>,
                               total: int, st: Loop<R>)
    requires Looping(pages, url0, params0, limit, total, st)
    requires !Falsy(st.url) && !(limit.Some? && |st.records| >= limit.value)
    requires |st.requests| < |pages| && pages[|st.requests|].None?
    ensures Paginated(pages, url0, params0, limit, total, st.records,
                      st.requests + [Request(st.url.value, st.params)], st.progress)
  {
    var req := Request(st.url.value, st.params);
    ChainedExtend(pages, st.requests, req);
    assert Received(pages, 0, |st.requests| + 1) == Received(pages, 0, |st.requests|) + [];
  }

  /**
   * The loop invariant: `requests` were sent, the first with `params0` and
   * each later one along the `next` link of a reply with data, every reply so
   * far had data, and `url`, `params` are those of the next request.
   */
  ghost predicate Looping<R>(pages: seq<Option<Page<R>>>, url0: string, params0: Params, limit: Option<int>, total: int,
                             st: Loop<R>)
  {
    var n := |st.requests|;
    && n <= |pages|
    && st.records == Received(pages, 0, n)
    && (n == 0 ==> st.url == Some(url0) && st.params == Some(params0))
    && (n > 0 ==>
        && st.requests[0] == Request(url0, Some(params0))
        && pages[n - 1].Some?
        && st.url == pages[n - 1].value.next
        && st.params.None?)
    && Chained(pages, st.requests)
    && (limit.Some? ==> UnderLimit(pages, n, limit.value))
    && st.progress == Reports(pages, n, total)
  }

  /** One turn of the loop on a reply with data keeps the invariant. */
  lemma Advance<R>(pages: seq<Option<Page<R>>>, url0: string, params0: Params, limit: Option<int>, total: int,
                   st: Loop<R>)
    requires Looping(pages, url0, params0, limit, total, st)
    requires !Falsy(st.url) && !(limit.Some? && |st.records| >= limit.value)
    requires |st.requests| < |pages| && pages[|st.requests|].Some?
    ensures Looping(pages, url0, params0, limit, total, Next(st, pages[|st.requests|].value, total))
  {
    var n := |st.requests|;
    var page := pages[n].value;
    var t := Next(st, page, total);
    ChainedExtend(pages, st.requests, Request(st.url.value, st.params));
    ReceivedStep(pages, n, st.records);
    assert t.records == Received(pages, 0, n + 1);
    assert t.progress == Reports(pages, n + 1, total);
    assert limit.Some? ==> UnderLimit(pages, n + 1, limit.value);
    assert t.requests[0] == Request(url0, Some(params0));
  }

  /** What the loop's one-step invariants say about every request and report. */
  lemma LoopFacts<R>(pages: seq<Option<Page<R>>>, requests: seq<Request>, limit: Option<int>,
                     progress: seq<Progress>, total: int)
    requires |progress| <= |requests| <= |pages|
    requires Chained(pages, requests)
    requires limit.Some? ==> UnderLimit(pages, |requests|, limit.value)
    requires progress == Reports(pages, |progress|, total)
    ensures FollowsLinks(pages, requests)
    ensures limit.Some? ==> forall k :: 0 <= k < |requests| ==> |Received(pages, 0, k)| < limit.value
    ensures forall k :: 0 <= k < |progress| ==> progress[k] == Progress(|Received(pages, 0, k + 1)|, total)
  {
    ChainedFollows(pages, requests);
    if limit.Some? {
      forall k | 0 <= k < |requests| ensures |Received(pages, 0, k)| < limit.value {
        UnderLimitAt(pages, |requests|, limit.value, k);
      }
    }
    forall k | 0 <= k < |progress| ensures progress[k] == Progress(|Received(pages, 0, k + 1)|, total) {
      ReportsAt(pages, |progress|, total, k);
    }
  }

  /**
   * What `custom_lines_request` promises, for the probe reply `count` and the
   * page replies `pages`.
   */
  ghost predicate LinesRequested<R>(neuf: bool, size: int, kwargs: Params, limit: Option<int>, hasCallback: bool,
                                    count: Option<CountReply>, pages: seq<Option<Page<R>>>,
                                    records: seq<R>, requests: seq<Request>, progress: seq<Progress>)
  {
    var params := PageParams(size, kwargs);
    var total := EffectiveTotal(GetLength(count), limit);
    // The probe comes first, with size 1; the first page request carries the params.
    && |requests| >= 1
    && requests[0] == Request(LinesUrl(neuf), Some(CountParams(Some(params))))
    && (|requests| >= 2 ==> requests[1] == Request(LinesUrl(neuf), Some(params)))
    && |requests| - 1 <= |pages|
    // The result is the concatenation of the pages fetched, in order.
    && records == Received(pages, 0, |requests| - 1)
    // Every page request after the first follows the non-empty `next` link of
    // the page before it, without params: every page but the last continued the chain.
    && FollowsLinks(pages, requests[1..])
    // Progress starts at (0, effective total), even when that total is 0, and
    // then reports, against the same total, the records held after each page
    // received: one report per reply with data, that is every page request but
    // a last one answered by a falsy reply.
    && (hasCallback ==>
        && |progress| == (if |requests| >= 2 && pages[|requests| - 2].None? then |requests| - 1 else |requests|)
        && progress[0] == Progress(0, total))
    && (!hasCallback ==> progress == [])
    && (forall k :: 1 <= k < |progress| ==> progress[k] == Progress(|Received(pages, 0, k)|, total))
    // A zero total sends no page request.
    && (total == 0 ==> records == [] && |requests| == 1)
    // Each page was requested while fewer than `limit` records were held; so
    // the result overshoots the limit by less than the last page.
    && (limit.Some? ==> forall k :: 0 <= k < |requests| - 1 ==> |Received(pages, 0, k)| < limit.value)
    // Otherwise the loop stopped because the chain ended or the limit was reached.
    && (total != 0 && |requests| == 1 ==> limit.Some? && limit.value <= 0)
    && (total != 0 && |requests| >= 2 ==> EndsChain(pages[|requests| - 2]) || (limit.Some? && |records| >= limit.value))
  }

  /**
   * `custom_lines_request`: probe the total, report `(0, total)`, return at
   * once when the total is 0, and otherwise run the pagination loop from the
   * lines URL with `{"size": size} | kwargs`.
   */
  method CustomLinesRequest<R>(neuf: bool, size: int, kwargs: Params, limit: Option<int>, hasCallback: bool,
                               count: Option<CountReply>, pages: seq<Option<Page<R>>>)
    returns (records: seq<R>, requests: seq<Request>, progress: seq<Progress>)
    requires ChainEnds(pages, 0)
    ensures LinesRequested(neuf, size, kwargs, limit, hasCallback, count, pages, records, requests, progress)
  {
    var url := LinesUrl(neuf);
    var params := PageParams(size, kwargs);
    var probe := Request(url, Some(CountParams(Some(params))));
    var total := EffectiveTotal(GetLength(count), limit);
    if total == 0 {
      records, requests, progress := [], [probe], if hasCallback then [Progress(0, total)] else [];
      NothingPaged(neuf, size, kwargs, limit, hasCallback, count, pages, records, requests, progress);
      return;
    }
    var reqs, reports;
    records, reqs, reports := Paginate(pages, url, params, limit, total);
    requests := [probe] + reqs;
    progress := if hasCallback then [Progress(0, total)] + reports else [];
    Assembled(neuf, size, kwargs, limit, hasCallback, count, pages, records, requests, progress, reqs, reports);
  }

  /** A zero total: only the probe was sent, and at most the initial report made. */
  lemma NothingPaged<R>(neuf: bool, size: int, kwargs: Params, limit: Option<int>, hasCallback: bool,
                        count: Option<CountReply>, pages: seq<Option<Page<R>>>,
                        records: seq<R>, requests: seq<Request>, progress: seq<Progress>)
    requires EffectiveTotal(GetLength(count), limit) == 0
    requires records == []
    requires requests == [Request(LinesUrl(neuf), Some(CountParams(Some(PageParams(size, kwargs)))))]
    requires progress == if hasCallback then [Progress(0, 0)] else []
    ensures LinesRequested(neuf, size, kwargs, limit, hasCallback, count, pages, records, requests, progress)
  {
    assert requests[1..] == [];
  }

  /** The loop's results behind the probe and the initial report. */
  lemma Assembled<R>(neuf: bool, size: int, kwargs: Params, limit: Option<int>, hasCallback: bool,
                     count: Option<CountReply>, pages: seq<Option<Page<R>>>,
                     records: seq<R>, requests: seq<Request>, progress: seq<Progress>,
                     reqs: seq<Request>, reports: seq<Progress>)
    requires EffectiveTotal(GetLength(count), limit) != 0
    requires Paginated(pages, LinesUrl(neuf), PageParams(size, kwargs), limit, EffectiveTotal(GetLength(count), limit),
                       records, reqs, reports)
    requires requests == [Request(LinesUrl(neuf), Some(CountParams(Some(PageParams(size, kwargs)))))] + reqs
    requires progress == if hasCallback then [Progress(0, EffectiveTotal(GetLength(count), limit))] + reports else []
    ensures LinesRequested(neuf, size, kwargs, limit, hasCallback, count, pages, records, requests, progress)
  {
    var total := EffectiveTotal(GetLength(count), limit);
    LoopFacts(pages, reqs, limit, reports, total);
    assert requests[1..] == reqs;
    if hasCallback {
      ReportsShifted(pages, reports, total, progress);
    }
  }

  /** Behind the initial `(0, total)`, report `k` holds the records of the first `k` replies. */
  lemma ReportsShifted<R>(pages: seq<Option<Page<R>>>, reports: seq<Progress>, total: int, progress: seq<Progress>)
    requires |reports| <= |pages|
    requires forall k :: 0 <= k < |reports| ==> reports[k] == Progress(|Received(pages, 0, k + 1)|, total)
    requires progress == [Progress(0, total)] + reports
    ensures forall k :: 1 <= k < |progress| ==> progress[k] == Progress(|Received(pages, 0, k)|, total)
  {
    forall k | 1 <= k < |progress| ensures progress[k] == Progress(|Received(pages, 0, k)|, total) {
      assert progress[k] == reports[k - 1];
    }
  }

  /** Progress reports of growing prefixes never decrease. */
  lemma ProgressGrows<R>(pages: seq<Option<Page<R>>>, progress: seq<Progress>, total: int)
    requires |progress| >= 1 && progress[0] == Progress(0, total) && |progress| - 1 <= |pages|
    requires forall k :: 1 <= k < |progress| ==> progress[k].fetched == |Received(pages, 0, k)|
    ensures forall a, b :: 0 <= a <= b < |progress| ==> progress[a].fetched <= progress[b].fetched
  {
    forall a, b | 0 <= a <= b < |progress|
      ensures progress[a].fetched <= progress[b].fetched
    {
      if a > 0 {
        ReceivedGrows(pages, 0, a, b);
      }
    }
  }
}

=== FILE: cleaner.dfy ===
/**
 * `DataCleaner` of src/processing/data_cleaner.py as a whole: the reference
 * tables its constructor builds and `clean_all`, which runs the eleven
 * stages in a fixed order on the raw ADEME table.
 *
 * The pipeline is composed in two halves: the stages that select rows
 * (dating, projection, the cost, energy, surface and storey stages) and the
 * stages that only rewrite or add columns (codes, coordinates, zones,
 * altitude).
 */
module Cleaner {
  import opened Wrappers
  import opened Tables
  import ConstructionYear
  import Selection
  import Outliers
  import EnergyLabels
  import Codes
  import Enrichment
  import DataPreparation

  /** What the constructor reads: the climate-zone file and the communes file. */
  datatype References = References(zones: seq<Enrichment.ZoneLine>, cities: seq<Enrichment.City>)

  /** The columns `clean_all` leaves: the whitelist without `_geopoint`, and the five columns the later stages add. */
  predicate FinalColumn(c: string) {
    FormattedColumn(Selection.RelevantColumns, c)
  }

  /** The columns of a table with columns `cols` once its columns are rewritten. */
  predicate FormattedColumn(cols: seq<string>, c: string) {
    || (c in cols && c != Codes.GeoColumn)
    || c == Codes.LatColumn || c == Codes.LonColumn
    || c == Enrichment.ZoneColumn || c == Enrichment.CityCodeColumn || c == Enrichment.AltitudeColumn
  }

  /** What every cleaned row carries: a year with its age, and 1 to 10 storeys. */
  predicate CleanRow(x: Row, currentYear: int) {
    && ConstructionYear.RowDated(x, currentYear)
    && Outliers.LevelColumn in x && Outliers.Within(x[Outliers.LevelColumn], 1.0, 10.0)
  }

  predicate AllDated(rows: seq<Row>, currentYear: int) {
    forall x :: x in rows ==> ConstructionYear.RowDated(x, currentYear)
  }

  /** Row `y` holds the cell row `x` holds in column `c`. */
  predicate KeepsCell(x: Row, y: Row, c: string) {
    c in x ==> c in y && y[c] == x[c]
  }

  /** Row for row, the year, age and storey cells are unchanged. */
  predicate KeepsChecked(before: seq<Row>, after: seq<Row>) {
    && |after| == |before|
    && forall i :: 0 <= i < |before| ==>
      && KeepsCell(before[i], after[i], ConstructionYear.YearColumn)
      && KeepsCell(before[i], after[i], ConstructionYear.AgeColumn)
      && KeepsCell(before[i], after[i], Outliers.LevelColumn)
  }

  // ---------------------------------------------------------------------------
  // The stages that select rows
  // ---------------------------------------------------------------------------

  /** `add_construction_year` through `level_cleaning`. */
  function SelectRows(f: Frame, currentYear: int): (r: Result<Frame, CleanError>)
    requires WellFormed(f)
    ensures r.Ok? ==> WellFormed(r.value) && r.value.columns == Selection.RelevantColumns
    // Rows are only dropped, and those kept are dated and have 1 to 10 storeys.
    ensures r.Ok? ==> |r.value.rows| <= |f.rows|
    ensures r.Ok? ==> forall x :: x in r.value.rows ==> CleanRow(x, currentYear)
  {
    match ConstructionYear.AddConstructionYear(f, currentYear)
    case Err(e) => Err(e)
    case Ok(dated) =>
      match Selection.SelectRelevantVariables(dated)
      case Err(e) => Err(e)
      case Ok(selected) =>
        DatedColumnsSelected();
        SelectionKeepsDated(dated, Selection.RelevantColumns, currentYear);
        match Outliers.CostCleaning(selected)
        case Err(e) => Err(e)
        case Ok(costed) =>
          IqrKeepsDated(selected, Outliers.CostColumn, currentYear);
          match EnergyLabels.EnergieTypeCleaning(costed)
          case Err(e) => Err(e)
          case Ok(labelled) =>
            EnergyKeepsDated(costed, currentYear);
            match Outliers.SurfaceCleaning(labelled)
            case Err(e) => Err(e)
            case Ok(surfaced) =>
              IqrKeepsDated(labelled, Outliers.SurfaceColumn, currentYear);
              match Outliers.LevelCleaning(surfaced)
              case Err(e) => Err(e)
              case Ok(levelled) =>
                LevelKeepsDated(surfaced, currentYear);
                Ok(levelled)
  }

  /** The projection keeps the year and age columns, so it keeps every row dated. */
  lemma SelectionKeepsDated(f: Frame, cols: seq<string>, currentYear: int)
    requires WellFormed(f) && ConstructionYear.AlreadyDated(f, currentYear)
    requires ConstructionYear.YearColumn in cols && ConstructionYear.AgeColumn in cols
    requires Selection.SelectColumns(f, cols).Ok?
    ensures AllDated(Selection.SelectColumns(f, cols).value.rows, currentYear)
    ensures |Selection.SelectColumns(f, cols).value.rows| == |f.rows|
  {
    var g := Selection.SelectColumns(f, cols).value;
    forall x | x in g.rows ensures ConstructionYear.RowDated(x, currentYear) {
      var i :| 0 <= i < |g.rows| && g.rows[i] == x;
      assert ConstructionYear.RowDated(f.rows[i], currentYear);
    }
  }

  /** The IQR rule keeps a subsequence, so the rows it keeps are still dated. */
  lemma IqrKeepsDated(f: Frame, col: string, currentYear: int)
    requires WellFormed(f) && Outliers.IqrFilter(f, col).Ok? && AllDated(f.rows, currentYear)
    ensures AllDated(Outliers.IqrFilter(f, col).value.rows, currentYear)
    ensures |Outliers.IqrFilter(f, col).value.rows| <= |f.rows|
  {
    SubsequenceShorter(Outliers.IqrFilter(f, col).value.rows, f.rows);
  }

  /** Relabelling the energy keeps the year and age cells. */
  lemma EnergyKeepsDated(f: Frame, currentYear: int)
    requires WellFormed(f) && EnergyLabels.EnergieTypeCleaning(f).Ok? && AllDated(f.rows, currentYear)
    ensures AllDated(EnergyLabels.EnergieTypeCleaning(f).value.rows, currentYear)
  {
    var g := EnergyLabels.EnergieTypeCleaning(f).value;
    forall x | x in g.rows ensures ConstructionYear.RowDated(x, currentYear) {
      var i :| 0 <= i < |g.rows| && g.rows[i] == x;
      assert f.rows[i] in f.rows;
    }
  }

  /** The storey filter keeps dated rows, and each row it keeps has 1 to 10 storeys. */
  lemma LevelKeepsDated(f: Frame, currentYear: int)
    requires WellFormed(f) && Outliers.LevelCleaning(f).Ok? && AllDated(f.rows, currentYear)
    ensures forall x :: x in Outliers.LevelCleaning(f).value.rows ==> CleanRow(x, currentYear)
    ensures |Outliers.LevelCleaning(f).value.rows| <= |f.rows|
  {
    SubsequenceShorter(Outliers.LevelCleaning(f).value.rows, f.rows);
  }

  // ---------------------------------------------------------------------------
  // The stages that rewrite columns
  // ---------------------------------------------------------------------------

  /** `insee_code_cleaning` through `extract_altitude`. */
  function FormatColumns(f: Frame, refs: References, render: real -> string, parse: string -> Option<real>)
    : (r: Result<Frame, CleanError>)
    requires WellFormed(f) && Enrichment.UniqueCodes(refs.cities)
    requires Enrichment.CityCodeColumn !in f.columns && Enrichment.AltitudeColumn !in f.columns
    ensures r.Ok? ==> WellFormed(r.value) && forall c :: c in r.value.columns <==> FormattedColumn(f.columns, c)
    // Row for row, the checked cells come through untouched.
    ensures r.Ok? ==> KeepsChecked(f.rows, r.value.rows)
  {
    match FormatCodes(f, render, parse)
    case Err(e) => Err(e)
    case Ok(located) =>
      match Enrich(located, refs)
      case Err(e) => Err(e)
      case Ok(enriched) =>
        FormattedColumns(f.columns);
        Ok(enriched)
  }

  /** `insee_code_cleaning`, `clean_department_code` and `split_coordinates`. */
  function FormatCodes(f: Frame, render: real -> string, parse: string -> Option<real>): (r: Result<Frame, CleanError>)
    requires WellFormed(f)
    ensures r.Ok? ==> WellFormed(r.value) && r.value.columns == Codes.SplitColumns(f.columns)
    ensures r.Ok? ==> KeepsChecked(f.rows, r.value.rows)
  {
    match Codes.InseeCodeCleaning(f, render)
    case Err(e) => Err(e)
    case Ok(coded) =>
      ZfillKeepsChecked(f, Codes.InseeColumn, 5, render);
      match Codes.CleanDepartmentCode(coded, render)
      case Err(e) => Err(e)
      case Ok(departed) =>
        ZfillKeepsChecked(coded, Codes.DepartmentColumn, 2, render);
        match Codes.SplitCoordinates(departed, parse)
        case Err(e) => Err(e)
        case Ok(located) =>
          SplitKeepsChecked(departed, parse);
          Ok(located)
  }

  /** The columns after the zone and altitude stages. */
  function EnrichedColumns(cols: seq<string>): seq<string> {
    WithColumn(cols, Enrichment.ZoneColumn) + [Enrichment.CityCodeColumn, Enrichment.AltitudeColumn]
  }

  /** The columns after the three code stages and the two enrichment stages. */
  lemma FormattedColumns(cols: seq<string>)
    ensures forall c :: c in EnrichedColumns(Codes.SplitColumns(cols)) <==> FormattedColumn(cols, c)
  {
  }

  /** `map_climate_zones` and `extract_altitude`. */
  function Enrich(f: Frame, refs: References): (r: Result<Frame, CleanError>)
    requires WellFormed(f) && Enrichment.UniqueCodes(refs.cities)
    requires Enrichment.CityCodeColumn !in f.columns && Enrichment.AltitudeColumn !in f.columns
    ensures r.Ok? ==> WellFormed(r.value)
    ensures r.Ok? ==> r.value.columns == EnrichedColumns(f.columns)
    ensures r.Ok? ==> KeepsChecked(f.rows, r.value.rows)
  {
    var table := Enrichment.ZoneTable(refs.zones);
    match Enrichment.MapClimateZones(f, table)
    case Err(e) => Err(e)
    case Ok(zoned) =>
      ZonesKeepChecked(f, table);
      match Enrichment.ExtractAltitude(zoned, refs.cities)
      case Err(e) => Err(e)
      case Ok(enriched) =>
        AltitudeKeepsChecked(zoned, refs.cities);
        Ok(enriched)
  }

  /** Neither column the altitude merge adds is in the whitelist. */
  lemma NoMergeClash()
    ensures Enrichment.CityCodeColumn !in Selection.RelevantColumns
    ensures Enrichment.AltitudeColumn !in Selection.RelevantColumns
  {
  }

  /** The projection keeps the year and age columns. */
  lemma DatedColumnsSelected()
    ensures ConstructionYear.YearColumn in Selection.RelevantColumns
    ensures ConstructionYear.AgeColumn in Selection.RelevantColumns
  {
  }

  lemma ZfillKeepsChecked(f: Frame, col: string, width: nat, render: real -> string)
    requires WellFormed(f) && Codes.ZfillColumn(f, col, width, render).Ok?
    requires col == Codes.InseeColumn || col == Codes.DepartmentColumn
    ensures KeepsChecked(f.rows, Codes.ZfillColumn(f, col, width, render).value.rows)
  {
  }

  lemma SplitKeepsChecked(f: Frame, parse: string -> Option<real>)
    requires WellFormed(f) && Codes.SplitCoordinates(f, parse).Ok?
    ensures KeepsChecked(f.rows, Codes.SplitCoordinates(f, parse).value.rows)
  {
    var g := Codes.SplitCoordinates(f, parse).value;
    forall i | 0 <= i < |f.rows|
      ensures KeepsCell(f.rows[i], g.rows[i], ConstructionYear.YearColumn)
      ensures KeepsCell(f.rows[i], g.rows[i], ConstructionYear.AgeColumn)
      ensures KeepsCell(f.rows[i], g.rows[i], Outliers.LevelColumn)
    {
      assert f.rows[i] in f.rows;
    }
  }

  lemma ZonesKeepChecked(f: Frame, table: map<string, string>)
    requires WellFormed(f) && Enrichment.MapClimateZones(f, table).Ok?
    ensures KeepsChecked(f.rows, Enrichment.MapClimateZones(f, table).value.rows)
  {
  }

  lemma AltitudeKeepsChecked(f: Frame, cities: seq<Enrichment.City>)
    requires WellFormed(f) && Enrichment.UniqueCodes(cities)
    requires Enrichment.CityCodeColumn !in f.columns && Enrichment.AltitudeColumn !in f.columns
    requires Enrichment.ExtractAltitude(f, cities).Ok?
    ensures KeepsChecked(f.rows, Enrichment.ExtractAltitude(f, cities).value.rows)
  {
    var g := Enrichment.ExtractAltitude(f, cities).value;
    forall i | 0 <= i < |f.rows|
      ensures KeepsCell(f.rows[i], g.rows[i], ConstructionYear.YearColumn)
      ensures KeepsCell(f.rows[i], g.rows[i], ConstructionYear.AgeColumn)
      ensures KeepsCell(f.rows[i], g.rows[i], Outliers.LevelColumn)
    {
      assert f.rows[i] in f.rows;
    }
  }

  // ---------------------------------------------------------------------------
  // clean_all
  // ---------------------------------------------------------------------------

  /** `clean_all`: every stage in order; the first exception stops the chain. */
  function CleanAll(f: Frame, refs: References, currentYear: int, render: real -> string, parse: string -> Option<real>)
    : (r: Result<Frame, CleanError>)
    requires WellFormed(f) && Enrichment.UniqueCodes(refs.cities)
    // The cleaned table has exactly the final columns,
    ensures r.Ok? ==> WellFormed(r.value) && forall c :: c in r.value.columns <==> FinalColumn(c)
    // no more rows than the raw one,
    ensures r.Ok? ==> |r.value.rows| <= |f.rows|
    // and every row is dated, with 1 to 10 storeys.
    ensures r.Ok? ==> forall x :: x in r.value.rows ==> CleanRow(x, currentYear)
  {
    match SelectRows(f, currentYear)
    case Err(e) => Err(e)
    case Ok(g) =>
      NoMergeClash();
      match FormatColumns(g, refs, render, parse)
      case Err(e) => Err(e)
      case Ok(h) =>
        CheckedRowsStayClean(g.rows, h.rows, currentYear);
        Ok(h)
  }

  /** Rows whose year, age and storey cells are untouched stay clean. */
  lemma CheckedRowsStayClean(before: seq<Row>, after: seq<Row>, currentYear: int)
    requires KeepsChecked(before, after)
    requires forall x :: x in before ==> CleanRow(x, currentYear)
    ensures forall x :: x in after ==> CleanRow(x, currentYear)
  {
    forall x | x in after ensures CleanRow(x, currentYear) {
      var i :| 0 <= i < |after| && after[i] == x;
      assert before[i] in before;
    }
  }

  /** Every column of the feature table the prediction service builds is a column of the cleaned table. */
  lemma FeaturesAreFinalColumns()
    ensures forall c :: c in DataPreparation.FeatureColumns ==> FinalColumn(c)
  {
    var features := DataPreparation.FeatureColumns;
    forall k | 0 <= k < |features| ensures FinalColumn(features[k]) {
      var c := features[k];
      if k == 0 {
        Whitelisted(c, 0);
      } else if k == 1 {
        Whitelisted(c, 12);
      } else if k == 2 {
        Whitelisted(c, 13);
      } else if k == 3 {
        Whitelisted(c, 30);
      } else if k == 5 {
        Whitelisted(c, 29);
      } else if k == 6 {
        Whitelisted(c, 14);
      }
    }
  }

  lemma Whitelisted(c: string, k: nat)
    requires k < |Selection.RelevantColumns| && Selection.RelevantColumns[k] == c && c != Codes.GeoColumn
    ensures FinalColumn(c)
  {
  }
}

=== FILE: codes.dfy ===
/**
 * The text-column stages of src/processing/data_cleaner.py:
 * `insee_code_cleaning` and `clean_department_code` (render the code as a
 * string and left-pad it with zeros) and `split_coordinates` (turn the
 * `"lat,lon"` text of `_geopoint` into two float columns).
 *
 * Rendering a float (`str(48.85)`) and parsing one (`float("48.85")`) are
 * parameters: the model does not fix Python's float formatting.
 */
module Codes {
  import opened Wrappers
  import opened Tables
  import PyStr

  const InseeColumn: string := "code_insee_ban"
  const DepartmentColumn: string := "code_departement_ban"
  const GeoColumn: string := "_geopoint"
  const LatColumn: string := "lat"
  const LonColumn: string := "lon"

  // ---------------------------------------------------------------------------
  // astype(str) and zfill
  // ---------------------------------------------------------------------------

  /** `str(cell)`: NaN renders as "nan", integers in decimal, strings as themselves. */
  function AsString(c: Cell, render: real -> string): string {
    match c
    case Missing => "nan"
    case Int(i) => PyStr.Decimal(i)
    case Num(x) => render(x)
    case Text(s) => s
  }

  /** `df[col].astype(str).apply(lambda x: x.zfill(width))`. */
  function ZfillColumn(f: Frame, col: string, width: nat, render: real -> string): (r: Result<Frame, CleanError>)
    requires WellFormed(f)
    ensures r.Err? <==> col !in f.columns
    ensures r.Err? ==> r.error == MissingColumn(col)
    ensures r.Ok? ==> WellFormed(r.value) && r.value.columns == f.columns && |r.value.rows| == |f.rows|
    // Every code becomes its `str()` rendering padded by `zfill`,
    ensures r.Ok? ==> forall i :: 0 <= i < |f.rows| ==>
      r.value.rows[i][col] == Text(PyStr.Zfill(AsString(f.rows[i][col], render), width))
    // so a string of at least `width` characters,
    ensures r.Ok? ==> forall i :: 0 <= i < |f.rows| ==>
      r.value.rows[i][col].Text? && |r.value.rows[i][col].s| >= width
    // and every other cell is kept.
    ensures r.Ok? ==> forall i :: 0 <= i < |f.rows| ==>
      r.value.rows[i] == f.rows[i][col := r.value.rows[i][col]]
  {
    if col !in f.columns then Err(MissingColumn(col))
    else
      assert forall i :: 0 <= i < |f.rows| ==> f.rows[i] in f.rows;
      var rows := seq(|f.rows|, i requires 0 <= i < |f.rows| =>
        f.rows[i][col := Text(PyStr.Zfill(AsString(f.rows[i][col], render), width))]);
      assert forall r, c :: r in rows && c in f.columns ==> c in r by {
        forall r, c | r in rows && c in f.columns ensures c in r {
          var i :| 0 <= i < |rows| && rows[i] == r;
        }
      }
      Ok(Frame(f.columns, rows))
  }

  /** `insee_code_cleaning`: INSEE codes on five characters. */
  function InseeCodeCleaning(f: Frame, render: real -> string): (r: Result<Frame, CleanError>)
    requires WellFormed(f)
    ensures r.Err? <==> InseeColumn !in f.columns
    ensures r.Ok? ==> WellFormed(r.value) && r.value.columns == f.columns && |r.value.rows| == |f.rows|
    // Each INSEE code is rendered and padded to 5 characters,
    ensures r.Ok? ==> forall i :: 0 <= i < |f.rows| ==>
      r.value.rows[i][InseeColumn] == Text(PyStr.Zfill(AsString(f.rows[i][InseeColumn], render), 5))
    ensures r.Ok? ==> forall i :: 0 <= i < |f.rows| ==>
      r.value.rows[i][InseeColumn].Text? && |r.value.rows[i][InseeColumn].s| >= 5
    // and every other cell of the row is kept.
    ensures r.Ok? ==> forall i :: 0 <= i < |f.rows| ==>
      r.value.rows[i] == f.rows[i][InseeColumn := r.value.rows[i][InseeColumn]]
  {
    ZfillColumn(f, InseeColumn, 5, render)
  }

  /** `clean_department_code`: department codes on two characters. */
  function CleanDepartmentCode(f: Frame, render: real -> string): (r: Result<Frame, CleanError>)
    requires WellFormed(f)
    ensures r.Err? <==> DepartmentColumn !in f.columns
    ensures r.Ok? ==> WellFormed(r.value) && r.value.columns == f.columns && |r.value.rows| == |f.rows|
    // Each department code is rendered and padded to 2 characters,
    ensures r.Ok? ==> forall i :: 0 <= i < |f.rows| ==>
      r.value.rows[i][DepartmentColumn] == Text(PyStr.Zfill(AsString(f.rows[i][DepartmentColumn], render), 2))
    ensures r.Ok? ==> forall i :: 0 <= i < |f.rows| ==>
      r.value.rows[i][DepartmentColumn].Text? && |r.value.rows[i][DepartmentColumn].s| >= 2
    // and every other cell of the row is kept.
    ensures r.Ok? ==> forall i :: 0 <= i < |f.rows| ==>
      r.value.rows[i] == f.rows[i][DepartmentColumn := r.value.rows[i][DepartmentColumn]]
  {
    ZfillColumn(f, DepartmentColumn, 2, render)
  }

  /**
   * What the padding does to one cell: an integer or a digit string shorter
   * than `width` gains leading zeros and keeps its digits at the end.
   */
  lemma ZfillCell(c: Cell, width: nat, render: real -> string)
    requires c.Text? ==> !PyStr.Signed(c.s)
    requires c.Int? ==> c.i >= 0
    requires c.Num? ==> !PyStr.Signed(render(c.x))
    ensures |PyStr.Zfill(AsString(c, render), width)| >= width
    ensures |AsString(c, render)| < width ==>
      PyStr.Zfill(AsString(c, render), width) == PyStr.Zeros(width - |AsString(c, render)|) + AsString(c, render)
    ensures |AsString(c, render)| >= width ==> PyStr.Zfill(AsString(c, render), width) == AsString(c, render)
  {
    var s := AsString(c, render);
    if c.Missing? {
      assert s == "nan";
    } else if c.Int? {
      assert s == PyStr.NatDigits(c.i);
      assert PyStr.IsDigit(s[0]);
      assert !PyStr.Signed(s);

    }
  }

  /** Padding a padded column again changes nothing. */
  lemma ZfillColumnIdempotent(f: Frame, col: string, width: nat, render: real -> string)
    requires WellFormed(f) && ZfillColumn(f, col, width, render).Ok?
    ensures ZfillColumn(ZfillColumn(f, col, width, render).value, col, width, render)
            == ZfillColumn(f, col, width, render)
  {
    var g := ZfillColumn(f, col, width, render).value;
    var h := ZfillColumn(g, col, width, render).value;
    forall i | 0 <= i < |g.rows| ensures h.rows[i] == g.rows[i] {
      assert f.rows[i] in f.rows;
      PyStr.ZfillIdempotent(AsString(f.rows[i][col], render), width);
      assert h.rows[i][col] == g.rows[i][col];
      assert h.rows[i].Keys == g.rows[i].Keys;
    }
    assert h.rows == g.rows;
  }

  // ---------------------------------------------------------------------------
  // split_coordinates
  // ---------------------------------------------------------------------------

  /**
   * `str.split(",")` of one cell, as the pieces of its row once expanded: the
   * parts of a string; a single NaN for anything else.
   */
  function Pieces(c: Cell): (ps: seq<Option<string>>)
    ensures |ps| >= 1
    ensures c.Text? ==> |ps| == |PyStr.Split(c.s, ',')|
    ensures c.Text? ==> forall k :: 0 <= k < |ps| ==> ps[k] == Some(PyStr.Split(c.s, ',')[k])
    ensures !c.Text? ==> ps == [None]
  {
    if c.Text? then
      var parts := PyStr.Split(c.s, ',');
      seq(|parts|, k requires 0 <= k < |parts| => Some(parts[k]))
    else [None]
  }

  /** The piece in column `k` of the expanded table: rows with fewer pieces are padded with NaN. */
  function PieceAt(ps: seq<Option<string>>, k: nat): Option<string> {
    if k < |ps| then ps[k] else None
  }

  /** `expand=True` makes as many columns as the longest split. */
  function Width(cells: seq<Cell>): (w: nat)
    ensures forall i :: 0 <= i < |cells| ==> |Pieces(cells[i])| <= w
    ensures cells == [] <==> w == 0
  {
    if cells == [] then 0
    else
      var w := Width(cells[1..]);
      assert forall i :: 1 <= i < |cells| ==> cells[i] == cells[1..][i - 1];
      var first := |Pieces(cells[0])|;
      if first > w then first else w
  }

  /** The width is the number of pieces of some cell: it is their maximum. */
  lemma {:induction false} WidthAttained(cells: seq<Cell>)
    requires cells != []
    ensures exists i :: 0 <= i < |cells| && |Pieces(cells[i])| == Width(cells)
    decreases |cells|
  {
    var rest := cells[1..];
    if rest != [] && |Pieces(cells[0])| <= Width(rest) {
      WidthAttained(rest);
      var j :| 0 <= j < |rest| && |Pieces(rest[j])| == Width(rest);
      assert cells[j + 1] == rest[j];
    }
  }

  /** `astype(float)` accepts the piece: NaN, or a string `float` parses. */
  predicate Parses(p: Option<string>, parse: string -> Option<real>) {
    p.None? || parse(p.value).Some?
  }

  /** The float a piece becomes. */
  function PieceCell(p: Option<string>, parse: string -> Option<real>): Cell
    requires Parses(p, parse)
  {
    if p.None? then Missing else Num(parse(p.value).value)
  }

  /** A piece of some cell that `float` rejects, if there is one. */
  function BadToken(cells: seq<Cell>, parse: string -> Option<real>): (t: Option<string>)
    ensures t.None? <==> forall i, k :: 0 <= i < |cells| && 0 <= k < |Pieces(cells[i])| ==>
      Parses(Pieces(cells[i])[k], parse)
    ensures t.Some? ==> parse(t.value).None?
  {
    if cells == [] then None
    else
      match FirstBad(Pieces(cells[0]), parse)
      case Some(t) => Some(t)
      case None =>
        var rest := BadToken(cells[1..], parse);
        assert forall i :: 1 <= i < |cells| ==> cells[i] == cells[1..][i - 1];
        rest
  }

  function FirstBad(ps: seq<Option<string>>, parse: string -> Option<real>): (t: Option<string>)
    ensures t.None? <==> forall k :: 0 <= k < |ps| ==> Parses(ps[k], parse)
    ensures t.Some? ==> parse(t.value).None?
  {
    if ps == [] then None
    else if !Parses(ps[0], parse) then Some(ps[0].value)
    else
      var t := FirstBad(ps[1..], parse);
      assert forall k :: 1 <= k < |ps| ==> ps[k] == ps[1..][k - 1];
      t
  }

  /** The row after the split: `lat` and `lon` set, `_geopoint` dropped. */
  function SplitRow(r: Row, parse: string -> Option<real>): (d: Row)
    requires GeoColumn in r
    requires forall k :: 0 <= k < |Pieces(r[GeoColumn])| ==> Parses(Pieces(r[GeoColumn])[k], parse)
    ensures forall c :: c in d <==> (c in r || c == LatColumn || c == LonColumn) && c != GeoColumn
    ensures forall c :: c in r && c != LatColumn && c != LonColumn && c != GeoColumn ==> d[c] == r[c]
  {
    var ps := Pieces(r[GeoColumn]);
    r[LatColumn := PieceCell(PieceAt(ps, 0), parse)][LonColumn := PieceCell(PieceAt(ps, 1), parse)] - {GeoColumn}
  }

  /** The column list after the split. */
  function SplitColumns(cs: seq<string>): (r: seq<string>)
    ensures forall c :: c in r <==> (c in cs || c == LatColumn || c == LonColumn) && c != GeoColumn
  {
    WithoutColumn(WithColumn(WithColumn(cs, LatColumn), LonColumn), GeoColumn)
  }

  /** Every row split. */
  function SplitRows(rows: seq<Row>, parse: string -> Option<real>): (ds: seq<Row>)
    requires forall i :: 0 <= i < |rows| ==> GeoColumn in rows[i]
    requires BadToken(Column(rows, GeoColumn), parse).None?
    ensures |ds| == |rows|
    ensures forall i :: 0 <= i < |rows| ==> ds[i] == SplitRow(rows[i], parse)
  {
    var cells := Column(rows, GeoColumn);
    assert forall i :: 0 <= i < |rows| ==> cells[i] == rows[i][GeoColumn];
    seq(|rows|, i requires 0 <= i < |rows| => SplitRow(rows[i], parse))
  }

  /** `split_coordinates`. */
  function SplitCoordinates(f: Frame, parse: string -> Option<real>): (r: Result<Frame, CleanError>)
    requires WellFormed(f)
    // Reading `_geopoint` needs the column, every piece must be a float, and
    // the expanded table must have exactly the two columns assigned.
    ensures GeoColumn !in f.columns ==> r == Err(MissingColumn(GeoColumn))
    ensures GeoColumn in f.columns ==>
      (r.Ok? <==> BadToken(Column(f.rows, GeoColumn), parse).None? && Width(Column(f.rows, GeoColumn)) == 2)
    ensures r.Err? && GeoColumn in f.columns && BadToken(Column(f.rows, GeoColumn), parse).Some? ==>
      r.error == NotFloat(BadToken(Column(f.rows, GeoColumn), parse).value)
    ensures r.Ok? ==> WellFormed(r.value) && r.value.columns == SplitColumns(f.columns)
    // Each row gets the first two pieces as floats, loses `_geopoint`, keeps the rest.
    ensures r.Ok? ==> r.value.rows == SplitRows(f.rows, parse)
  {
    if GeoColumn !in f.columns then Err(MissingColumn(GeoColumn))
    else
      assert forall i :: 0 <= i < |f.rows| ==> f.rows[i] in f.rows;
      var cells := Column(f.rows, GeoColumn);
      match BadToken(cells, parse)
      case Some(t) => Err(NotFloat(t))
      case None =>
        var w := Width(cells);
        if w != 2 then Err(SplitWidth(w))
        else
          SplitWellFormed(f, parse);
          Ok(Frame(SplitColumns(f.columns), SplitRows(f.rows, parse)))
  }

  lemma SplitWellFormed(f: Frame, parse: string -> Option<real>)
    requires WellFormed(f) && GeoColumn in f.columns
    requires forall i :: 0 <= i < |f.rows| ==> GeoColumn in f.rows[i]
    requires BadToken(Column(f.rows, GeoColumn), parse).None?
    ensures WellFormed(Frame(SplitColumns(f.columns), SplitRows(f.rows, parse)))
  {
    var rows := SplitRows(f.rows, parse);
    var cols := SplitColumns(f.columns);
    forall r, c | r in rows && c in cols ensures c in r {
      var i :| 0 <= i < |rows| && rows[i] == r;
      assert f.rows[i] in f.rows;
    }
  }

  /**
   * The round trip: a point written `lat + "," + lon`, with each number
   * rendered so that `float` reads it back and without a comma, splits into
   * exactly those two numbers.
   */
  lemma SplitRowRoundTrip(r: Row, lat: real, lon: real, render: real -> string, parse: string -> Option<real>)
    requires parse(render(lat)) == Some(lat) && parse(render(lon)) == Some(lon)
    requires ',' !in render(lat) && ',' !in render(lon)
    requires GeoColumn in r && r[GeoColumn] == Text(render(lat) + "," + render(lon))
    ensures |Pieces(r[GeoColumn])| == 2
    ensures forall k :: 0 <= k < |Pieces(r[GeoColumn])| ==> Parses(Pieces(r[GeoColumn])[k], parse)
    ensures SplitRow(r, parse)[LatColumn] == Num(lat) && SplitRow(r, parse)[LonColumn] == Num(lon)
  {
    var parts := [render(lat), render(lon)];
    assert PyStr.Join(parts, ',') == render(lat) + "," + render(lon) by {
      assert PyStr.Join(parts[1..], ',') == render(lon);
    }
    PyStr.SplitJoin(parts, ',');
  }
}

=== FILE: construction_year.dfy ===
/**
 * `add_construction_year` of src/processing/data_cleaner.py: make sure every
 * row has an integer construction year (the current year for the new-housing
 * dataset, which has no such column; the median year for rows lacking one)
 * and derive the building's age from it.
 *
 * The current year (`datetime.now().year`) is a parameter.
 */
module ConstructionYear {
  import opened Wrappers
  import opened Tables
  import Stats

  const YearColumn: string := "annee_construction"
  const AgeColumn: string := "age_batiment"

  /** `astype(int)` of a float: truncation toward zero. */
  function Truncate(x: real): (n: int)
    ensures 0.0 <= x ==> n as real <= x < n as real + 1.0
    ensures x < 0.0 ==> n as real - 1.0 < x <= n as real
  {
    if x >= 0.0 then x.Floor else -((-x).Floor)
  }

  /** The year a cell holds after `fillna(fill)` and `astype(int)`. */
  function YearOf(c: Cell, fill: real): int {
    match c
    case Int(i) => i
    case Num(x) => Truncate(x)
    case _ => Truncate(fill)
  }

  /** The table after `df[YearColumn] = current_year` when the column is absent. */
  function WithYear(f: Frame, currentYear: int): (g: Frame)
    requires WellFormed(f)
    ensures WellFormed(g) && |g.rows| == |f.rows|
    ensures forall c :: c in g.columns <==> c in f.columns || c == YearColumn
    ensures YearColumn in f.columns ==> g == f
    ensures YearColumn !in f.columns ==>
      forall i :: 0 <= i < |f.rows| ==> g.rows[i] == f.rows[i][YearColumn := Int(currentYear)]
  {
    if YearColumn in f.columns then f
    else
      var rows := seq(|f.rows|, i requires 0 <= i < |f.rows| => f.rows[i][YearColumn := Int(currentYear)]);
      assert forall i, c :: 0 <= i < |rows| && c in f.columns ==> c in rows[i] by {
        forall i, c | 0 <= i < |rows| && c in f.columns ensures c in rows[i] {
          assert f.rows[i] in f.rows;
        }
      }
      Frame(f.columns + [YearColumn], rows)
  }

  /** A row with its year replaced by `year` and its age by `currentYear - year`. */
  function Dated(r: Row, year: int, currentYear: int): (d: Row)
    ensures forall k :: k in d <==> k in r || k == YearColumn || k == AgeColumn
    ensures d[YearColumn] == Int(year) && d[AgeColumn] == Int(currentYear - year)
    ensures forall k :: k in r && k != YearColumn && k != AgeColumn ==> d[k] == r[k]
  {
    r[YearColumn := Int(year)][AgeColumn := Int(currentYear - year)]
  }

  /** The value `fillna` fills a missing year with: the median of the others. */
  function FillValue(rows: seq<Row>): real {
    var present := Values(rows, YearColumn);
    if present == [] then 0.0 else Stats.Median(present)
  }

  /** Every row dated with its own year, or with `fill` where it has none. */
  function DateRows(rows: seq<Row>, fill: real, currentYear: int): (ds: seq<Row>)
    requires forall i :: 0 <= i < |rows| ==> YearColumn in rows[i]
    ensures |ds| == |rows|
    ensures forall i :: 0 <= i < |rows| ==>
      ds[i] == Dated(rows[i], YearOf(rows[i][YearColumn], fill), currentYear)
  {
    seq(|rows|, i requires 0 <= i < |rows| => Dated(rows[i], YearOf(rows[i][YearColumn], fill), currentYear))
  }

  /** `fillna(median)`, `astype(int)` and the age column, once the year column exists. */
  function FillYears(g: Frame, currentYear: int): (r: Result<Frame, CleanError>)
    requires WellFormed(g) && YearColumn in g.columns
    ensures r.Err? <==> !NumericColumn(g.rows, YearColumn) || (|g.rows| > 0 && Values(g.rows, YearColumn) == [])
    ensures r.Ok? ==> WellFormed(r.value) && |r.value.rows| == |g.rows|
    ensures r.Ok? ==> r.value.columns == WithColumn(g.columns, AgeColumn)
    ensures r.Ok? ==> r.value.rows == DateRows(g.rows, FillValue(g.rows), currentYear)
  {
    if !NumericColumn(g.rows, YearColumn) then Err(NotNumeric(YearColumn))
    else if |g.rows| > 0 && Values(g.rows, YearColumn) == [] then Err(NotInteger(YearColumn))
    else
      DatedWellFormed(g, FillValue(g.rows), currentYear);
      Ok(Frame(WithColumn(g.columns, AgeColumn), DateRows(g.rows, FillValue(g.rows), currentYear)))
  }

  /** Dating the rows keeps a cell for every column, the age column included. */
  lemma DatedWellFormed(g: Frame, fill: real, currentYear: int)
    requires WellFormed(g) && YearColumn in g.columns
    ensures forall i :: 0 <= i < |g.rows| ==> YearColumn in g.rows[i]
    ensures WellFormed(Frame(WithColumn(g.columns, AgeColumn), DateRows(g.rows, fill, currentYear)))
  {
    assert forall i :: 0 <= i < |g.rows| ==> g.rows[i] in g.rows;
    var rows := DateRows(g.rows, fill, currentYear);
    var cols := WithColumn(g.columns, AgeColumn);
    forall r, c | r in rows && c in cols ensures c in r {
      var i :| 0 <= i < |rows| && rows[i] == r;
    }
  }

  /** The row has an integer year and the age that year implies. */
  predicate RowDated(x: Row, currentYear: int) {
    && YearColumn in x && AgeColumn in x && x[YearColumn].Int?
    && x[AgeColumn] == Int(currentYear - x[YearColumn].i)
  }

  /** A table with both columns whose every row is dated. */
  predicate AlreadyDated(g: Frame, currentYear: int) {
    && WellFormed(g) && YearColumn in g.columns && AgeColumn in g.columns
    && forall i :: 0 <= i < |g.rows| ==> RowDated(g.rows[i], currentYear)
  }

  /**
   * Which year row `i` of the result `r` holds: this year if the column was
   * absent; else the row's own integer year, its float year truncated, or the
   * median year truncated if it had none. Every other cell is as it was.
   */
  predicate DatedAsPromised(f: Frame, r: Frame, i: nat, currentYear: int)
    requires WellFormed(f) && i < |f.rows| && i < |r.rows|
  {
    assert f.rows[i] in f.rows;
    && YearColumn in r.rows[i]
    && (YearColumn !in f.columns ==> r.rows[i][YearColumn] == Int(currentYear))
    && (YearColumn in f.columns ==>
          && (f.rows[i][YearColumn].Int? ==> r.rows[i][YearColumn] == f.rows[i][YearColumn])
          && (f.rows[i][YearColumn].Num? ==> r.rows[i][YearColumn] == Int(Truncate(f.rows[i][YearColumn].x)))
          && (f.rows[i][YearColumn].Missing? ==>
                Values(f.rows, YearColumn) != [] &&
                r.rows[i][YearColumn] == Int(Truncate(Stats.Median(Values(f.rows, YearColumn))))))
    && forall k :: k in f.rows[i] && k != YearColumn && k != AgeColumn ==> k in r.rows[i] && r.rows[i][k] == f.rows[i][k]
  }

  function AddConstructionYear(f: Frame, currentYear: int): (r: Result<Frame, CleanError>)
    requires WellFormed(f)
    // Without the column every row is dated this year, so it cannot fail.
    ensures YearColumn !in f.columns ==> r.Ok?
    // With it, a string year cannot take a median, and an all-NaN column cannot become int.
    ensures YearColumn in f.columns ==>
      (r.Err? <==> !NumericColumn(f.rows, YearColumn) || (|f.rows| > 0 && Values(f.rows, YearColumn) == []))
    // The same rows, with both columns added if absent, each with an integer year and its age,
    ensures r.Ok? ==> AlreadyDated(r.value, currentYear) && |r.value.rows| == |f.rows|
    ensures r.Ok? ==> forall c :: c in r.value.columns <==> c in f.columns || c == YearColumn || c == AgeColumn
    // the year being the one promised.
    ensures r.Ok? ==> forall i :: 0 <= i < |f.rows| ==> DatedAsPromised(f, r.value, i, currentYear)
  {
    var g := WithYear(f, currentYear);
    if YearColumn in f.columns then
      FilledDated(f, currentYear);
      FilledRows(f, currentYear);
      FillYears(g, currentYear)
    else
      AllIntYears(g.rows);
      FilledDated(f, currentYear);
      FilledRows(f, currentYear);
      FillYears(g, currentYear)
  }

  lemma FilledRow(f: Frame, currentYear: int, i: nat)
    requires WellFormed(f) && i < |f.rows|
    requires FillYears(WithYear(f, currentYear), currentYear).Ok?
    ensures DatedAsPromised(f, FillYears(WithYear(f, currentYear), currentYear).value, i, currentYear)
  {
    var g := WithYear(f, currentYear);
    var r := FillYears(g, currentYear).value;
    assert f.rows[i] in f.rows;
    var y := YearOf(g.rows[i][YearColumn], FillValue(g.rows));
    assert r.rows[i] == Dated(g.rows[i], y, currentYear);
    if YearColumn in f.columns {
      assert g == f;
      if f.rows[i][YearColumn].Missing? {
        assert |f.rows| > 0;
      }
    } else {
      assert g.rows[i] == f.rows[i][YearColumn := Int(currentYear)];
    }
  }

  /** The filled table is dated. */
  lemma FilledDated(f: Frame, currentYear: int)
    requires WellFormed(f)
    ensures var r := FillYears(WithYear(f, currentYear), currentYear);
      r.Ok? ==> AlreadyDated(r.value, currentYear)
  {
    var g := WithYear(f, currentYear);
    if FillYears(g, currentYear).Ok? {
      DateRowsDated(g.rows, FillValue(g.rows), currentYear);
    }
  }

  /** Each row of the filled table holds the year promised for it. */
  lemma FilledRows(f: Frame, currentYear: int)
    requires WellFormed(f)
    ensures var r := FillYears(WithYear(f, currentYear), currentYear);
      r.Ok? ==> forall i :: 0 <= i < |f.rows| ==> DatedAsPromised(f, r.value, i, currentYear)
  {
    var r := FillYears(WithYear(f, currentYear), currentYear);
    if r.Ok? {
      forall i | 0 <= i < |f.rows| ensures DatedAsPromised(f, r.value, i, currentYear) {
        FilledRow(f, currentYear, i);
      }
    }
  }

  /** Every row `DateRows` produces is dated. */
  lemma DateRowsDated(rows: seq<Row>, fill: real, currentYear: int)
    requires forall i :: 0 <= i < |rows| ==> YearColumn in rows[i]
    ensures forall i :: 0 <= i < |rows| ==> RowDated(DateRows(rows, fill, currentYear)[i], currentYear)
  {
  }

  /** A column of integers is numeric, and has values as soon as there is a row. */
  lemma AllIntYears(rows: seq<Row>)
    requires forall i :: 0 <= i < |rows| ==> YearColumn in rows[i] && rows[i][YearColumn].Int?
    ensures NumericColumn(rows, YearColumn)
    ensures |rows| > 0 ==> Values(rows, YearColumn) != []
  {
    forall r | r in rows ensures YearColumn in r && NotText(r[YearColumn]) {
      var i :| 0 <= i < |rows| && rows[i] == r;
    }
    if |rows| > 0 {
      ValuesNonEmpty(rows, YearColumn, 0);
    }
  }

  /** A dated table is a fixed point of the stage. */
  lemma AddConstructionYearFixes(g: Frame, currentYear: int)
    requires AlreadyDated(g, currentYear)
    ensures AddConstructionYear(g, currentYear) == Ok(g)
  {
    assert WithYear(g, currentYear) == g;
    FillYearsFixes(g, currentYear);
  }

  lemma FillYearsFixes(g: Frame, currentYear: int)
    requires AlreadyDated(g, currentYear)
    ensures FillYears(g, currentYear) == Ok(g)
  {
    AllIntYears(g.rows);
    DateRowsFixes(g.rows, FillValue(g.rows), currentYear);
    var h := FillYears(g, currentYear).value;
    assert h.columns == g.columns;
    assert h == g;
  }

  /** Dating dated rows gives them back, whatever the fill value. */
  lemma DateRowsFixes(rows: seq<Row>, fill: real, currentYear: int)
    requires forall i :: 0 <= i < |rows| ==> YearColumn in rows[i] && RowDated(rows[i], currentYear)
    ensures DateRows(rows, fill, currentYear) == rows
  {
    var ds := DateRows(rows, fill, currentYear);
    forall i | 0 <= i < |rows| ensures ds[i] == rows[i] {
      RedatedRow(rows[i], fill, currentYear);
    }
  }

  /** Dating an already dated table again changes nothing. */
  lemma AddConstructionYearIdempotent(f: Frame, currentYear: int)
    requires WellFormed(f)
    requires AddConstructionYear(f, currentYear).Ok?
    ensures AddConstructionYear(AddConstructionYear(f, currentYear).value, currentYear)
            == AddConstructionYear(f, currentYear)
  {
    AddConstructionYearFixes(AddConstructionYear(f, currentYear).value, currentYear);
  }

  /** Dating a row that is already dated gives it back. */
  lemma RedatedRow(r: Row, fill: real, currentYear: int)
    requires RowDated(r, currentYear)
    ensures Dated(r, YearOf(r[YearColumn], fill), currentYear) == r
  {
    var d := Dated(r, YearOf(r[YearColumn], fill), currentYear);
    assert d.Keys == r.Keys;
  }
}

=== FILE: data_preparation.dfy ===
/**
 * `prepare_data` of backend/services/data_preparation.py: one user-submitted
 * home, plus its geographic information, becomes the single feature record the
 * prediction models read.
 *
 * The city lookup (`geo_api.get_city_info`) is an oracle returning the info
 * dict or a falsy value; the elevation lookup is `Elevation.GetElevation`
 * over its own service oracle.
 */
module DataPreparation {
  import opened Wrappers
  import GeoFeatures
  import Elevation

  /** `BuildingType` of backend/models/input_model.py. */
  datatype BuildingType = Maison | Appartement | Immeuble

  /** `HeatingType` of backend/models/input_model.py. */
  datatype HeatingType = Electricite | GazNaturel | AutreEnergie

  /** The string values the enums carry into the feature table. */
  function BuildingLabel(b: BuildingType): string {
    match b
    case Maison => "maison"
    case Appartement => "appartement"
    case Immeuble => "immeuble"
  }

  function HeatingLabel(h: HeatingType): string {
    match h
    case Electricite => "\U{c9}lectricit\U{e9}"
    case GazNaturel => "Gaz naturel"
    case AutreEnergie => "Autre"
  }

  /** The request body; `location` is the city the home is in. */
  datatype InputData = InputData(
    location: string,
    cost: real,
    area: real,
    nFloors: int,
    age: int,
    mainHeatingEnergy: HeatingType,
    building: BuildingType)

  /** The keys of the city-info dict that `prepare_data` reads. */
  datatype CityInfo = CityInfo(zone: GeoFeatures.ZoneValue, lat: Option<real>, lon: Option<real>)

  /** The one-row feature table, column by column. */
  datatype Features = Features(
    cost: real,
    area: real,
    floors: int,
    age: int,
    altitude: real,
    heating: HeatingType,
    building: BuildingType,
    zone: GeoFeatures.ZoneValue)

  /** The column names of the feature table, in order. */
  const FeatureColumns: seq<string> := [
    "cout_total_5_usages",
    "surface_habitable_logement",
    "nombre_niveau_logement",
    "age_batiment",
    "altitude_moyenne",
    "type_energie_principale_chauffage",
    "type_batiment",
    "zone_climatique"
  ]

  /** The table (or `None`), or the exception the elevation lookup raised; and the elevation queries sent. */
  datatype Prepared = Prepared(
    features: Result<Option<Features>, Elevation.ElevationError>,
    elevationQueries: seq<Elevation.Query>)

  /** `altitude or 0`: a missing or zero elevation counts as 0. */
  function OrZero(x: Option<real>): real {
    if x.Some? && x.value != 0.0 then x.value else 0.0
  }

  function PrepareData(input: InputData,
                       cityInfo: string -> Option<CityInfo>,
                       elevation: Elevation.Query -> Option<Elevation.Reply>): (r: Prepared)
    // No city information: no table and no elevation request.
    ensures cityInfo(input.location).None? ==> r == Prepared(Ok(None), [])
    // Otherwise a table is built unless the elevation lookup raised.
    ensures cityInfo(input.location).Some? ==> r.features != Ok(None)
    // Every column but altitude comes straight from the input or the city info.
    ensures r.features.Ok? && r.features.value.Some? ==>
      var f := r.features.value.value;
      && f.cost == input.cost && f.area == input.area
      && f.floors == input.nFloors && f.age == input.age
      && f.heating == input.mainHeatingEnergy && f.building == input.building
      && f.zone == cityInfo(input.location).value.zone
    // Missing coordinates: altitude 0 and no elevation request.
    ensures cityInfo(input.location).Some? ==>
      var info := cityInfo(input.location).value;
      (info.lat.None? || info.lon.None?) ==>
        && r.elevationQueries == []
        && r.features.Ok? && r.features.value.Some? && r.features.value.value.altitude == 0.0
    // With coordinates, the altitude is the looked-up elevation, 0 when there is none.
    ensures cityInfo(input.location).Some? ==>
      var info := cityInfo(input.location).value;
      info.lat.Some? && info.lon.Some? ==>
        var call := Elevation.GetElevation(info.lat, info.lon, elevation);
        && r.elevationQueries == call.queries
        && (call.elevation.Err? <==> r.features.Err?)
        && (call.elevation.Ok? ==> r.features.value.value.altitude == OrZero(call.elevation.value))
  {
    PrepareFrom(cityInfo(input.location), input, elevation)
  }

  function Assemble(input: InputData, altitude: real, zone: GeoFeatures.ZoneValue): Features {
    Features(input.cost, input.area, input.nFloors, input.age, altitude,
             input.mainHeatingEnergy, input.building, zone)
  }

  // ---------------------------------------------------------------------------
  // The attribute read, as written
  // ---------------------------------------------------------------------------

  /** The fields `InputData` declares, under their Python names. */
  const DeclaredFields: set<string> :=
    {"Location", "cost", "area", "n_floors", "age", "main_heating_energy", "building"}

  /** A field's value as `getattr` returns it: a `str`, a `float`, an `int` or an enum member. */
  datatype Attr = Str(s: string) | Float(x: real) | Int(n: int) | Heating(h: HeatingType) | Building(b: BuildingType)

  /**
   * `getattr(input_data, name)`: a declared field gives its value; any other
   * name raises `AttributeError(name)`.
   */
  function Attribute(input: InputData, name: string): (r: Result<Attr, string>)
    ensures r.Ok? <==> name in DeclaredFields
    ensures r.Err? ==> r.error == name
    ensures name == "Location" ==> r == Ok(Str(input.location))
  {
    match name
    case "Location" => Ok(Str(input.location))
    case "cost" => Ok(Float(input.cost))
    case "area" => Ok(Float(input.area))
    case "n_floors" => Ok(Int(input.nFloors))
    case "age" => Ok(Int(input.age))
    case "main_heating_energy" => Ok(Heating(input.mainHeatingEnergy))
    case "building" => Ok(Building(input.building))
    case _ => Err(name)
  }

  /** Validation of the seven declared fields into an `InputData`, `None` when one is missing or mistyped. */
  function FromAttributes(read: string -> Result<Attr, string>): Option<InputData> {
    match (read("Location"), read("cost"), read("area"), read("n_floors"), read("age"),
           read("main_heating_energy"), read("building"))
    case (Ok(Str(l)), Ok(Float(c)), Ok(Float(a)), Ok(Int(f)), Ok(Int(y)), Ok(Heating(h)), Ok(Building(b))) =>
      Some(InputData(l, c, a, f, y, h, b))
    case _ => None
  }

  /** The declared attributes carry the whole request: rebuilding it from them gives it back. */
  lemma AttributesRebuild(input: InputData)
    ensures FromAttributes(name => Attribute(input, name)) == Some(input)
  {
  }

  /** `prepare_data` once the city information is known: the part after the lookup. */
  function PrepareFrom(geo: Option<CityInfo>, input: InputData,
                       elevation: Elevation.Query -> Option<Elevation.Reply>): Prepared {
    if geo.None? then Prepared(Ok(None), [])
    else
      var info := geo.value;
      if info.lat.None? || info.lon.None? then
        Prepared(Ok(Some(Assemble(input, 0.0, info.zone))), [])
      else
        var call := Elevation.GetElevation(info.lat, info.lon, elevation);
        match call.elevation
        case Err(e) => Prepared(Err(e), call.queries)
        case Ok(elev) => Prepared(Ok(Some(Assemble(input, OrZero(elev), info.zone))), call.queries)
  }

  /**
   * `prepare_data` passing the attribute `name` to the city lookup, which
   * receives whatever value the attribute holds: an undeclared attribute
   * raises before the lookup; a declared one gives the preparation of the
   * information found for its value.
   */
  function PrepareWith(name: string, input: InputData,
                       cityInfo: Attr -> Option<CityInfo>,
                       elevation: Elevation.Query -> Option<Elevation.Reply>): (r: Result<Prepared, string>)
    ensures r.Err? <==> name !in DeclaredFields
    ensures r.Err? ==> r.error == name
    ensures r.Ok? ==> r.value == PrepareFrom(cityInfo(Attribute(input, name).value), input, elevation)
  {
    match Attribute(input, name)
    case Err(missing) => Err(missing)
    case Ok(v) => Ok(PrepareFrom(cityInfo(v), input, elevation))
  }

  /** `prepare_data` as written: it reads `input_data.city`. */
  function PrepareDataAsWritten(input: InputData,
                                cityInfo: Attr -> Option<CityInfo>,
                                elevation: Elevation.Query -> Option<Elevation.Reply>): (r: Result<Prepared, string>)
    // The request model has no `city`: the read raises before the city lookup.
    ensures r.Err? && r.error == "city"
  {
    PrepareWith("city", input, cityInfo, elevation)
  }

  /** As written, every request raises `AttributeError: city`, whatever the city services answer. */
  lemma AsWrittenAlwaysRaises(input: InputData,
                              cityInfo: Attr -> Option<CityInfo>,
                              elevation: Elevation.Query -> Option<Elevation.Reply>)
    ensures PrepareDataAsWritten(input, cityInfo, elevation) == Err("city")
  {
  }

  /** Reading the field the request model declares for the city gives the preparation of the user's location. */
  lemma LocationReadPrepares(input: InputData,
                             cityInfo: string -> Option<CityInfo>,
                             elevation: Elevation.Query -> Option<Elevation.Reply>)
    ensures PrepareWith("Location", input, (a: Attr) => if a.Str? then cityInfo(a.s) else None, elevation)
            == Ok(PrepareData(input, cityInfo, elevation))
    ensures cityInfo(input.location).Some? ==>
      PrepareWith("Location", input, (a: Attr) => if a.Str? then cityInfo(a.s) else None, elevation).value.features != Ok(None)
  {
  }

  /**
   * A zero latitude or longitude reaches the elevation lookup, which treats it
   * as missing: no request is sent and the altitude is 0.
   */
  lemma ZeroCoordinateMeansZeroAltitude(input: InputData,
                                        cityInfo: string -> Option<CityInfo>,
                                        elevation: Elevation.Query -> Option<Elevation.Reply>)
    requires cityInfo(input.location).Some?
    requires var info := cityInfo(input.location).value;
      info.lat == Some(0.0) || info.lon == Some(0.0)
    ensures var r := PrepareData(input, cityInfo, elevation);
      r.elevationQueries == [] && r.features.Ok? && r.features.value.value.altitude == 0.0
  {
  }
}

=== FILE: elevation.dfy ===
/**
 * `Elevation_API_requester.get_elevation` (src/data_requesters/elevation.py):
 * the altitude of a point from an external elevation service.
 *
 * The service is an oracle from a query to the JSON the generic fetcher hands
 * back (`None` when the request failed, was a 404 or was not JSON). The model
 * records the queries sent so that "no request" is observable.
 */
module Elevation {
  import opened Wrappers

  /** One matched point of the service's answer. */
  datatype GeoPoint = GeoPoint(elevation: real)

  /** The service's JSON: `{resultCount, geoPoints: [{elevation, ...}, ...]}`. */
  datatype Reply = Reply(resultCount: int, geoPoints: seq<GeoPoint>)

  /** The query parameters `{lat, lon}` of one request. */
  datatype Query = Query(lat: real, lon: real)

  /** `data["geoPoints"][0]` on an empty list raises `IndexError`. */
  datatype ElevationError = NoGeoPoint

  /** The value returned (or the exception raised) and the requests sent. */
  datatype Call = Call(elevation: Result<Option<real>, ElevationError>, queries: seq<Query>)

  /** Python truthiness of an optional float: `None` and `0.0` are false. */
  predicate Truthy(x: Option<real>) {
    x.Some? && x.value != 0.0
  }

  function GetElevation(lat: Option<real>, lon: Option<real>, service: Query -> Option<Reply>): (r: Call)
    // A missing or zero coordinate short-circuits to None without a request.
    ensures !Truthy(lat) || !Truthy(lon) <==> r.queries == []
    ensures !Truthy(lat) || !Truthy(lon) ==> r.elevation == Ok(None)
    // Otherwise exactly one request, carrying exactly the two coordinates.
    ensures Truthy(lat) && Truthy(lon) ==> r.queries == [Query(lat.value, lon.value)]
    // No answer, or an answer that matched no point, gives None.
    ensures Truthy(lat) && Truthy(lon) ==>
      var reply := service(Query(lat.value, lon.value));
      (reply.None? || reply.value.resultCount == 0 ==> r.elevation == Ok(None))
    // Otherwise the first matched point's elevation, or the IndexError of an empty list.
    ensures r.elevation.Ok? && r.elevation.value.Some? ==>
      && r.queries != []
      && var reply := service(r.queries[0]);
      && reply.Some? && reply.value.resultCount != 0 && |reply.value.geoPoints| > 0
      && r.elevation.value.value == reply.value.geoPoints[0].elevation
    ensures r.elevation.Err? ==>
      && r.queries != []
      && var reply := service(r.queries[0]);
      && reply.Some? && reply.value.resultCount != 0 && reply.value.geoPoints == []
    // Conversely, a reply that claims matches but lists no point always raises.
    ensures Truthy(lat) && Truthy(lon) ==>
      var reply := service(Query(lat.value, lon.value));
      (reply.Some? && reply.value.resultCount != 0 && reply.value.geoPoints == [] ==> r.elevation == Err(NoGeoPoint))
  {
    if !Truthy(lat) || !Truthy(lon) then
      Call(Ok(None), [])
    else
      var q := Query(lat.value, lon.value);
      var data := service(q);
      if data.None? || data.value.resultCount == 0 then
        Call(Ok(None), [q])
      else if |data.value.geoPoints| == 0 then
        Call(Err(NoGeoPoint), [q])
      else
        Call(Ok(Some(data.value.geoPoints[0].elevation)), [q])
  }

  /**
   * The lookup yields an elevation exactly when both coordinates are truthy
   * and the service matched at least one point; the value is the first point's.
   */
  lemma ElevationFound(lat: Option<real>, lon: Option<real>, service: Query -> Option<Reply>, v: real)
    ensures GetElevation(lat, lon, service).elevation == Ok(Some(v)) <==>
      && Truthy(lat) && Truthy(lon)
      && var reply := service(Query(lat.value, lon.value));
      && reply.Some? && reply.value.resultCount != 0 && |reply.value.geoPoints| > 0
      && reply.value.geoPoints[0].elevation == v
  {
  }
}

=== FILE: energy_labels.dfy ===
/**
 * `energie_type_cleaning` of src/processing/data_cleaner.py: every heating
 * energy whose share of the non-missing cells is under 15 % becomes
 * "Autre".
 *
 * The share is `count / n * 100` in floating point; here the comparison
 * `count / n * 100 < 15` is the exact `count * 100 < 15 * n`.
 */
module EnergyLabels {
  import opened Wrappers
  import opened Tables

  const EnergyColumn: string := "type_energie_principale_chauffage"
  const Other: Cell := Text("Autre")

  /** The percentage under which a modality is rare. */
  const Threshold: nat := 15

  /** How many cells equal `c`. */
  function Count(cells: seq<Cell>, c: Cell): (k: nat)
    ensures k <= |cells|
  {
    if cells == [] then 0
    else Count(cells[..|cells| - 1], c) + (if cells[|cells| - 1] == c then 1 else 0)
  }

  /** How many cells are not missing: the denominator of `value_counts(normalize=True)`. */
  function PresentCount(cells: seq<Cell>): (n: nat)
    ensures n <= |cells|
  {
    if cells == [] then 0
    else PresentCount(cells[..|cells| - 1]) + (if cells[|cells| - 1].Missing? then 0 else 1)
  }

  /** A modality whose share of the present cells is under the threshold. */
  predicate Rare(cells: seq<Cell>, c: Cell) {
    !c.Missing? && Count(cells, c) * 100 < Threshold * PresentCount(cells)
  }

  /** `replace(rare_modalities, "Autre")` over one column. */
  function Collapse(cells: seq<Cell>): (out: seq<Cell>)
    ensures |out| == |cells|
    ensures forall i :: 0 <= i < |cells| ==> out[i] == if Rare(cells, cells[i]) then Other else cells[i]
  {
    seq(|cells|, i requires 0 <= i < |cells| => if Rare(cells, cells[i]) then Other else cells[i])
  }

  /** Every row with its energy cell replaced by the collapsed one. */
  function CollapseRows(rows: seq<Row>): (ds: seq<Row>)
    requires forall i :: 0 <= i < |rows| ==> EnergyColumn in rows[i]
    ensures |ds| == |rows|
    ensures forall i :: 0 <= i < |rows| ==> ds[i] == rows[i][EnergyColumn := Collapse(Column(rows, EnergyColumn))[i]]
  {
    var out := Collapse(Column(rows, EnergyColumn));
    seq(|rows|, i requires 0 <= i < |rows| => rows[i][EnergyColumn := out[i]])
  }

  /** The table with the energy column collapsed. */
  function EnergieTypeCleaning(f: Frame): (r: Result<Frame, CleanError>)
    requires WellFormed(f)
    ensures r.Err? <==> EnergyColumn !in f.columns
    ensures r.Err? ==> r.error == MissingColumn(EnergyColumn)
    ensures r.Ok? ==> WellFormed(r.value) && r.value.columns == f.columns && |r.value.rows| == |f.rows|
    // Each energy cell is the collapsed one, and nothing else changes.
    ensures r.Ok? ==> forall i :: 0 <= i < |f.rows| ==>
      && r.value.rows[i][EnergyColumn] == Collapse(Column(f.rows, EnergyColumn))[i]
      && r.value.rows[i] == f.rows[i][EnergyColumn := r.value.rows[i][EnergyColumn]]
    ensures r.Ok? ==> r.value.rows == CollapseRows(f.rows)
  {
    if EnergyColumn !in f.columns then Err(MissingColumn(EnergyColumn))
    else
      assert forall i :: 0 <= i < |f.rows| ==> f.rows[i] in f.rows;
      var rows := CollapseRows(f.rows);
      assert forall r, c :: r in rows && c in f.columns ==> c in r by {
        forall r, c | r in rows && c in f.columns ensures c in r {
          var i :| 0 <= i < |rows| && rows[i] == r;
          assert f.rows[i] in f.rows;
        }
      }
      Ok(Frame(f.columns, rows))
  }

  // ---------------------------------------------------------------------------
  // Properties
  // ---------------------------------------------------------------------------

  /** Relabelling only present cells, with present labels, keeps the denominator. */
  lemma {:induction false} CollapseKeepsPresentCount(cells: seq<Cell>, out: seq<Cell>)
    requires |out| == |cells|
    requires forall i :: 0 <= i < |cells| ==> (out[i].Missing? <==> cells[i].Missing?)
    ensures PresentCount(out) == PresentCount(cells)
    decreases |cells|
  {
    if cells != [] {
      var n := |cells| - 1;
      CollapseKeepsPresentCount(cells[..n], out[..n]);
    }
  }

  /**
   * A label `c` that the relabelling leaves alone wherever it occurs, and
   * never introduces, keeps its count.
   */
  lemma {:induction false} CountKept(cells: seq<Cell>, out: seq<Cell>, c: Cell)
    requires |out| == |cells|
    requires forall i :: 0 <= i < |cells| ==> (out[i] == c <==> cells[i] == c)
    ensures Count(out, c) == Count(cells, c)
    decreases |cells|
  {
    if cells != [] {
      var n := |cells| - 1;
      CountKept(cells[..n], out[..n], c);
    }
  }

  /**
   * Collapsing keeps the number of present cells, and the count of every
   * label other than "Autre" that is not rare; rare labels disappear.
   */
  lemma CollapseCounts(cells: seq<Cell>, c: Cell)
    ensures PresentCount(Collapse(cells)) == PresentCount(cells)
    ensures c != Other && !Rare(cells, c) ==> Count(Collapse(cells), c) == Count(cells, c)
    ensures c != Other && Rare(cells, c) ==> Count(Collapse(cells), c) == 0
  {
    var out := Collapse(cells);
    CollapseKeepsPresentCount(cells, out);
    if c != Other && !Rare(cells, c) {
      CountKept(cells, out, c);
    }
    if c != Other && Rare(cells, c) {
      CountAbsent(out, c);
    }
  }

  /** A label no cell holds has count zero. */
  lemma {:induction false} CountAbsent(cells: seq<Cell>, c: Cell)
    requires forall i :: 0 <= i < |cells| ==> cells[i] != c
    ensures Count(cells, c) == 0
    decreases |cells|
  {
    if cells != [] {
      CountAbsent(cells[..|cells| - 1], c);
    }
  }

  /** Collapsing a collapsed column changes nothing. */
  lemma CollapseIdempotent(cells: seq<Cell>)
    ensures Collapse(Collapse(cells)) == Collapse(cells)
  {
    var out := Collapse(cells);
    forall i | 0 <= i < |out| ensures !Rare(out, out[i]) || out[i] == Other {
      if out[i] != Other {
        CollapseCounts(cells, out[i]);
      }
    }
  }

  /** Cleaning the energy column twice is cleaning it once. */
  lemma EnergieTypeCleaningIdempotent(f: Frame)
    requires WellFormed(f) && EnergieTypeCleaning(f).Ok?
    ensures EnergieTypeCleaning(EnergieTypeCleaning(f).value) == EnergieTypeCleaning(f)
  {
    var g := EnergieTypeCleaning(f).value;
    assert forall i :: 0 <= i < |g.rows| ==> g.rows[i] in g.rows;
    var before := Column(f.rows, EnergyColumn);
    assert Column(g.rows, EnergyColumn) == Collapse(before);
    CollapseIdempotent(before);
    CollapsedRowsFixed(g.rows);
  }

  /** Rows whose energy column is already collapsed are left as they are. */
  lemma CollapsedRowsFixed(rows: seq<Row>)
    requires forall i :: 0 <= i < |rows| ==> EnergyColumn in rows[i]
    requires Collapse(Column(rows, EnergyColumn)) == Column(rows, EnergyColumn)
    ensures CollapseRows(rows) == rows
  {
    var ds := CollapseRows(rows);
    forall i | 0 <= i < |rows| ensures ds[i] == rows[i] {
      assert ds[i][EnergyColumn] == rows[i][EnergyColumn];
      assert ds[i].Keys == rows[i].Keys;
    }
  }

  // ---------------------------------------------------------------------------
  // At most six frequent modalities
  // ---------------------------------------------------------------------------

  /** How many cells hold a label of `labels`. */
  function CountIn(cells: seq<Cell>, labels: set<Cell>): (k: nat)
    ensures k <= |cells|
  {
    if cells == [] then 0
    else CountIn(cells[..|cells| - 1], labels) + (if cells[|cells| - 1] in labels then 1 else 0)
  }

  lemma {:induction false} CountInSplit(cells: seq<Cell>, labels: set<Cell>, c: Cell)
    requires c in labels
    ensures CountIn(cells, labels) == CountIn(cells, labels - {c}) + Count(cells, c)
    decreases |cells|
  {
    if cells != [] {
      CountInSplit(cells[..|cells| - 1], labels, c);
    }
  }

  lemma {:induction false} CountInPresent(cells: seq<Cell>, labels: set<Cell>)
    requires forall c :: c in labels ==> !c.Missing?
    ensures CountIn(cells, labels) <= PresentCount(cells)
    decreases |cells|
  {
    if cells != [] {
      CountInPresent(cells[..|cells| - 1], labels);
    }
  }

  /** Labels each holding at least the threshold share hold that share times their number. */
  lemma {:induction false} FrequentLabelsMass(cells: seq<Cell>, labels: set<Cell>)
    requires forall c :: c in labels ==> Count(cells, c) * 100 >= Threshold * PresentCount(cells)
    ensures CountIn(cells, labels) * 100 >= Threshold * PresentCount(cells) * |labels|
    decreases |labels|
  {
    if labels != {} {
      var c :| c in labels;
      var rest := labels - {c};
      FrequentLabelsMass(cells, rest);
      CountInSplit(cells, labels, c);
      var t := Threshold * PresentCount(cells);
      assert CountIn(cells, labels) * 100 == CountIn(cells, rest) * 100 + Count(cells, c) * 100;
      assert |labels| == |rest| + 1;
      MulSucc(t, |rest|);
    }
  }

  lemma MulSucc(t: int, k: nat)
    ensures t * (k + 1) == t * k + t
  {
  }

  /** The labels left in a collapsed column, "Autre" and missing cells aside. */
  function Survivors(out: seq<Cell>): set<Cell> {
    set i | 0 <= i < |out| && out[i] != Other && !out[i].Missing? :: out[i]
  }

  /**
   * After collapsing, at most six labels besides "Autre" are left: each holds
   * at least 15 % of the present cells.
   */
  lemma AtMostSixSurvivors(cells: seq<Cell>)
    ensures |Survivors(Collapse(cells))| <= 6
  {
    var out := Collapse(cells);
    var labels := Survivors(out);
    var n := PresentCount(out);
    forall c | c in labels ensures Count(out, c) * 100 >= Threshold * n {
      var i :| 0 <= i < |out| && out[i] == c && c != Other;
      CollapseCounts(cells, c);
    }
    FrequentLabelsMass(out, labels);
    CountInPresent(out, labels);
    if labels != {} {
      var c :| c in labels;
      var i :| 0 <= i < |out| && out[i] == c;
      PresentPositive(out, i);
      ShareBound(n, |labels|);
    }
  }

  /** Shares of at least 15 % each fit at most six times into 100 %. */
  lemma ShareBound(n: nat, k: nat)
    requires n > 0 && Threshold * n * k <= 100 * n
    ensures k <= 6
  {
    assert n * (Threshold * k) <= n * 100;
  }

  /** A present cell makes the present count positive. */
  lemma {:induction false} PresentPositive(cells: seq<Cell>, i: nat)
    requires i < |cells| && !cells[i].Missing?
    ensures PresentCount(cells) > 0
    decreases |cells|
  {
    if i < |cells| - 1 {
      PresentPositive(cells[..|cells| - 1], i);
    }
  }
}

=== FILE: enrichment.dfy ===
/**
 * The two enrichment stages of src/processing/data_cleaner.py and the
 * reference tables its constructor builds:
 *   - `map_climate_zones` looks each department code up in the
 *     department -> climate zone table;
 *   - `extract_altitude` left-merges the communes table on the INSEE code
 *     and falls back, for a row left without altitude, on the mean altitude
 *     of the communes of its department.
 * Reading the two CSV files is left out: their lines are parameters.
 */
module Enrichment {
  import opened Wrappers
  import opened Tables
  import Stats
  import Codes

  const ZoneColumn: string := "zone_climatique"
  const CityCodeColumn: string := "code_insee"
  const AltitudeColumn: string := "altitude_moyenne"

  // ---------------------------------------------------------------------------
  // The climate-zone table
  // ---------------------------------------------------------------------------

  /** A line of the climate-zone file: a department and its zone. */
  datatype ZoneLine = ZoneLine(department: string, zone: string)

  function Departments(lines: seq<ZoneLine>): set<string> {
    set j | 0 <= j < |lines| :: lines[j].department
  }

  /** `pd.Series(zones, index=departments).to_dict()`: a later line for a department overrides an earlier one. */
  function ZoneTable(lines: seq<ZoneLine>): (t: map<string, string>)
    ensures t.Keys == Departments(lines)
  {
    if lines == [] then map[]
    else
      var init := lines[..|lines| - 1];
      var last := lines[|lines| - 1];
      var t := ZoneTable(init);
      assert Departments(lines) == Departments(init) + {last.department} by {
        forall d | d in Departments(lines) ensures d in Departments(init) + {last.department} {
          var j :| 0 <= j < |lines| && lines[j].department == d;
          if j < |lines| - 1 {
            assert init[j] == lines[j];
          }
        }
        forall d | d in Departments(init) ensures d in Departments(lines) {
          var j :| 0 <= j < |init| && init[j].department == d;
          assert lines[j] == init[j];
        }
      }
      t[last.department := last.zone]
  }

  /** The zone of a department is the one on its last line. */
  lemma {:induction false} LastLineWins(lines: seq<ZoneLine>, j: nat)
    requires j < |lines|
    requires forall k :: j < k < |lines| ==> lines[k].department != lines[j].department
    ensures lines[j].department in ZoneTable(lines)
    ensures ZoneTable(lines)[lines[j].department] == lines[j].zone
    decreases |lines|
  {
    var n := |lines| - 1;
    assert lines[j].department in Departments(lines);
    if j < n {
      LastLineWins(lines[..n], j);
    }
  }

  /** Every zone of the table comes from a line of the file. */
  lemma {:induction false} ZoneFromLine(lines: seq<ZoneLine>, d: string)
    requires d in ZoneTable(lines)
    ensures exists j :: 0 <= j < |lines| && lines[j] == ZoneLine(d, ZoneTable(lines)[d])
    decreases |lines|
  {
    var n := |lines| - 1;
    if lines[n].department != d {
      ZoneFromLine(lines[..n], d);
      var j :| 0 <= j < n && lines[..n][j] == ZoneLine(d, ZoneTable(lines[..n])[d]);
      assert lines[j] == lines[..n][j];
    } else {
      assert lines[n] == ZoneLine(d, ZoneTable(lines)[d]);
    }
  }

  // ---------------------------------------------------------------------------
  // map_climate_zones
  // ---------------------------------------------------------------------------

  /** `Series.map(dict)` on one cell: the zone of a known department code, NaN for anything else. */
  function ZoneOf(c: Cell, table: map<string, string>): (z: Cell)
    ensures z.Missing? || z.Text?
    ensures z.Text? <==> c.Text? && c.s in table
  {
    if c.Text? && c.s in table then Text(table[c.s]) else Missing
  }

  function ZoneRows(rows: seq<Row>, table: map<string, string>): (ds: seq<Row>)
    requires forall i :: 0 <= i < |rows| ==> Codes.DepartmentColumn in rows[i]
    ensures |ds| == |rows|
    ensures forall i :: 0 <= i < |rows| ==>
      ds[i] == rows[i][ZoneColumn := ZoneOf(rows[i][Codes.DepartmentColumn], table)]
  {
    seq(|rows|, i requires 0 <= i < |rows| =>
      rows[i][ZoneColumn := ZoneOf(rows[i][Codes.DepartmentColumn], table)])
  }

  /** `map_climate_zones`: assign `zone_climatique` from the department code. */
  function MapClimateZones(f: Frame, table: map<string, string>): (r: Result<Frame, CleanError>)
    requires WellFormed(f)
    ensures r.Err? <==> Codes.DepartmentColumn !in f.columns
    ensures r.Err? ==> r.error == MissingColumn(Codes.DepartmentColumn)
    ensures r.Ok? ==> WellFormed(r.value) && r.value.columns == WithColumn(f.columns, ZoneColumn)
    ensures r.Ok? ==> r.value.rows == ZoneRows(f.rows, table)
  {
    if Codes.DepartmentColumn !in f.columns then Err(MissingColumn(Codes.DepartmentColumn))
    else
      assert forall i :: 0 <= i < |f.rows| ==> f.rows[i] in f.rows;
      var rows := ZoneRows(f.rows, table);
      assert forall r, c :: r in rows && c in WithColumn(f.columns, ZoneColumn) ==> c in r by {
        forall r, c | r in rows && c in WithColumn(f.columns, ZoneColumn) ensures c in r {
          var i :| 0 <= i < |rows| && rows[i] == r;
          assert f.rows[i] in f.rows;
        }
      }
      Ok(Frame(WithColumn(f.columns, ZoneColumn), rows))
  }

  /**
   * What the stage promises each row: the zone of its department when the
   * table knows it, NaN otherwise (there is no default zone), and nothing
   * else changes.
   */
  lemma ZoneAssigned(f: Frame, table: map<string, string>, i: nat)
    requires WellFormed(f) && MapClimateZones(f, table).Ok? && i < |f.rows|
    ensures Codes.DepartmentColumn in f.rows[i]
    ensures var dept := f.rows[i][Codes.DepartmentColumn];
      var row := MapClimateZones(f, table).value.rows[i];
      && ZoneColumn in row
      && (dept.Text? && dept.s in table ==> row[ZoneColumn] == Text(table[dept.s]))
      && (!(dept.Text? && dept.s in table) ==> row[ZoneColumn] == Missing)
      && (forall c :: c != ZoneColumn ==> (c in row <==> c in f.rows[i]))
      && (forall c :: c != ZoneColumn && c in row ==> row[c] == f.rows[i][c])
  {
    assert f.rows[i] in f.rows;
  }

  /** Every zone assigned from the file is the zone of the last line for that department. */
  lemma ZoneFromFile(f: Frame, lines: seq<ZoneLine>, i: nat)
    requires WellFormed(f) && MapClimateZones(f, ZoneTable(lines)).Ok? && i < |f.rows|
    requires MapClimateZones(f, ZoneTable(lines)).value.rows[i][ZoneColumn].Text?
    ensures exists j :: 0 <= j < |lines| && lines[j] == ZoneLine(
      f.rows[i][Codes.DepartmentColumn].s, MapClimateZones(f, ZoneTable(lines)).value.rows[i][ZoneColumn].s)
  {
    var table := ZoneTable(lines);
    ZoneAssigned(f, table, i);
    ZoneFromLine(lines, f.rows[i][Codes.DepartmentColumn].s);
  }

  /** Mapping the zones twice is mapping them once. */
  lemma MapClimateZonesIdempotent(f: Frame, table: map<string, string>)
    requires WellFormed(f) && MapClimateZones(f, table).Ok?
    ensures MapClimateZones(MapClimateZones(f, table).value, table) == MapClimateZones(f, table)
  {
    var g := MapClimateZones(f, table).value;
    var h := MapClimateZones(g, table).value;
    forall i | 0 <= i < |g.rows| ensures h.rows[i] == g.rows[i] {
      assert f.rows[i] in f.rows;
      assert g.rows[i][Codes.DepartmentColumn] == f.rows[i][Codes.DepartmentColumn];
      assert h.rows[i][ZoneColumn] == g.rows[i][ZoneColumn];
      assert h.rows[i].Keys == g.rows[i].Keys;
    }
    assert h.rows == g.rows;
  }

  // ---------------------------------------------------------------------------
  // The communes table
  // ---------------------------------------------------------------------------

  /** A line of the communes file: INSEE code, department code, mean altitude (NaN when unknown). */
  datatype City = City(code: string, department: string, altitude: Option<real>)

  /** Each INSEE code names one commune, so the merge matches a row at most once. */
  predicate UniqueCodes(cities: seq<City>) {
    forall j, k :: 0 <= j < k < |cities| ==> cities[j].code != cities[k].code
  }

  /** The commune the merge matches a code cell with, if any. */
  function FindCity(cities: seq<City>, c: Cell): (m: Option<City>)
    ensures m.Some? ==> m.value in cities && c == Text(m.value.code)
    ensures m.None? ==> forall j :: 0 <= j < |cities| ==> c != Text(cities[j].code)
  {
    if cities == [] then None
    else if c == Text(cities[0].code) then Some(cities[0])
    else
      var m := FindCity(cities[1..], c);
      assert forall j :: 1 <= j < |cities| ==> cities[j] == cities[1..][j - 1];
      m
  }

  /** With unique codes, a code finds its own commune. */
  lemma {:induction false} FindOwnCity(cities: seq<City>, j: nat)
    requires UniqueCodes(cities) && j < |cities|
    ensures FindCity(cities, Text(cities[j].code)) == Some(cities[j])
    decreases |cities|
  {
    if j > 0 {
      assert cities[0].code != cities[j].code;
      FindOwnCity(cities[1..], j - 1);
    }
  }

  /** The known altitudes of a department's communes, in file order. */
  function DepartmentAltitudes(cities: seq<City>, d: string): (alts: seq<real>)
    ensures |alts| <= |cities|
  {
    if cities == [] then []
    else
      var c := cities[|cities| - 1];
      var alts := DepartmentAltitudes(cities[..|cities| - 1], d);
      if c.department == d && c.altitude.Some? then alts + [c.altitude.value] else alts
  }

  /**
   * `groupby("dep_code")["altitude_moyenne"].mean()` read at `d`: NaN when no
   * commune of `d` has a known altitude.
   */
  function DepartmentMean(cities: seq<City>, d: string): (m: Option<real>)
    ensures m.Some? <==> DepartmentAltitudes(cities, d) != []
  {
    var alts := DepartmentAltitudes(cities, d);
    if alts == [] then None else Some(Stats.Mean(alts))
  }

  /** Altitudes within bounds give department altitudes within the same bounds. */
  lemma {:induction false} DepartmentAltitudesWithin(cities: seq<City>, d: string, lo: real, hi: real)
    requires forall j :: 0 <= j < |cities| && cities[j].altitude.Some? ==> lo <= cities[j].altitude.value <= hi
    ensures forall k :: 0 <= k < |DepartmentAltitudes(cities, d)| ==> lo <= DepartmentAltitudes(cities, d)[k] <= hi
    decreases |cities|
  {
    if cities != [] {
      var n := |cities| - 1;
      assert forall j :: 0 <= j < n ==> cities[..n][j] == cities[j];
      DepartmentAltitudesWithin(cities[..n], d, lo, hi);
    }
  }

  /** A department's mean altitude lies within the bounds of all the communes' altitudes. */
  lemma DepartmentMeanWithin(cities: seq<City>, d: string, lo: real, hi: real)
    requires forall j :: 0 <= j < |cities| && cities[j].altitude.Some? ==> lo <= cities[j].altitude.value <= hi
    requires DepartmentMean(cities, d).Some?
    ensures lo <= DepartmentMean(cities, d).value <= hi
  {
    DepartmentAltitudesWithin(cities, d, lo, hi);
    Stats.MeanWithin(DepartmentAltitudes(cities, d), lo, hi);
  }

  // ---------------------------------------------------------------------------
  // extract_altitude
  // ---------------------------------------------------------------------------

  /** The `code_insee` cell the left merge brings: the matched code, NaN when nothing matched. */
  function MergedCode(cities: seq<City>, code: Cell): Cell {
    match FindCity(cities, code)
    case Some(city) => Text(city.code)
    case None => Missing
  }

  /**
   * The final `altitude_moyenne` cell: the matched commune's altitude when it
   * is known, else the department mean, else NaN.
   */
  function AltitudeOf(cities: seq<City>, code: Cell, dept: Cell): Cell {
    var m := FindCity(cities, code);
    if m.Some? && m.value.altitude.Some? then Num(m.value.altitude.value)
    else if dept.Text? && DepartmentMean(cities, dept.s).Some? then Num(DepartmentMean(cities, dept.s).value)
    else Missing
  }

  function EnrichRow(r: Row, cities: seq<City>): (d: Row)
    requires Codes.InseeColumn in r && Codes.DepartmentColumn in r
    ensures forall c :: c in d <==> c in r || c == CityCodeColumn || c == AltitudeColumn
  {
    r[CityCodeColumn := MergedCode(cities, r[Codes.InseeColumn])]
     [AltitudeColumn := AltitudeOf(cities, r[Codes.InseeColumn], r[Codes.DepartmentColumn])]
  }

  function EnrichRows(rows: seq<Row>, cities: seq<City>): (ds: seq<Row>)
    requires forall i :: 0 <= i < |rows| ==> Codes.InseeColumn in rows[i] && Codes.DepartmentColumn in rows[i]
    ensures |ds| == |rows|
    ensures forall i :: 0 <= i < |rows| ==> ds[i] == EnrichRow(rows[i], cities)
  {
    seq(|rows|, i requires 0 <= i < |rows| => EnrichRow(rows[i], cities))
  }

  /**
   * `extract_altitude`. Both merges read their key column, so each is
   * required; the merged table gains `code_insee` and `altitude_moyenne` at
   * the end, one row per input row since the codes are unique.
   */
  function ExtractAltitude(f: Frame, cities: seq<City>): (r: Result<Frame, CleanError>)
    requires WellFormed(f) && UniqueCodes(cities)
    requires CityCodeColumn !in f.columns && AltitudeColumn !in f.columns
    ensures r.Err? <==> Codes.InseeColumn !in f.columns || Codes.DepartmentColumn !in f.columns
    ensures r.Err? ==> r.error == MissingColumn(
      if Codes.InseeColumn !in f.columns then Codes.InseeColumn else Codes.DepartmentColumn)
    ensures r.Ok? ==> WellFormed(r.value) && r.value.columns == f.columns + [CityCodeColumn, AltitudeColumn]
    ensures r.Ok? ==> r.value.rows == EnrichRows(f.rows, cities)
  {
    if Codes.InseeColumn !in f.columns then Err(MissingColumn(Codes.InseeColumn))
    else if Codes.DepartmentColumn !in f.columns then Err(MissingColumn(Codes.DepartmentColumn))
    else
      assert forall i :: 0 <= i < |f.rows| ==> f.rows[i] in f.rows;
      var rows := EnrichRows(f.rows, cities);
      var cols := f.columns + [CityCodeColumn, AltitudeColumn];
      assert forall r, c :: r in rows && c in cols ==> c in r by {
        forall r, c | r in rows && c in cols ensures c in r {
          var i :| 0 <= i < |rows| && rows[i] == r;
          assert f.rows[i] in f.rows;
        }
      }
      Ok(Frame(cols, rows))
  }

  /** A row whose INSEE code names a commune of known altitude gets that altitude. */
  lemma CommuneAltitude(f: Frame, cities: seq<City>, i: nat, j: nat)
    requires WellFormed(f) && UniqueCodes(cities)
    requires CityCodeColumn !in f.columns && AltitudeColumn !in f.columns
    requires ExtractAltitude(f, cities).Ok? && i < |f.rows| && j < |cities|
    requires f.rows[i][Codes.InseeColumn] == Text(cities[j].code) && cities[j].altitude.Some?
    ensures ExtractAltitude(f, cities).value.rows[i][CityCodeColumn] == Text(cities[j].code)
    ensures ExtractAltitude(f, cities).value.rows[i][AltitudeColumn] == Num(cities[j].altitude.value)
  {
    FindOwnCity(cities, j);
  }

  /**
   * A row no commune of known altitude matches gets its department's mean
   * altitude, or NaN when the department has none.
   */
  lemma DepartmentFallback(f: Frame, cities: seq<City>, i: nat)
    requires WellFormed(f) && UniqueCodes(cities)
    requires CityCodeColumn !in f.columns && AltitudeColumn !in f.columns
    requires ExtractAltitude(f, cities).Ok? && i < |f.rows|
    requires forall j :: 0 <= j < |cities| && f.rows[i][Codes.InseeColumn] == Text(cities[j].code) ==>
      cities[j].altitude.None?
    ensures var dept := f.rows[i][Codes.DepartmentColumn];
      var alt := ExtractAltitude(f, cities).value.rows[i][AltitudeColumn];
      && (dept.Text? && DepartmentAltitudes(cities, dept.s) != [] ==>
            alt == Num(Stats.Mean(DepartmentAltitudes(cities, dept.s))))
      && (!(dept.Text? && DepartmentAltitudes(cities, dept.s) != []) ==> alt == Missing)
  {
    var row := f.rows[i];
    AltitudeCell(f, cities, i);
    NoCommuneAltitude(cities, row[Codes.InseeColumn], row[Codes.DepartmentColumn]);
  }

  /** The altitude cell of an extracted row is the one its codes select. */
  lemma AltitudeCell(f: Frame, cities: seq<City>, i: nat)
    requires WellFormed(f) && UniqueCodes(cities)
    requires CityCodeColumn !in f.columns && AltitudeColumn !in f.columns
    requires ExtractAltitude(f, cities).Ok? && i < |f.rows|
    ensures Codes.InseeColumn in f.rows[i] && Codes.DepartmentColumn in f.rows[i]
    ensures ExtractAltitude(f, cities).value.rows[i][AltitudeColumn] ==
      AltitudeOf(cities, f.rows[i][Codes.InseeColumn], f.rows[i][Codes.DepartmentColumn])
  {
    assert f.rows[i] in f.rows;
    assert ExtractAltitude(f, cities).value.rows[i] == EnrichRow(f.rows[i], cities);
  }

  lemma NoCommuneAltitude(cities: seq<City>, code: Cell, dept: Cell)
    requires forall j :: 0 <= j < |cities| && code == Text(cities[j].code) ==> cities[j].altitude.None?
    ensures dept.Text? && DepartmentMean(cities, dept.s).Some? ==>
      AltitudeOf(cities, code, dept) == Num(DepartmentMean(cities, dept.s).value)
    ensures !(dept.Text? && DepartmentMean(cities, dept.s).Some?) ==> AltitudeOf(cities, code, dept) == Missing
  {
    var m := FindCity(cities, code);
    if m.Some? {
      var j :| 0 <= j < |cities| && cities[j] == m.value;
    }
  }

  /** Every altitude the stage fills in lies within the bounds of the communes' altitudes. */
  lemma AltitudeWithin(f: Frame, cities: seq<City>, lo: real, hi: real, i: nat)
    requires WellFormed(f) && UniqueCodes(cities)
    requires CityCodeColumn !in f.columns && AltitudeColumn !in f.columns
    requires ExtractAltitude(f, cities).Ok? && i < |f.rows|
    requires forall j :: 0 <= j < |cities| && cities[j].altitude.Some? ==> lo <= cities[j].altitude.value <= hi
    ensures ExtractAltitude(f, cities).value.rows[i][AltitudeColumn].Missing? ||
      (ExtractAltitude(f, cities).value.rows[i][AltitudeColumn].Num? &&
       lo <= ExtractAltitude(f, cities).value.rows[i][AltitudeColumn].x <= hi)
  {
    var m := FindCity(cities, f.rows[i][Codes.InseeColumn]);
    if m.Some? && m.value.altitude.Some? {
      var j :| 0 <= j < |cities| && cities[j] == m.value;
    } else {
      var dept := f.rows[i][Codes.DepartmentColumn];
      if dept.Text? && DepartmentMean(cities, dept.s).Some? {
        DepartmentMeanWithin(cities, dept.s, lo, hi);
      }
    }
  }
}

=== FILE: geo_features.dfy ===
/**
 * Department and climate-zone resolution of src/data_requesters/geo_features.py:
 * `_map_dept_to_zone`, `_extract_department_from_feature` and
 * `get_zone_and_altitude`.
 *
 * The address-search service is an oracle from the query text to its reply;
 * a reply that raised (network error, HTTP error status, bad JSON) is
 * `SearchFailed`. The climate-zone table is a parameter: the zones in the
 * order the grouped table lists them, each with its department numbers.
 */
module GeoFeatures {
  import opened Wrappers
  import opened PyStr

  // ---------------------------------------------------------------------------
  // Climate zones
  // ---------------------------------------------------------------------------

  /** One entry of `CLIMATE_ZONES`: a zone and the department numbers in it. */
  datatype ZoneEntry = ZoneEntry(zone: string, departments: seq<int>)

  /** `_map_dept_to_zone`: the first zone listing the department, else "Unknown". */
  function MapDeptToZone(zones: seq<ZoneEntry>, dept: int): (r: string)
    ensures (exists i :: 0 <= i < |zones| && dept in zones[i].departments) ==>
      exists i :: && 0 <= i < |zones|
                  && dept in zones[i].departments
                  && r == zones[i].zone
                  && forall j :: 0 <= j < i ==> dept !in zones[j].departments
    ensures (forall i :: 0 <= i < |zones| ==> dept !in zones[i].departments) ==> r == "Unknown"
  {
    if zones == [] then "Unknown"
    else if dept in zones[0].departments then zones[0].zone
    else
      var r := MapDeptToZone(zones[1..], dept);
      assert forall i :: 1 <= i < |zones| ==> zones[i] == zones[1..][i - 1];
      r
  }

  /**
   * The value of the `zone_climatique` key: the placeholder the result dict is
   * created with (the `str` type object), a zone name, or `None`.
   */
  datatype ZoneValue = Placeholder | Zone(name: string) | NoZone

  /**
   * The zone of a department code: Corsican codes (`2A`, `2B`, any case) are
   * looked up as 20, other codes through `int()`; a code `int()` rejects has
   * no zone.
   */
  function ZoneFor(zones: seq<ZoneEntry>, dept: string): (z: ZoneValue)
    ensures z != Placeholder
    ensures IsCorsican(dept) ==> z == Zone(MapDeptToZone(zones, 20))
    ensures !IsCorsican(dept) ==> (z == NoZone <==> ParseInt(dept).None?)
    ensures !IsCorsican(dept) && ParseInt(dept).Some? ==> z == Zone(MapDeptToZone(zones, ParseInt(dept).value))
  {
    if IsCorsican(dept) then Zone(MapDeptToZone(zones, 20))
    else
      match ParseInt(dept)
      case None => NoZone
      case Some(n) => Zone(MapDeptToZone(zones, n))
  }

  /** Both Corsican departments share the zone of department 20. */
  lemma CorsicaIsTwenty(zones: seq<ZoneEntry>)
    ensures ZoneFor(zones, "2A") == ZoneFor(zones, "2b") == ZoneFor(zones, "20")
  {
    TwentyIsPlain();
    CorsicanCodes();
  }

  lemma TwentyIsPlain()
    ensures !IsCorsican("20") && ParseInt("20") == Some(20)
  {
    TwentyParses();
    assert AsciiUpper("20")[1] == '0';
  }

  lemma TwentyParses()
    ensures ParseInt("20") == Some(20)
  {
    TwentyDigits();
    DigitsParse("20");
  }

  /** Kept apart from `TwentyParses`: the digit facts of "20" alone are cheap to settle. */
  lemma TwentyDigits()
    ensures IsDigits("20") && DigitsValue("20") == 20
  {
    assert "20"[..1] == "2";
  }

  lemma CorsicanCodes()
    ensures IsCorsican("2A") && IsCorsican("2b")
  {
    assert AsciiUpper("2A") == "2A" by {
      assert AsciiUpper("2A")[1] == 'A';
    }
    assert AsciiUpper("2b") == "2B" by {
      assert AsciiUpper("2b")[1] == 'B';
    }
  }

  // ---------------------------------------------------------------------------
  // Department extraction
  // ---------------------------------------------------------------------------

  /** The feature properties the extraction reads; `None` when a key is absent. */
  datatype Props = Props(context: Option<string>, postcode: Option<string>, citycode: Option<string>)

  /** Python truthiness of an optional string: `None` and `""` are false. */
  predicate Truthy(s: Option<string>) {
    s.Some? && s.value != ""
  }

  /** `(props.get("context") or "").split(",")[0].strip()`. */
  function ContextToken(p: Props): string {
    var context := if Truthy(p.context) then p.context.value else "";
    Strip(Split(context, ',')[0])
  }

  /** The context step succeeds: a non-empty context whose token is a number or a Corsican code. */
  predicate ContextDecides(p: Props) {
    Truthy(p.context) && (IsDigits(ContextToken(p)) || IsCorsican(ContextToken(p)))
  }

  /** Overseas postcodes start with 97 or 98 and carry a three-digit department. */
  predicate Overseas(postcode: string) {
    StartsWith(postcode, "97") || StartsWith(postcode, "98")
  }

  /** `_extract_department_from_feature`: context token, then postcode, then citycode. */
  function ExtractDepartment(p: Props): (r: Option<string>)
    ensures ContextDecides(p) && IsDigits(ContextToken(p)) ==> r == Some(Zfill(ContextToken(p), 2))
    ensures ContextDecides(p) && !IsDigits(ContextToken(p)) ==> r == Some(AsciiUpper(ContextToken(p)))
    ensures !ContextDecides(p) && Truthy(p.postcode) ==>
      r == Some(Take(p.postcode.value, if Overseas(p.postcode.value) then 3 else 2))
    ensures !ContextDecides(p) && !Truthy(p.postcode) ==>
      r == (if p.citycode.Some? && IsDigits(p.citycode.value) then Some(Take(p.citycode.value, 2)) else None)
    // A department found is never the empty string, so callers treat it as found.
    ensures r.Some? ==> r.value != ""
  {
    var context := if Truthy(p.context) then p.context.value else "";
    var first := Strip(Split(context, ',')[0]);
    if context != "" && IsDigits(first) then Some(Zfill(first, 2))
    else if context != "" && AsciiUpper(first) in {"2A", "2B"} then Some(AsciiUpper(first))
    else if Truthy(p.postcode) then
      var postcode := p.postcode.value;
      if StartsWith(postcode, "97") || StartsWith(postcode, "98") then Some(Take(postcode, 3))
      else Some(Take(postcode, 2))
    else if p.citycode.Some? && IsDigits(p.citycode.value) then Some(Take(p.citycode.value, 2))
    else None
  }

  /**
   * A department taken from the context token or from the citycode always has
   * a zone: it is a digit string or a Corsican code, which the zone lookup
   * accepts. Only the postcode fallback can yield a code with no zone.
   */
  lemma ExtractedDepartmentHasZone(zones: seq<ZoneEntry>, p: Props)
    requires ContextDecides(p) || (!Truthy(p.postcode) && ExtractDepartment(p).Some?)
    ensures ZoneFor(zones, ExtractDepartment(p).value) != NoZone
  {
    if ContextDecides(p) && IsDigits(ContextToken(p)) {
      ContextNumberHasZone(zones, p);
    } else if ContextDecides(p) {
      ContextCorsicanHasZone(zones, p);
    } else {
      CitycodeHasZone(zones, p);
    }
  }

  lemma ContextNumberHasZone(zones: seq<ZoneEntry>, p: Props)
    requires ContextDecides(p) && IsDigits(ContextToken(p))
    ensures ZoneFor(zones, ExtractDepartment(p).value) != NoZone
  {
    var t := ContextToken(p);
    ZfillDigits(t);
    DigitsHaveZone(zones, Zfill(t, 2));
  }

  lemma ContextCorsicanHasZone(zones: seq<ZoneEntry>, p: Props)
    requires ContextDecides(p) && !IsDigits(ContextToken(p))
    ensures ZoneFor(zones, ExtractDepartment(p).value) != NoZone
  {
    UpperCorsican(ContextToken(p));
  }

  lemma CitycodeHasZone(zones: seq<ZoneEntry>, p: Props)
    requires !ContextDecides(p) && !Truthy(p.postcode) && ExtractDepartment(p).Some?
    ensures ZoneFor(zones, ExtractDepartment(p).value) != NoZone
  {
    var d := ExtractDepartment(p).value;
    assert IsDigits(d);
    DigitsHaveZone(zones, d);
  }

  /** A digit string always has a zone. */
  lemma DigitsHaveZone(zones: seq<ZoneEntry>, d: string)
    requires IsDigits(d)
    ensures ZoneFor(zones, d) != NoZone
  {
    DigitsParse(d);
  }

  lemma ZfillDigits(t: string)
    requires IsDigits(t)
    ensures IsDigits(Zfill(t, 2))
  {
    assert !Signed(t);
    if |t| < 2 {
      assert Zfill(t, 2) == Zeros(2 - |t|) + t;
    }
  }

  lemma UpperCorsican(t: string)
    requires IsCorsican(t)
    ensures IsCorsican(AsciiUpper(t))
  {
    var u := AsciiUpper(t);
    var v := AsciiUpper(u);
    assert |v| == 2;
    assert v[0] == u[0] && v[1] == u[1];
    assert v == u;
  }

  // ---------------------------------------------------------------------------
  // get_zone_and_altitude
  // ---------------------------------------------------------------------------

  /** The first feature of an address-search reply. */
  datatype Feature = Feature(properties: Props, coordinates: Option<seq<real>>)

  /** The address-search reply: its `features` list, or the exception the call raised. */
  datatype SearchReply = SearchFailed | Features(features: seq<Feature>)

  /** The result dict of `get_zone_and_altitude`. */
  datatype ZoneAndAltitude = ZoneAndAltitude(
    zone: ZoneValue,
    altitude: Option<real>,
    dept: Option<string>,
    lat: Option<real>,
    lon: Option<real>)

  /** The result and the address searches sent. */
  datatype Lookup = Lookup(result: ZoneAndAltitude, searches: seq<string>)

  /** The dict the function starts from. */
  const Initial := ZoneAndAltitude(Placeholder, None, None, None, None)

  /** The closing step: a found department is mapped to its zone. */
  function NormalizeZone(zones: seq<ZoneEntry>, res: ZoneAndAltitude): ZoneAndAltitude
  {
    if Truthy(res.dept) then res.(zone := ZoneFor(zones, res.dept.value)) else res
  }

  function GetZoneAndAltitude(zones: seq<ZoneEntry>, ville: Option<string>, insee: Option<string>,
                              search: string -> SearchReply): (r: Lookup)
    // The altitude key is never filled in.
    ensures r.result.altitude == None
    // An INSEE code gives the department directly and no search is sent.
    ensures Truthy(insee) ==>
      && r.searches == []
      && r.result.dept == Some(Take(insee.value, 2))
      && r.result.lat == None && r.result.lon == None
    // Without one, the city is searched exactly when it is non-empty.
    ensures !Truthy(insee) ==> r.searches == (if Truthy(ville) then [ville.value] else [])
    // The zone is the department's zone whenever a department was found,
    // and otherwise stays the placeholder.
    ensures Truthy(r.result.dept) ==> r.result.zone == ZoneFor(zones, r.result.dept.value)
    ensures !Truthy(r.result.dept) ==> r.result.zone == Placeholder
    // A search with no match, or one that raised, leaves the initial dict.
    ensures !Truthy(insee) && Truthy(ville) && search(ville.value) in {SearchFailed, Features([])} ==>
      r.result == Initial
    // A match fills the coordinates in [lon, lat] order and extracts the department.
    ensures !Truthy(insee) && Truthy(ville) && search(ville.value).Features? ==>
      var fs := search(ville.value).features;
      |fs| > 0 && fs[0].coordinates.Some? && |fs[0].coordinates.value| >= 2 ==>
        && r.result.lon == Some(fs[0].coordinates.value[0])
        && r.result.lat == Some(fs[0].coordinates.value[1])
        && r.result.dept == ExtractDepartment(fs[0].properties)
    // A match without coordinates reads the default [None, None] and still extracts the department.
    ensures !Truthy(insee) && Truthy(ville) && search(ville.value).Features? ==>
      var fs := search(ville.value).features;
      |fs| > 0 && fs[0].coordinates.None? ==>
        && r.result.lon == None && r.result.lat == None
        && r.result.dept == ExtractDepartment(fs[0].properties)
    // A coordinate list too short to index raises inside the `try`: the initial dict comes back.
    ensures !Truthy(insee) && Truthy(ville) && search(ville.value).Features? ==>
      var fs := search(ville.value).features;
      |fs| > 0 && fs[0].coordinates.Some? && |fs[0].coordinates.value| < 2 ==> r.result == Initial
    // With neither an INSEE code nor a city, the initial dict comes back untouched.
    ensures !Truthy(insee) && !Truthy(ville) ==> r == Lookup(Initial, [])
  {
    var start := if Truthy(insee) then Initial.(dept := Some(Take(insee.value, 2))) else Initial;
    if !Truthy(start.dept) && Truthy(ville) then
      match search(ville.value)
      case SearchFailed => Lookup(start, [ville.value])
      case Features(fs) =>
        if fs == [] then Lookup(start, [ville.value])
        else
          var feat := fs[0];
          if feat.coordinates.Some? && |feat.coordinates.value| < 2 then
            // `coords[1]` raised IndexError inside the try: the partial dict is returned.
            Lookup(start, [ville.value])
          else
            var lon := if feat.coordinates.Some? then Some(feat.coordinates.value[0]) else None;
            var lat := if feat.coordinates.Some? then Some(feat.coordinates.value[1]) else None;
            var located := start.(lat := lat, lon := lon, dept := ExtractDepartment(feat.properties));
            Lookup(NormalizeZone(zones, located), [ville.value])
    else
      Lookup(NormalizeZone(zones, start), [])
  }

  /**
   * A city whose first search match has a context naming a department (a
   * number or a Corsican code) always ends with a climate zone: a zone name,
   * "Unknown" included, never the placeholder nor `None`.
   */
  lemma SearchedContextHasZone(zones: seq<ZoneEntry>, ville: Option<string>, insee: Option<string>,
                               search: string -> SearchReply)
    requires !Truthy(insee) && Truthy(ville) && search(ville.value).Features?
    requires var fs := search(ville.value).features;
      && |fs| > 0 && ContextDecides(fs[0].properties)
      && (fs[0].coordinates.Some? ==> |fs[0].coordinates.value| >= 2)
    ensures GetZoneAndAltitude(zones, ville, insee, search).result.zone.Zone?
  {
    var p := search(ville.value).features[0].properties;
    ExtractedDepartmentHasZone(zones, p);
  }
}

=== FILE: outliers.dfy ===
/**
 * The row filters of src/processing/data_cleaner.py: `cost_cleaning` and
 * `surface_cleaning` (the interquartile-range outlier rule) and
 * `level_cleaning` (a fixed range of storeys).
 *
 * A comparison with NaN is false, so every filter also drops the rows whose
 * cell is missing; a comparison with a string raises a `TypeError`.
 */
module Outliers {
  import opened Wrappers
  import opened Tables
  import Stats

  const CostColumn: string := "cout_total_5_usages"
  const SurfaceColumn: string := "surface_habitable_logement"
  const LevelColumn: string := "nombre_niveau_logement"

  /** The cell holds a number within `[lo, hi]`. */
  predicate Within(c: Cell, lo: real, hi: real) {
    Numeric(c).Some? && lo <= Numeric(c).value <= hi
  }

  /** The Tukey fences of a column's non-missing values. */
  function ColumnFences(rows: seq<Row>, col: string): Stats.Fences
    requires Values(rows, col) != []
  {
    Stats.TukeyFences(Values(rows, col))
  }

  /** The mask `(df[col] >= lo) & (df[col] <= hi)`. */
  function KeepWithin(col: string, lo: real, hi: real): Row -> bool {
    x => col in x && Within(x[col], lo, hi)
  }

  /**
   * `df[(df[col] >= Q1 - 1.5 IQR) & (df[col] <= Q3 + 1.5 IQR)]`. With no
   * value in the column the quartiles are NaN and no row survives.
   */
  function IqrFilter(f: Frame, col: string): (r: Result<Frame, CleanError>)
    requires WellFormed(f)
    // Reading an absent column is a KeyError; a string in it is a TypeError.
    ensures r.Err? <==> col !in f.columns || !NumericColumn(f.rows, col)
    ensures r.Err? ==> r.error == if col !in f.columns then MissingColumn(col) else NotNumeric(col)
    // The columns stay; the rows kept are a subsequence of the input.
    ensures r.Ok? ==> WellFormed(r.value) && r.value.columns == f.columns && IsSubsequence(r.value.rows, f.rows)
    ensures r.Ok? && Values(f.rows, col) == [] ==> r.value.rows == []
    // Exactly the rows whose value lies within the fences are kept.
    ensures r.Ok? && Values(f.rows, col) != [] ==>
      forall x :: x in r.value.rows <==>
        x in f.rows && col in x && Within(x[col], ColumnFences(f.rows, col).lo, ColumnFences(f.rows, col).hi)
    // and each kept row with all its copies.
    ensures r.Ok? ==> forall x :: multiset(r.value.rows)[x] == if x in r.value.rows then multiset(f.rows)[x] else 0
  {
    if col !in f.columns then Err(MissingColumn(col))
    else if !NumericColumn(f.rows, col) then Err(NotNumeric(col))
    else if Values(f.rows, col) == [] then Ok(Frame(f.columns, []))
    else
      var fences := ColumnFences(f.rows, col);
      var kept := Filter(f.rows, KeepWithin(col, fences.lo, fences.hi));
      FilterCounts(f.rows, KeepWithin(col, fences.lo, fences.hi));
      Ok(Frame(f.columns, kept))
  }

  /**
   * `cost_cleaning`: `dropna` on the cost column, then the IQR rule. The
   * `dropna` is redundant, since the mask drops missing costs anyway, so the
   * stage is the IQR rule on the cost column.
   */
  function CostCleaning(f: Frame): (r: Result<Frame, CleanError>)
    requires WellFormed(f)
    ensures r.Err? <==> CostColumn !in f.columns || !NumericColumn(f.rows, CostColumn)
    ensures r == IqrFilter(f, CostColumn)
    ensures r.Ok? ==> WellFormed(r.value) && r.value.columns == f.columns && IsSubsequence(r.value.rows, f.rows)
    // The rows kept are those whose cost lies within the fences, with all their copies.
    ensures r.Ok? && Values(f.rows, CostColumn) != [] ==>
      forall x :: x in r.value.rows <==>
        x in f.rows && CostColumn in x &&
        Within(x[CostColumn], ColumnFences(f.rows, CostColumn).lo, ColumnFences(f.rows, CostColumn).hi)
    ensures r.Ok? ==> forall x :: multiset(r.value.rows)[x] == if x in r.value.rows then multiset(f.rows)[x] else 0
  {
    if CostColumn !in f.columns then Err(MissingColumn(CostColumn))
    else
      var g := Frame(f.columns, Filter(f.rows, x => Present(x, CostColumn)));
      NumericSubset(f.rows, g.rows, CostColumn);
      DropnaRedundant(f);
      IqrFilter(g, CostColumn)
  }

  /** `surface_cleaning`: the IQR rule on the surface column. */
  function SurfaceCleaning(f: Frame): (r: Result<Frame, CleanError>)
    requires WellFormed(f)
    ensures r.Err? <==> SurfaceColumn !in f.columns || !NumericColumn(f.rows, SurfaceColumn)
    ensures r.Ok? ==> WellFormed(r.value) && r.value.columns == f.columns && IsSubsequence(r.value.rows, f.rows)
    ensures r.Ok? && Values(f.rows, SurfaceColumn) != [] ==>
      forall x :: x in r.value.rows <==>
        x in f.rows && SurfaceColumn in x &&
        Within(x[SurfaceColumn], ColumnFences(f.rows, SurfaceColumn).lo, ColumnFences(f.rows, SurfaceColumn).hi)
    ensures r.Ok? && Values(f.rows, SurfaceColumn) == [] ==> r.value.rows == []
    ensures r.Ok? ==> forall x :: multiset(r.value.rows)[x] == if x in r.value.rows then multiset(f.rows)[x] else 0
  {
    IqrFilter(f, SurfaceColumn)
  }

  /**
   * `level_cleaning`: keep between 1 and 10 storeys. The `dropna(inplace=True)`
   * before it works on a copy and changes nothing; the comparisons drop the
   * missing cells anyway.
   */
  function LevelCleaning(f: Frame): (r: Result<Frame, CleanError>)
    requires WellFormed(f)
    ensures r.Err? <==> LevelColumn !in f.columns || !NumericColumn(f.rows, LevelColumn)
    ensures r.Ok? ==> WellFormed(r.value) && r.value.columns == f.columns && IsSubsequence(r.value.rows, f.rows)
    ensures r.Ok? ==> forall x :: x in r.value.rows <==> x in f.rows && LevelColumn in x && Within(x[LevelColumn], 1.0, 10.0)
    // A kept row is kept with all its copies.
    ensures r.Ok? ==> forall x :: multiset(r.value.rows)[x] == if x in r.value.rows then multiset(f.rows)[x] else 0
  {
    if LevelColumn !in f.columns then Err(MissingColumn(LevelColumn))
    else if !NumericColumn(f.rows, LevelColumn) then Err(NotNumeric(LevelColumn))
    else
      FilterCounts(f.rows, KeepWithin(LevelColumn, 1.0, 10.0));
      Ok(Frame(f.columns, Filter(f.rows, KeepWithin(LevelColumn, 1.0, 10.0))))
  }

  // ---------------------------------------------------------------------------
  // Properties
  // ---------------------------------------------------------------------------

  /** A subsequence of a numeric column's rows is numeric too. */
  lemma NumericSubset(rows: seq<Row>, sub: seq<Row>, col: string)
    requires forall x :: x in sub ==> x in rows
    ensures NumericColumn(rows, col) ==> NumericColumn(sub, col)
  {
  }

  /** Dropping the missing costs first changes nothing: the IQR rule drops them too. */
  lemma DropnaRedundant(f: Frame)
    requires WellFormed(f) && CostColumn in f.columns
    ensures var g := Frame(f.columns, Filter(f.rows, x => Present(x, CostColumn)));
      WellFormed(g) && IqrFilter(g, CostColumn) == IqrFilter(f, CostColumn)
  {
    NumericSubset(f.rows, Filter(f.rows, x => Present(x, CostColumn)), CostColumn);
    if NumericColumn(f.rows, CostColumn) {
      var present := x => Present(x, CostColumn);
      var dropped := Filter(f.rows, present);
      ValuesWithoutMissing(f.rows, CostColumn);
      assert Values(dropped, CostColumn) == Values(f.rows, CostColumn);
      if Values(f.rows, CostColumn) != [] {
        var fences := ColumnFences(f.rows, CostColumn);
        var keep := KeepWithin(CostColumn, fences.lo, fences.hi);
        FilterImplied(f.rows, present, keep);
      }
    }
  }

  /** Every row whose value lies between the two quartiles survives the IQR rule. */
  lemma IqrKeepsInterquartile(f: Frame, col: string, i: nat)
    requires WellFormed(f) && IqrFilter(f, col).Ok?
    requires i < |f.rows| && col in f.rows[i] && Numeric(f.rows[i][col]).Some?
    ensures Values(f.rows, col) != []
    ensures var vs := Values(f.rows, col); var v := Numeric(f.rows[i][col]).value;
      Stats.Quantile(vs, 0.25) <= v <= Stats.Quantile(vs, 0.75) ==> f.rows[i] in IqrFilter(f, col).value.rows
  {
    ValuesNonEmpty(f.rows, col, i);
    assert f.rows[i] in f.rows;
  }

  /** Keeping 1 to 10 storeys twice keeps the same rows. */
  lemma LevelCleaningIdempotent(f: Frame)
    requires WellFormed(f) && LevelCleaning(f).Ok?
    ensures LevelCleaning(LevelCleaning(f).value) == LevelCleaning(f)
  {
    var keep := KeepWithin(LevelColumn, 1.0, 10.0);
    FilterIdempotent(f.rows, keep);
    NumericSubset(f.rows, Filter(f.rows, keep), LevelColumn);
  }

  // ---------------------------------------------------------------------------
  // The IQR rule is not idempotent
  // ---------------------------------------------------------------------------

  /** A one-column table of surfaces. */
  function Surfaces(vs: seq<real>): (rows: seq<Row>)
    ensures |rows| == |vs|
    ensures forall i :: 0 <= i < |vs| ==> rows[i] == map[SurfaceColumn := Num(vs[i])]
  {
    seq(|vs|, i requires 0 <= i < |vs| => map[SurfaceColumn := Num(vs[i])])
  }

  lemma {:induction false} SurfacesValues(vs: seq<real>)
    ensures Values(Surfaces(vs), SurfaceColumn) == vs
    decreases |vs|
  {
    if vs != [] {
      var n := |vs| - 1;
      assert Surfaces(vs)[..n] == Surfaces(vs[..n]);
      SurfacesValues(vs[..n]);
      assert vs == vs[..n] + [vs[n]];
    }
  }

  /** A mask that holds for every surface but the last removes just that one. */
  lemma FilterDropsLast(init: seq<real>, last: real, lo: real, hi: real)
    requires forall x :: x in init ==> lo <= x <= hi
    requires hi < last
    ensures Filter(Surfaces(init + [last]), KeepWithin(SurfaceColumn, lo, hi)) == Surfaces(init)
  {
    var keep := KeepWithin(SurfaceColumn, lo, hi);
    var rows := Surfaces(init + [last]);
    assert rows[..|init|] == Surfaces(init);
    assert !keep(rows[|init|]);
    var kept := Surfaces(init);
    forall i | 0 <= i < |kept| ensures keep(kept[i]) {
      assert init[i] in init;
    }
    FilterKeepsAll(kept, keep);
  }

  /** Values in order neighbour by neighbour, for a sequence of five or six. */
  predicate Ascending(s: seq<real>)
    requires 5 <= |s| <= 6
  {
    s[0] <= s[1] && s[1] <= s[2] && s[2] <= s[3] && s[3] <= s[4] && (|s| == 6 ==> s[4] <= s[5])
  }

  lemma AscendingSorted(s: seq<real>)
    requires 5 <= |s| <= 6 && Ascending(s)
    ensures Stats.Sorted(s)
  {
    forall i | 0 <= i < |s| - 1 ensures s[i] <= s[i + 1] {
      if i == 0 {} else if i == 1 {} else if i == 2 {} else if i == 3 {}
    }
    Stats.SortedByNeighbours(s);
  }

  /** The quartiles of six ordered values. */
  lemma SixQuartiles(s: seq<real>)
    requires |s| == 6 && Ascending(s)
    ensures Stats.Quantile(s, 0.25) == s[1] + (s[2] - s[1]) * 0.25
    ensures Stats.Quantile(s, 0.75) == s[3] + (s[4] - s[3]) * 0.75
  {
    AscendingSorted(s);
    LowerQuartileOfSix(s);
    UpperQuartileOfSix(s);
  }

  lemma LowerQuartileOfSix(s: seq<real>)
    requires |s| == 6 && Stats.Sorted(s)
    ensures Stats.Quantile(s, 0.25) == s[1] + (s[2] - s[1]) * 0.25
  {
    assert 5.0 * 0.25 == 1.0 + 0.25;
    Stats.QuantileOfSorted(s, 0.25, 1, 0.25);
  }

  lemma UpperQuartileOfSix(s: seq<real>)
    requires |s| == 6 && Stats.Sorted(s)
    ensures Stats.Quantile(s, 0.75) == s[3] + (s[4] - s[3]) * 0.75
  {
    assert 5.0 * 0.75 == 3.0 + 0.75;
    Stats.QuantileOfSorted(s, 0.75, 3, 0.75);
  }

  /** The quartiles of five ordered values. */
  lemma FiveQuartiles(s: seq<real>)
    requires |s| == 5 && Ascending(s)
    ensures Stats.Quantile(s, 0.25) == s[1]
    ensures Stats.Quantile(s, 0.75) == s[3]
  {
    AscendingSorted(s);
    Stats.QuantileOfSorted(s, 0.25, 1, 0.0);
    Stats.QuantileOfSorted(s, 0.75, 3, 0.0);
  }

  /** One pass of the rule over the surfaces, when it drops exactly the last one. */
  lemma IqrDropsLast(init: seq<real>, last: real, lo: real, hi: real)
    requires Stats.TukeyFences(init + [last]) == Stats.Fences(lo, hi)
    requires forall x :: x in init ==> lo <= x <= hi
    requires hi < last
    ensures IqrFilter(Frame([SurfaceColumn], Surfaces(init + [last])), SurfaceColumn)
            == Ok(Frame([SurfaceColumn], Surfaces(init)))
  {
    SurfacesValues(init + [last]);
    FilterDropsLast(init, last, lo, hi);
  }

  /** The surfaces each pass keeps lie within its fences. */
  lemma SmallSurfaces()
    ensures forall x :: x in [1.0, 2.0, 3.0, 4.0, 10.0] ==> -7.125 <= x <= 17.875
    ensures forall x :: x in [1.0, 2.0, 3.0, 4.0] ==> -1.0 <= x <= 7.0
  {
  }

  /** The first pass over 1, 2, 3, 4, 10, 100: quartiles 2.25 and 8.5, fences -7.125 and 17.875. */
  lemma FirstPass()
    ensures IqrFilter(Frame([SurfaceColumn], Surfaces([1.0, 2.0, 3.0, 4.0, 10.0, 100.0])), SurfaceColumn)
            == Ok(Frame([SurfaceColumn], Surfaces([1.0, 2.0, 3.0, 4.0, 10.0])))
  {
    var init := [1.0, 2.0, 3.0, 4.0, 10.0];
    assert init + [100.0] == [1.0, 2.0, 3.0, 4.0, 10.0, 100.0];
    assert Stats.TukeyFences(init + [100.0]) == Stats.Fences(-7.125, 17.875) by {
      SixQuartiles(init + [100.0]);
    }
    SmallSurfaces();
    IqrDropsLast(init, 100.0, -7.125, 17.875);
  }

  /** The second pass over 1, 2, 3, 4, 10: quartiles 2 and 4, fences -1 and 7. */
  lemma SecondPass()
    ensures IqrFilter(Frame([SurfaceColumn], Surfaces([1.0, 2.0, 3.0, 4.0, 10.0])), SurfaceColumn)
            == Ok(Frame([SurfaceColumn], Surfaces([1.0, 2.0, 3.0, 4.0])))
  {
    var init := [1.0, 2.0, 3.0, 4.0];
    assert init + [10.0] == [1.0, 2.0, 3.0, 4.0, 10.0];
    assert Stats.TukeyFences(init + [10.0]) == Stats.Fences(-1.0, 7.0) by {
      FiveQuartiles(init + [10.0]);
    }
    SmallSurfaces();
    IqrDropsLast(init, 10.0, -1.0, 7.0);
  }

  /**
   * Surfaces 1, 2, 3, 4, 10 and 100: the rule drops 100, and a second pass
   * over the five left drops 10 as well.
   */
  lemma IqrFilterNotIdempotent()
    ensures var f := Frame([SurfaceColumn], Surfaces([1.0, 2.0, 3.0, 4.0, 10.0, 100.0]));
      && IqrFilter(f, SurfaceColumn).Ok?
      && IqrFilter(f, SurfaceColumn).value.rows == Surfaces([1.0, 2.0, 3.0, 4.0, 10.0])
      && IqrFilter(IqrFilter(f, SurfaceColumn).value, SurfaceColumn).value.rows == Surfaces([1.0, 2.0, 3.0, 4.0])
  {
    FirstPass();
    SecondPass();
  }
}

=== FILE: pystr.dfy ===
/**
 * The Python `str` operations the core relies on, written out over `seq<char>`:
 * `zfill`, `isdigit`, slicing `s[:n]`, `startswith`, `split(sep)`, `strip()`,
 * `upper()` (on ASCII letters), `int(s)` and `str(n)` for integers.
 */
module PyStr {
  import opened Wrappers

  // ---------------------------------------------------------------------------
  // zfill
  // ---------------------------------------------------------------------------

  /** The string of `n` zero characters. */
  function Zeros(n: nat): (z: string)
    ensures |z| == n
    ensures forall i :: 0 <= i < n ==> z[i] == '0'
  {
    if n == 0 then "" else Zeros(n - 1) + "0"
  }

  /** A string whose first character is a sign, which `zfill` keeps in front. */
  predicate Signed(s: string) {
    |s| > 0 && (s[0] == '+' || s[0] == '-')
  }

  /**
   * `s.zfill(width)`: pad with '0' on the left up to `width`; the padding goes
   * after a leading sign. The body follows CPython: pad first, then move a sign
   * found at the old start back to the front.
   */
  function Zfill(s: string, width: int): (r: string)
    ensures |r| == if |s| >= width then |s| else width
    ensures |s| >= width ==> r == s
    ensures |s| < width && !Signed(s) ==> r == Zeros(width - |s|) + s
    ensures |s| < width && Signed(s) ==> r == [s[0]] + Zeros(width - |s|) + s[1..]
  {
    if |s| >= width then s
    else
      var fill := width - |s|;
      var p := Zeros(fill) + s;
      if fill < |p| && (p[fill] == '+' || p[fill] == '-') then
        var q := p[0 := p[fill]][fill := '0'];
        assert q == [s[0]] + Zeros(fill) + s[1..] by {
          forall i | 0 <= i < |q|
            ensures q[i] == ([s[0]] + Zeros(fill) + s[1..])[i]
          {
            if i == 0 {
            } else if i <= fill {
            } else {
              assert q[i] == s[i - fill];
            }
          }
        }
        q
      else p
  }

  /** Padding an already padded string changes nothing. */
  lemma ZfillIdempotent(s: string, width: int)
    ensures Zfill(Zfill(s, width), width) == Zfill(s, width)
  {
  }

  /** Without a sign, the result ends with the input and everything before it is '0'. */
  lemma ZfillKeepsSuffix(s: string, width: int)
    requires !Signed(s)
    ensures var r := Zfill(s, width);
      && |r| >= |s|
      && r[|r| - |s|..] == s
      && forall i :: 0 <= i < |r| - |s| ==> r[i] == '0'
  {
    var r := Zfill(s, width);
    if |s| < width {
      assert r == Zeros(width - |s|) + s;
      assert r[|r| - |s|..] == s;
    }
  }

  // ---------------------------------------------------------------------------
  // Character classes, slicing and prefixes
  // ---------------------------------------------------------------------------

  predicate IsDigit(c: char) {
    '0' <= c <= '9'
  }

  /** `s.isdigit()` on ASCII text: non-empty and made of digits only. */
  predicate IsDigits(s: string) {
    |s| > 0 && forall i :: 0 <= i < |s| ==> IsDigit(s[i])
  }

  /** `s[:n]` for `n >= 0`: Python clamps the bound to the length. */
  function Take(s: string, n: nat): (r: string)
    ensures r <= s
    ensures |r| == if n <= |s| then n else |s|
  {
    if n <= |s| then s[..n] else s
  }

  /** `s.startswith(p)`. */
  predicate StartsWith(s: string, p: string) {
    p <= s
  }

  /** The characters `str.isspace()` accepts (the whole Unicode set). */
  predicate IsSpace(c: char) {
    || c == ' '
    || '\t' <= c <= '\r'
    || '\U{1c}' <= c <= '\U{1f}'
    || c == '\U{85}' || c == '\U{a0}' || c == '\U{1680}'
    || '\U{2000}' <= c <= '\U{200a}'
    || c == '\U{2028}' || c == '\U{2029}' || c == '\U{202f}'
    || c == '\U{205f}' || c == '\U{3000}'
  }

  /** The first position from `i` on that does not hold whitespace (`|s|` when none does). */
  function SpanEnd(s: string, i: nat): (e: nat)
    requires i <= |s|
    ensures i <= e <= |s|
    ensures forall k :: i <= k < e ==> IsSpace(s[k])
    ensures e < |s| ==> !IsSpace(s[e])
    decreases |s| - i
  {
    if i < |s| && IsSpace(s[i]) then SpanEnd(s, i + 1) else i
  }

  /** The position after the last non-whitespace character of `s[lo..j]` (`lo` when none). */
  function SpanStart(s: string, lo: nat, j: nat): (b: nat)
    requires lo <= j <= |s|
    ensures lo <= b <= j
    ensures forall k :: b <= k < j ==> IsSpace(s[k])
    ensures b > lo ==> !IsSpace(s[b - 1])
    decreases j - lo
  {
    if j > lo && IsSpace(s[j - 1]) then SpanStart(s, lo, j - 1) else j
  }

  /** `r` is the slice `s[i:j]` and only whitespace lies outside it. */
  predicate TrimmedAt(s: string, r: string, i: int, j: int) {
    && 0 <= i <= j <= |s| && r == s[i..j]
    && (forall k :: 0 <= k < i ==> IsSpace(s[k]))
    && (forall k :: j <= k < |s| ==> IsSpace(s[k]))
  }

  /** `s.strip()`: drop leading and trailing whitespace. */
  function Strip(s: string): (r: string)
    // The result is a slice of the input with only whitespace cut off either side,
    ensures exists i, j :: TrimmedAt(s, r, i, j)
    // and as much of it as there is: the result neither starts nor ends with
    // whitespace, and is empty only for an all-whitespace input.
    ensures |r| > 0 ==> !IsSpace(r[0]) && !IsSpace(r[|r| - 1])
    ensures r == [] ==> forall k :: 0 <= k < |s| ==> IsSpace(s[k])
    ensures |s| == 0 || (!IsSpace(s[0]) && !IsSpace(s[|s| - 1])) ==> r == s
  {
    var i := SpanEnd(s, 0);
    var j := SpanStart(s, i, |s|);
    assert TrimmedAt(s, s[i..j], i, j);
    s[i..j]
  }

  /** `upper()` on ASCII letters; other characters are left as they are. */
  function AsciiUpper(s: string): (r: string)
    ensures |r| == |s|
    ensures forall i :: 0 <= i < |s| && !('a' <= s[i] <= 'z') ==> r[i] == s[i]
    ensures forall i :: 0 <= i < |s| && 'a' <= s[i] <= 'z' ==> r[i] == (s[i] as int - 32) as char
  {
    if s == [] then []
    else
      var c := s[0];
      [if 'a' <= c <= 'z' then (c as int - 32) as char else c] + AsciiUpper(s[1..])
  }

  /** `s.upper() in {"2A", "2B"}`: the two Corsican department codes, in any case. */
  predicate IsCorsican(s: string) {
    AsciiUpper(s) == "2A" || AsciiUpper(s) == "2B"
  }

  lemma CorsicanSpellings(s: string)
    ensures IsCorsican(s) <==> s in {"2A", "2a", "2B", "2b"}
  {
    if IsCorsican(s) {
      var u := AsciiUpper(s);
      assert |s| == 2 && u[0] == '2';
      assert s[0] == '2';
      assert s[1] in {'A', 'a', 'B', 'b'};
      assert s == [s[0], s[1]];
    }
  }

  // ---------------------------------------------------------------------------
  // split(sep)
  // ---------------------------------------------------------------------------

  /** The text before the first `sep` (all of `s` when there is none). */
  function BeforeSep(s: string, sep: char): (r: string)
    ensures r <= s
    ensures sep !in r
    ensures |r| < |s| ==> s[|r|] == sep
  {
    if s == [] || s[0] == sep then [] else [s[0]] + BeforeSep(s[1..], sep)
  }

  /** The inverse of `split`: the parts with `sep` between consecutive ones. */
  function Join(parts: seq<string>, sep: char): string
  {
    if |parts| == 0 then ""
    else if |parts| == 1 then parts[0]
    else parts[0] + [sep] + Join(parts[1..], sep)
  }

  /** `s.split(sep)` for a one-character separator. */
  function Split(s: string, sep: char): (parts: seq<string>)
    ensures |parts| >= 1
    ensures forall i :: 0 <= i < |parts| ==> sep !in parts[i]
    ensures Join(parts, sep) == s
    decreases |s|
  {
    var head := BeforeSep(s, sep);
    if |head| == |s| then
      assert head == s;
      [s]
    else
      var rest := Split(s[|head| + 1..], sep);
      assert s == head + [sep] + s[|head| + 1..];
      var parts := [head] + rest;
      assert parts[0] == head && parts[1..] == rest;
      assert Join(parts, sep) == head + [sep] + Join(rest, sep);
      parts
  }

  /** `split` undoes `join` for parts that do not contain the separator. */
  lemma {:induction false} SplitJoin(parts: seq<string>, sep: char)
    requires |parts| >= 1
    requires forall i :: 0 <= i < |parts| ==> sep !in parts[i]
    ensures Split(Join(parts, sep), sep) == parts
    decreases |parts|
  {
    if |parts| == 1 {
      BeforeSepWhole(parts[0], sep);
    } else {
      var s := Join(parts, sep);
      var tail := Join(parts[1..], sep);
      assert s == parts[0] + ([sep] + tail);
      BeforeSepStops(parts[0], [sep] + tail, sep);
      assert BeforeSep(s, sep) == parts[0];
      assert s[|parts[0]| + 1..] == tail;
      SplitJoin(parts[1..], sep);
      assert Split(s, sep) == [parts[0]] + parts[1..];
    }
  }

  lemma {:induction false} BeforeSepWhole(s: string, sep: char)
    requires sep !in s
    ensures BeforeSep(s, sep) == s
  {
    if s != [] {
      BeforeSepWhole(s[1..], sep);
    }
  }

  lemma {:induction false} BeforeSepStops(a: string, b: string, sep: char)
    requires sep !in a
    requires |b| > 0 && b[0] == sep
    ensures BeforeSep(a + b, sep) == a
  {
    if a == [] {
    } else {
      assert (a + b)[1..] == a[1..] + b;
      BeforeSepStops(a[1..], b, sep);
    }
  }

  // ---------------------------------------------------------------------------
  // int(s) and str(n)
  // ---------------------------------------------------------------------------

  function DigitValue(c: char): nat
    requires IsDigit(c)
  {
    c as int - '0' as int
  }

  /** The number an ASCII digit string denotes. */
  function DigitsValue(s: string): nat
    requires forall i :: 0 <= i < |s| ==> IsDigit(s[i])
  {
    if s == [] then 0 else DigitsValue(s[..|s| - 1]) * 10 + DigitValue(s[|s| - 1])
  }

  /** Digits with single underscores between them, as `int()` accepts. */
  predicate DigitGroups(t: string) {
    && |t| > 0
    && IsDigit(t[0])
    && (forall i :: 0 <= i < |t| ==> IsDigit(t[i]) || t[i] == '_')
    && (forall i :: 0 <= i < |t| && t[i] == '_' ==> i + 1 < |t| && IsDigit(t[i + 1]))
  }

  function RemoveUnderscores(t: string): (r: string)
    requires forall i :: 0 <= i < |t| ==> IsDigit(t[i]) || t[i] == '_'
    ensures forall i :: 0 <= i < |r| ==> IsDigit(r[i])
    ensures (forall i :: 0 <= i < |t| ==> IsDigit(t[i])) ==> r == t
  {
    if t == [] then []
    else (if t[0] == '_' then [] else [t[0]]) + RemoveUnderscores(t[1..])
  }

  function ParseUnsigned(t: string): Option<nat>
  {
    if DigitGroups(t) then Some(DigitsValue(RemoveUnderscores(t)))
    else None
  }

  /** Python `int(s)` in base 10 (ASCII digits). `None` stands for the `ValueError`. */
  function ParseInt(s: string): Option<int>
  {
    var t := Strip(s);
    if |t| > 0 && (t[0] == '+' || t[0] == '-') then
      match ParseUnsigned(t[1..])
      case None => None
      case Some(n) =>
        var v: int := n;
        Some(if t[0] == '-' then -v else v)
    else
      match ParseUnsigned(t)
      case None => None
      case Some(n) => Some(n)
  }

  /** The decimal digits of a natural number, most significant first. */
  function NatDigits(n: nat): (r: string)
    ensures |r| > 0
    ensures forall i :: 0 <= i < |r| ==> IsDigit(r[i])
  {
    if n < 10 then [('0' as int + n) as char]
    else NatDigits(n / 10) + [('0' as int + n % 10) as char]
  }

  /** Python `str(n)` for an integer. */
  function Decimal(n: int): string
  {
    if n < 0 then "-" + NatDigits(-n) else NatDigits(n)
  }

  lemma {:induction false} NatDigitsValue(n: nat)
    ensures DigitsValue(NatDigits(n)) == n
  {
    var r := NatDigits(n);
    if n >= 10 {
      NatDigitsValue(n / 10);
      assert r[..|r| - 1] == NatDigits(n / 10);
    }
  }

  lemma ParseNatDigits(n: nat)
    ensures ParseUnsigned(NatDigits(n)) == Some(n)
  {
    NatDigitsValue(n);
    DigitsUnsigned(NatDigits(n));
  }

  lemma DigitsUnsigned(d: string)
    requires IsDigits(d)
    ensures ParseUnsigned(d) == Some(DigitsValue(d))
  {
    assert DigitGroups(d);
    assert RemoveUnderscores(d) == d;
  }

  /** A digit string parses to the number it denotes. */
  lemma DigitsParse(d: string)
    requires IsDigits(d)
    ensures ParseInt(d) == Some(DigitsValue(d))
  {
    DigitsUnsigned(d);
    ParsePlainDigits(d, DigitsValue(d));
  }

  lemma NotSpace(c: char)
    requires IsDigit(c) || c == '-'
    ensures !IsSpace(c)
  {
  }

  lemma ParseSignedDigits(s: string, d: string, n: nat)
    requires s == "-" + d && |d| > 0 && IsDigit(d[|d| - 1])
    requires ParseUnsigned(d) == Some(n)
    ensures ParseInt(s) == Some(-(n as int))
  {
    NotSpace(s[0]);
    NotSpace(s[|s| - 1]);
    assert Strip(s) == s;
    assert s[1..] == d;
  }

  lemma ParsePlainDigits(d: string, n: nat)
    requires |d| > 0 && IsDigit(d[0]) && IsDigit(d[|d| - 1])
    requires ParseUnsigned(d) == Some(n)
    ensures ParseInt(d) == Some(n)
  {
    NotSpace(d[0]);
    NotSpace(d[|d| - 1]);
    assert Strip(d) == d;
  }

  /** `int(str(n)) == n`: the decimal rendering of an integer parses back to it. */
  lemma ParseDecimal(n: int)
    ensures ParseInt(Decimal(n)) == Some(n)
  {
    if n < 0 {
      ParseNatDigits(-n);
      ParseSignedDigits(Decimal(n), NatDigits(-n), -n);
    } else {
      ParseNatDigits(n);
      ParsePlainDigits(NatDigits(n), n);
    }
  }
}

=== FILE: retrain_models.dfy ===
/**
 * `diff_icon` of pages/retrain_models.py: the icon shown next to a retrained
 * model's metric, comparing the new value with the previous model's value.
 */
module RetrainModels {
  import opened Wrappers

  const NoIcon: string := ""
  /** "➖": the metric did not move. */
  const Unchanged: string := "\U{2796}"
  /** "✅🔼": the metric improved. */
  const Improved: string := "\U{2705}\U{1F53C}"
  /** "⚠️🔽": the metric got worse. */
  const Regressed: string := "\U{26A0}\U{FE0F}\U{1F53D}"

  /** Whether moving from `previous` to `current` is an improvement for a metric of this direction. */
  predicate Improves(current: real, previous: real, higherIsBetter: bool) {
    if higherIsBetter then current > previous else current < previous
  }

  function DiffIcon(current: real, previous: Option<real>, higherIsBetter: bool): (icon: string)
    ensures icon == NoIcon <==> previous.None?
    ensures icon == Unchanged <==> previous.Some? && current == previous.value
    ensures icon == Improved <==> previous.Some? && Improves(current, previous.value, higherIsBetter)
    ensures icon == Regressed <==> previous.Some? && current != previous.value && !Improves(current, previous.value, higherIsBetter)
  {
    if previous.None? then ""
    else if current == previous.value then "\U{2796}"
    else if (current > previous.value && higherIsBetter) || (current < previous.value && !higherIsBetter) then "\U{2705}\U{1F53C}"
    else "\U{26A0}\U{FE0F}\U{1F53D}"
  }

  /** For a metric that moved, flipping its direction flips the icon. */
  lemma FlipDirection(current: real, previous: real, higherIsBetter: bool)
    requires current != previous
    ensures DiffIcon(current, Some(previous), higherIsBetter) == Improved
        <==> DiffIcon(current, Some(previous), !higherIsBetter) == Regressed
  {
  }

  /** Swapping the two values of a moved metric also flips the icon. */
  lemma SwapValues(a: real, b: real, higherIsBetter: bool)
    requires a != b
    ensures DiffIcon(a, Some(b), higherIsBetter) == Improved
        <==> DiffIcon(b, Some(a), higherIsBetter) == Regressed
  {
  }
}

=== FILE: retry.dfy ===
/**
 * The `retry_on_error(max_retries, backoff_factor)` decorator of
 * src/data_requesters/helper.py: call the wrapped function up to `max_retries`
 * times, return the first value it produces, sleep `backoff_factor ^ attempt`
 * seconds after a failed attempt that is not the last, and re-raise the last
 * exception once every attempt has failed.
 *
 * The wrapped call is an oracle: `call(k)` is what attempt `k` (counted from 0)
 * does. Sleeping is observable only as the list of waits requested.
 */
module Retry {

  /** What one call of the wrapped function does. */
  datatype Attempt<T, E> = Returns(value: T) | Raises(error: E)

  /**
   * What the wrapper does: return a value, re-raise, fall out of an empty loop
   * (`None`), or raise the `ValueError` of `time.sleep` on a negative wait,
   * which escapes from the `except` block.
   */
  datatype Outcome<T, E> = Value(value: T) | Reraised(error: E) | NoneReturned | SleepFailed(wait: int)

  /** `base ^ exp` for the integer `**` of Python. */
  function Pow(base: int, exp: nat): int
  {
    if exp == 0 then 1 else base * Pow(base, exp - 1)
  }

  /** The waits `backoff ^ 0, ..., backoff ^ (n - 1)` slept between `n + 1` attempts. */
  function Schedule(backoff: int, n: nat): (waits: seq<int>)
    ensures |waits| == n
  {
    if n == 0 then [] else Schedule(backoff, n - 1) + [Pow(backoff, n - 1)]
  }

  /** A non-negative factor never asks for a negative wait. */
  lemma {:induction false} PowNonNegative(base: int, exp: nat)
    requires base >= 0
    ensures Pow(base, exp) >= 0
  {
    if exp > 0 {
      PowNonNegative(base, exp - 1);
    }
  }

  lemma {:induction false} ScheduleAt(backoff: int, n: nat)
    ensures forall j :: 0 <= j < n ==> Schedule(backoff, n)[j] == Pow(backoff, j)
  {
    if n > 0 {
      ScheduleAt(backoff, n - 1);
    }
  }

  function Sum(xs: seq<int>): int
  {
    if xs == [] then 0 else Sum(xs[..|xs| - 1]) + xs[|xs| - 1]
  }

  /**
   * The wrapper's loop `for attempt in range(max_retries)`. Returns what the
   * wrapper yields, how many times the wrapped function ran, and the waits slept.
   */
  method RetryOnError<T, E>(call: nat -> Attempt<T, E>, maxRetries: int, backoffFactor: int)
    returns (outcome: Outcome<T, E>, calls: nat, waits: seq<int>)
    // A loop over an empty range never calls the function and returns None.
    ensures maxRetries <= 0 <==> outcome.NoneReturned?
    ensures outcome.NoneReturned? ==> calls == 0 && waits == []
    // Otherwise at least one and at most max_retries calls, one wait between two calls.
    ensures !outcome.NoneReturned? ==> 1 <= calls <= maxRetries && |waits| == calls - 1
    ensures forall j :: 0 <= j < |waits| ==> waits[j] == Pow(backoffFactor, j) && waits[j] >= 0
    // Every call before the last one failed.
    ensures forall j :: 0 <= j < calls - 1 ==> call(j).Raises?
    // The first value produced is returned at once ...
    ensures outcome.Value? ==> call(calls - 1) == Returns(outcome.value)
    // ... and an exception escapes only from the last permitted attempt,
    ensures outcome.Reraised? ==> calls == maxRetries && call(calls - 1) == Raises(outcome.error)
    // or from `time.sleep` after an earlier failure, when the factor makes the wait negative,
    ensures outcome.SleepFailed? ==>
      && calls < maxRetries && call(calls - 1).Raises?
      && outcome.wait == Pow(backoffFactor, calls - 1) && outcome.wait < 0
    // which a non-negative factor rules out.
    ensures backoffFactor >= 0 ==> !outcome.SleepFailed?
  {
    calls := 0;
    waits := [];
    var attempt := 0;
    while attempt < maxRetries
      invariant 0 <= attempt
      invariant attempt == 0 || attempt < maxRetries
      invariant calls == attempt
      invariant waits == Schedule(backoffFactor, attempt)
      invariant forall j :: 0 <= j < attempt ==> waits[j] >= 0
      invariant forall j :: 0 <= j < attempt ==> call(j).Raises?
      decreases maxRetries - attempt
    {
      calls := calls + 1;
      match call(attempt)
      case Returns(v) =>
        ScheduleAt(backoffFactor, attempt);
        return Value(v), calls, waits;
      case Raises(e) =>
        if attempt == maxRetries - 1 {
          ScheduleAt(backoffFactor, attempt);
          return Reraised(e), calls, waits;
        }
        var wait := Pow(backoffFactor, attempt);
        if backoffFactor >= 0 {
          PowNonNegative(backoffFactor, attempt);
        }
        if wait < 0 {
          ScheduleAt(backoffFactor, attempt);
          return SleepFailed(wait), calls, waits;
        }
        waits := waits + [wait];
      attempt := attempt + 1;
    }
    outcome := NoneReturned;
  }

  /**
   * A success at attempt `k` (counted from 0) has slept
   * `backoff ^ 0 + ... + backoff ^ (k - 1)`, which is `(backoff ^ k - 1) / (backoff - 1)`.
   */
  lemma {:induction false} TotalWait(backoff: int, k: nat)
    ensures (backoff - 1) * Sum(Schedule(backoff, k)) == Pow(backoff, k) - 1
  {
    if k > 0 {
      var S, P := Sum(Schedule(backoff, k - 1)), Pow(backoff, k - 1);
      SumScheduleStep(backoff, k);
      TotalWait(backoff, k - 1);
      GeometricStep(backoff, S, P, Sum(Schedule(backoff, k)), Pow(backoff, k));
    }
  }

  lemma SumScheduleStep(backoff: int, k: nat)
    requires k > 0
    ensures Sum(Schedule(backoff, k)) == Sum(Schedule(backoff, k - 1)) + Pow(backoff, k - 1)
  {
    var s := Schedule(backoff, k);
    assert s[..k - 1] == Schedule(backoff, k - 1);
  }

  lemma GeometricStep(b: int, S: int, P: int, T: int, Q: int)
    requires (b - 1) * S == P - 1
    requires T == S + P && Q == b * P
    ensures (b - 1) * T == Q - 1
  {
    assert (b - 1) * (S + P) == (b - 1) * S + (b - 1) * P;
  }

  /** With the default factor 2, a success at attempt `k` has slept `2^k - 1` seconds. */
  lemma DefaultTotalWait(k: nat)
    ensures Sum(Schedule(2, k)) == Pow(2, k) - 1
  {
    TotalWait(2, k);
  }
}

=== FILE: selection.dfy ===
/**
 * `select_relevant_variables` of src/processing/data_cleaner.py: the
 * projection of the raw ADEME table onto a fixed whitelist of 31 columns.
 */
module Selection {
  import opened Wrappers
  import opened Tables

  /** The whitelist, in the order the projected table lists it. */
  const RelevantColumns: seq<string> := [
    "cout_total_5_usages",
    "cout_chauffage",
    "cout_eclairage",
    "cout_refroidissement",
    "cout_auxiliaires",
    "cout_ecs",
    "conso_5_usages_ef",
    "conso_chauffage_ef",
    "conso_eclairage_ef",
    "conso_auxiliaires_ef",
    "conso_ecs_ef",
    "conso_refroidissement_ef",
    "surface_habitable_logement",
    "nombre_niveau_logement",
    "type_batiment",
    "annee_construction",
    "code_insee_ban",
    "code_departement_ban",
    "etiquette_dpe",
    "etiquette_ges",
    "nom_commune_ban",
    "code_postal_ban",
    "emission_ges_chauffage",
    "emission_ges_eclairage",
    "emission_ges_ecs",
    "emission_ges_5_usages",
    "emission_ges_auxiliaires",
    "emission_ges_refroidissement",
    "_geopoint",
    "type_energie_principale_chauffage",
    "age_batiment"
  ]

  /** The first name of `wanted` that `have` lacks (the one the `KeyError` reports). */
  function FirstAbsent(wanted: seq<string>, have: seq<string>): (m: Option<string>)
    ensures m.None? <==> forall c :: c in wanted ==> c in have
    ensures m.Some? ==> m.value in wanted && m.value !in have
  {
    if wanted == [] then None
    else if wanted[0] !in have then Some(wanted[0])
    else FirstAbsent(wanted[1..], have)
  }

  /** A row restricted to the given columns. */
  function Project(r: Row, cols: seq<string>): Row {
    map c | c in cols && c in r :: r[c]
  }

  /** `df[cols]`: the named columns, in the given order. */
  function SelectColumns(f: Frame, cols: seq<string>): (r: Result<Frame, CleanError>)
    requires WellFormed(f)
    // A requested column that is absent is a KeyError, reported by name.
    ensures r.Err? <==> exists c :: c in cols && c !in f.columns
    ensures r.Err? ==> r.error.MissingColumn? && r.error.name in cols && r.error.name !in f.columns
    // Otherwise exactly the requested columns, in the requested order, over the same rows.
    ensures r.Ok? ==> WellFormed(r.value) && r.value.columns == cols && |r.value.rows| == |f.rows|
    ensures r.Ok? ==> forall i, c :: 0 <= i < |f.rows| && c in cols ==> r.value.rows[i][c] == f.rows[i][c]
    // and nothing else.
    ensures r.Ok? ==> forall i, c :: 0 <= i < |f.rows| && c in r.value.rows[i] ==> c in cols
  {
    match FirstAbsent(cols, f.columns)
    case Some(c) => Err(MissingColumn(c))
    case None =>
      var rows := seq(|f.rows|, i requires 0 <= i < |f.rows| => Project(f.rows[i], cols));
      assert forall i, c :: 0 <= i < |rows| && c in cols ==> c in rows[i] by {
        forall i, c | 0 <= i < |rows| && c in cols ensures c in rows[i] {
          assert f.rows[i] in f.rows;
        }
      }
      Ok(Frame(cols, rows))
  }

  /** `select_relevant_variables`: the whitelist projection. */
  function SelectRelevantVariables(f: Frame): (r: Result<Frame, CleanError>)
    requires WellFormed(f)
    ensures r.Err? <==> exists c :: c in RelevantColumns && c !in f.columns
    ensures r.Ok? ==> WellFormed(r.value) && r.value.columns == RelevantColumns && |r.value.columns| == 31
    ensures r.Ok? ==> |r.value.rows| == |f.rows|
    // Each row keeps its whitelisted cells unchanged
    ensures r.Ok? ==> forall i, c :: 0 <= i < |f.rows| && c in RelevantColumns ==> r.value.rows[i][c] == f.rows[i][c]
    // and loses every other one.
    ensures r.Ok? ==> forall i, c :: 0 <= i < |f.rows| && c in r.value.rows[i] ==> c in RelevantColumns
  {
    SelectColumns(f, RelevantColumns)
  }

  /** Projecting a row onto a list naming all its keys gives it back. */
  lemma ProjectOwnKeys(r: Row, cols: seq<string>)
    requires forall c :: c in r <==> c in cols
    ensures Project(r, cols) == r
  {
    var p := Project(r, cols);
    assert p.Keys == r.Keys;
    forall c | c in p ensures p[c] == r[c] {
    }
  }

  /** Selecting the same columns twice is selecting them once. */
  lemma SelectIdempotent(f: Frame, cols: seq<string>)
    requires WellFormed(f)
    requires SelectColumns(f, cols).Ok?
    ensures SelectColumns(SelectColumns(f, cols).value, cols) == SelectColumns(f, cols)
  {
    var g := SelectColumns(f, cols).value;
    assert FirstAbsent(cols, g.columns).None?;
    var rows := seq(|g.rows|, i requires 0 <= i < |g.rows| => Project(g.rows[i], cols));
    forall i | 0 <= i < |g.rows| ensures rows[i] == g.rows[i] {
      assert g.rows[i] in g.rows;
      ProjectOwnKeys(g.rows[i], cols);
    }
    assert rows == g.rows;
  }
}

=== FILE: stats.dfy ===
/**
 * The order statistics the cleaning stages compute over a numeric column:
 * pandas' `quantile` (default linear interpolation), `median` and `mean`,
 * all over the column's non-missing values.
 */
module Stats {

  predicate Sorted(s: seq<real>) {
    forall i, j :: 0 <= i <= j < |s| ==> s[i] <= s[j]
  }

  /** Insert `x` into a sorted sequence. */
  function Insert(s: seq<real>, x: real): (r: seq<real>)
    requires Sorted(s)
    ensures Sorted(r)
    ensures multiset(r) == multiset(s) + multiset{x}
    ensures |r| == |s| + 1
    ensures r[|r| - 1] == if s != [] && x < s[|s| - 1] then s[|s| - 1] else x
  {
    if s == [] then [x]
    else if s[|s| - 1] <= x then s + [x]
    else
      var init := s[..|s| - 1];
      var r := Insert(init, x);
      InsertBelowLastSorted(s, x, r);
      InsertBelowLastValues(s, x, r);
      r + [s[|s| - 1]]
  }

  /**
   * The step of `Insert` for a value below the last: inserting it into the
   * rest and putting the last back keeps the order.
   */
  lemma InsertBelowLastSorted(s: seq<real>, x: real, r: seq<real>)
    requires Sorted(s) && s != [] && x < s[|s| - 1]
    requires var init := s[..|s| - 1];
      && Sorted(r) && |r| == |s|
      && r[|r| - 1] == if init != [] && x < init[|init| - 1] then init[|init| - 1] else x
    ensures Sorted(r + [s[|s| - 1]])
  {
    if |s| > 1 {
      LastTwoOrdered(s);
    }
    SortedSnoc(r, s[|s| - 1]);
  }

  /** The same step keeps the values: those of `s`, and `x`. */
  lemma InsertBelowLastValues(s: seq<real>, x: real, r: seq<real>)
    requires s != [] && multiset(r) == multiset(s[..|s| - 1]) + multiset{x}
    ensures multiset(r + [s[|s| - 1]]) == multiset(s) + multiset{x}
  {
    assert s == s[..|s| - 1] + [s[|s| - 1]];
  }

  lemma LastTwoOrdered(s: seq<real>)
    requires Sorted(s) && |s| >= 2
    ensures s[..|s| - 1][|s| - 2] <= s[|s| - 1]
  {
    assert s[..|s| - 1][|s| - 2] == s[|s| - 2];
  }

  /** Appending a value no smaller than the last keeps a sequence sorted. */
  lemma SortedSnoc(s: seq<real>, x: real)
    requires Sorted(s) && (s != [] ==> s[|s| - 1] <= x)
    ensures Sorted(s + [x])
  {
    var t := s + [x];
    forall i, j | 0 <= i <= j < |t| ensures t[i] <= t[j] {
      if j == |s| && i < |s| {
        assert t[i] == s[i] <= s[|s| - 1];
      }
    }
  }

  /** Insertion sort: the sorted permutation of `xs`. */
  function Sort(xs: seq<real>): (s: seq<real>)
    ensures Sorted(s)
    ensures multiset(s) == multiset(xs)
    ensures |s| == |xs|
  {
    if xs == [] then []
    else
      assert xs == xs[..|xs| - 1] + [xs[|xs| - 1]];
      Insert(Sort(xs[..|xs| - 1]), xs[|xs| - 1])
  }

  /** Sorting an already sorted sequence changes nothing. */
  lemma {:induction false} SortOfSorted(xs: seq<real>)
    requires Sorted(xs)
    ensures Sort(xs) == xs
    decreases |xs|
  {
    SortedAscends(xs);
    SortOfAscending(xs);
  }

  /** Sortedness stated neighbour by neighbour, from the end, without a quantifier. */
  predicate Ascends(xs: seq<real>)
    decreases |xs|
  {
    |xs| <= 1 || (xs[|xs| - 2] <= xs[|xs| - 1] && Ascends(xs[..|xs| - 1]))
  }

  lemma {:induction false} SortedAscends(xs: seq<real>)
    requires Sorted(xs)
    ensures Ascends(xs)
    decreases |xs|
  {
    if xs != [] {
      SortedInit(xs);
      SortedAscends(xs[..|xs| - 1]);
    }
  }

  lemma {:induction false} SortOfAscending(xs: seq<real>)
    requires Ascends(xs)
    ensures Sort(xs) == xs
    decreases |xs|
  {
    if xs != [] {
      SortOfAscending(xs[..|xs| - 1]);
      SortAppendLargest(xs);
    }
  }

  /** Dropping the last value keeps a sequence sorted, and the last value is the largest. */
  lemma SortedInit(xs: seq<real>)
    requires Sorted(xs) && xs != []
    ensures var init := xs[..|xs| - 1];
      Sorted(init) && (init != [] ==> init[|init| - 1] <= xs[|xs| - 1])
  {
    var init := xs[..|xs| - 1];
    forall i, j | 0 <= i <= j < |init| ensures init[i] <= init[j] {
      assert init[i] == xs[i] && init[j] == xs[j];
    }
  }

  /** A prefix that sorting leaves alone, followed by a value no smaller than its last, is left alone too. */
  lemma SortAppendLargest(xs: seq<real>)
    requires xs != [] && Sort(xs[..|xs| - 1]) == xs[..|xs| - 1]
    requires |xs| > 1 ==> xs[|xs| - 2] <= xs[|xs| - 1]
    ensures Sort(xs) == xs
  {
    var init := xs[..|xs| - 1];
    var last := xs[|xs| - 1];
    SortUnfold(xs);
    InsertLargest(init, last);
    assert init + [last] == xs;
  }

  /** Sorting a non-empty sequence inserts its last value into the sorted rest. */
  lemma SortUnfold(xs: seq<real>)
    requires xs != []
    ensures Sort(xs) == Insert(Sort(xs[..|xs| - 1]), xs[|xs| - 1])
  {
  }

  /** Inserting a value no smaller than every other appends it. */
  lemma InsertLargest(s: seq<real>, x: real)
    requires Sorted(s) && (s != [] ==> s[|s| - 1] <= x)
    ensures Insert(s, x) == s + [x]
  {
  }

  /** Scaling by a factor in `[0, 1]` keeps a non-negative number within `[0, a]`. */
  lemma ScaleWithin(a: real, t: real)
    requires a >= 0.0 && 0.0 <= t <= 1.0
    ensures 0.0 <= a * t <= a
  {
    assert a - a * t == a * (1.0 - t);
  }

  /** The point a fraction `t` of the way from `lo` to `hi`. */
  function Lerp(lo: real, hi: real, t: real): (q: real)
    requires lo <= hi && 0.0 <= t <= 1.0
    ensures lo <= q <= hi
  {
    var d := hi - lo;
    ScaleWithin(d, t);
    lo + d * t
  }

  /** `floor(h)` for the interpolation position `h = (n - 1) * p`. */
  function Position(n: nat, p: real): (k: nat)
    requires n > 0 && 0.0 <= p <= 1.0
    ensures k < n
    ensures k as real <= (n - 1) as real * p < k as real + 1.0
  {
    var h := (n - 1) as real * p;
    ScaleWithin((n - 1) as real, p);
    h.Floor
  }

  /**
   * Linear interpolation at position `(n - 1) * p` of a sorted sequence:
   * the value between the two order statistics around that position.
   */
  function Interpolated(s: seq<real>, p: real): (q: real)
    requires |s| > 0 && 0.0 <= p <= 1.0 && Sorted(s)
    ensures var k := Position(|s|, p);
      s[k] <= q && (k + 1 < |s| ==> q <= s[k + 1]) && (k + 1 == |s| ==> q == s[k])
    ensures var k := Position(|s|, p);
      k as real == (|s| - 1) as real * p ==> q == s[k]
  {
    var k := Position(|s|, p);
    var frac := (|s| - 1) as real * p - k as real;
    if k + 1 < |s| then Lerp(s[k], s[k + 1], frac) else s[k]
  }

  /** Away from the last position, the interpolation formula itself. */
  lemma InterpolatedBetween(s: seq<real>, p: real, k: nat, frac: real)
    requires |s| > 0 && 0.0 <= p <= 1.0 && Sorted(s)
    requires k + 1 < |s| && (|s| - 1) as real * p == k as real + frac && 0.0 <= frac < 1.0
    ensures Interpolated(s, p) == s[k] + (s[k + 1] - s[k]) * frac
  {
    assert Position(|s|, p) == k;
  }

  /** `Series.quantile(p)`: linear interpolation over the sorted values. */
  function Quantile(xs: seq<real>, p: real): (q: real)
    requires |xs| > 0 && 0.0 <= p <= 1.0
    // The quantile lies between the two order statistics around its position.
    ensures var s := Sort(xs); var k := Position(|xs|, p);
      s[k] <= q && (k + 1 < |s| ==> q <= s[k + 1]) && (k + 1 == |s| ==> q == s[k])
  {
    var s := Sort(xs);
    assert |s| == |xs|;
    Interpolated(s, p)
  }

  /** A sequence whose neighbours are in order is sorted. */
  lemma {:induction false} SortedByNeighbours(s: seq<real>)
    requires forall i :: 0 <= i < |s| - 1 ==> s[i] <= s[i + 1]
    ensures Sorted(s)
    decreases |s|
  {
    if s != [] {
      var init := s[..|s| - 1];
      SortedByNeighbours(init);
      SortedSnoc(init, s[|s| - 1]);
      assert s == init + [s[|s| - 1]];
    }
  }

  /** The quantile of sorted values, at a position `k + frac` strictly inside them. */
  lemma QuantileOfSorted(xs: seq<real>, p: real, k: nat, frac: real)
    requires Sorted(xs) && 0.0 <= p <= 1.0
    requires k + 1 < |xs| && (|xs| - 1) as real * p == k as real + frac && 0.0 <= frac < 1.0
    ensures Quantile(xs, p) == xs[k] + (xs[k + 1] - xs[k]) * frac
  {
    SortOfSorted(xs);
    InterpolatedBetween(xs, p, k, frac);
  }

  /** The smallest and the largest value bound every quantile. */
  lemma QuantileWithinRange(xs: seq<real>, p: real)
    requires |xs| > 0 && 0.0 <= p <= 1.0
    ensures forall x :: x in xs ==> Sort(xs)[0] <= x <= Sort(xs)[|xs| - 1]
    ensures Sort(xs)[0] <= Quantile(xs, p) <= Sort(xs)[|xs| - 1]
  {
    var s := Sort(xs);
    forall x | x in xs ensures s[0] <= x <= s[|s| - 1] {
      assert x in multiset(xs);
      assert x in multiset(s);
      var i :| 0 <= i < |s| && s[i] == x;
    }
  }

  lemma InterpolatedMonotone(s: seq<real>, p1: real, p2: real)
    requires |s| > 0 && 0.0 <= p1 <= p2 <= 1.0 && Sorted(s)
    ensures Interpolated(s, p1) <= Interpolated(s, p2)
  {
    var n := |s|;
    var k1 := Position(n, p1);
    var k2 := Position(n, p2);
    ScaleWithin((n - 1) as real, p2 - p1);
    assert (n - 1) as real * p2 - (n - 1) as real * p1 == (n - 1) as real * (p2 - p1);
    assert k1 as real < k2 as real + 1.0;
    if k1 < k2 {
      assert s[k1 + 1] <= s[k2];
    } else {
      var k := k1;
      if k + 1 < n {
        var d := s[k + 1] - s[k];
        var f1 := (n - 1) as real * p1 - k as real;
        var f2 := (n - 1) as real * p2 - k as real;
        ScaleWithin(d, f2 - f1);
        assert d * f2 - d * f1 == d * (f2 - f1);
      }
    }
  }

  /** A higher probability never gives a lower quantile; in particular `Q1 <= Q3`. */
  lemma QuantileMonotone(xs: seq<real>, p1: real, p2: real)
    requires |xs| > 0 && 0.0 <= p1 <= p2 <= 1.0
    ensures Quantile(xs, p1) <= Quantile(xs, p2)
  {
    InterpolatedMonotone(Sort(xs), p1, p2);
  }

  /** `Series.median()`: the 0.5 quantile. */
  function Median(xs: seq<real>): (m: real)
    requires |xs| > 0
    ensures Sort(xs)[0] <= m <= Sort(xs)[|xs| - 1]
  {
    QuantileWithinRange(xs, 0.5);
    Quantile(xs, 0.5)
  }

  /** An odd number of values has their middle one as median. */
  lemma MedianOdd(xs: seq<real>, m: nat)
    requires |xs| == 2 * m + 1
    ensures Median(xs) == Sort(xs)[m]
  {
    var s := Sort(xs);
    assert (|s| - 1) as real * 0.5 == m as real;
    assert Position(|s|, 0.5) == m;
  }

  /** An even number of values has the midpoint of the two middle ones as median. */
  lemma MedianEven(xs: seq<real>, m: nat)
    requires |xs| == 2 * m && m > 0
    ensures Median(xs) == (Sort(xs)[m - 1] + Sort(xs)[m]) / 2.0
  {
    InterpolatedHalf(Sort(xs), m);
  }

  lemma InterpolatedHalf(s: seq<real>, m: nat)
    requires Sorted(s) && |s| == 2 * m && m > 0
    ensures Interpolated(s, 0.5) == (s[m - 1] + s[m]) / 2.0
  {
    var k := m - 1;
    assert (|s| - 1) as real * 0.5 == k as real + 0.5;
    InterpolatedBetween(s, 0.5, k, 0.5);
    var a, b := s[k], s[m];
    assert a + (b - a) * 0.5 == (a + b) / 2.0;
  }

  function Sum(xs: seq<real>): real {
    if xs == [] then 0.0 else Sum(xs[..|xs| - 1]) + xs[|xs| - 1]
  }

  /** `Series.mean()`. */
  function Mean(xs: seq<real>): real
    requires |xs| > 0
  {
    Sum(xs) / |xs| as real
  }

  lemma {:induction false} SumBounds(xs: seq<real>, lo: real, hi: real)
    requires forall i :: 0 <= i < |xs| ==> lo <= xs[i] <= hi
    ensures |xs| as real * lo <= Sum(xs) <= |xs| as real * hi
    decreases |xs|
  {
    if xs != [] {
      SumBounds(xs[..|xs| - 1], lo, hi);
    }
  }

  /** A mean lies within any bounds of its values. */
  lemma MeanWithin(xs: seq<real>, lo: real, hi: real)
    requires |xs| > 0
    requires forall i :: 0 <= i < |xs| ==> lo <= xs[i] <= hi
    ensures lo <= Mean(xs) <= hi
  {
    SumBounds(xs, lo, hi);
    var n := |xs| as real;
    assert Mean(xs) * n == Sum(xs);
  }

  /** The Tukey fences `[Q1 - 1.5 IQR, Q3 + 1.5 IQR]` of the IQR outlier rule. */
  datatype Fences = Fences(lo: real, hi: real)

  function TukeyFences(xs: seq<real>): (f: Fences)
    requires |xs| > 0
    // The fences enclose the interquartile range, with 1.5 IQR to spare on each side.
    ensures f.lo <= Quantile(xs, 0.25) <= Quantile(xs, 0.75) <= f.hi
    ensures f.hi - Quantile(xs, 0.75) == Quantile(xs, 0.25) - f.lo
              == 1.5 * (Quantile(xs, 0.75) - Quantile(xs, 0.25))
  {
    var q1 := Quantile(xs, 0.25);
    var q3 := Quantile(xs, 0.75);
    QuantileMonotone(xs, 0.25, 0.75);
    var iqr := q3 - q1;
    Fences(q1 - 1.5 * iqr, q3 + 1.5 * iqr)
  }
}

=== FILE: tables.dfy ===
/**
 * The slice of a pandas DataFrame the cleaning stages of
 * src/processing/data_cleaner.py rely on: named columns in order, and rows
 * mapping every column name to a cell.
 */
module Tables {
  import opened Wrappers

  /** A cell: NaN/None, an integer, a float, or a string. */
  datatype Cell = Missing | Int(i: int) | Num(x: real) | Text(s: string)

  type Row = map<string, Cell>

  datatype Frame = Frame(columns: seq<string>, rows: seq<Row>)

  /** The exceptions pandas raises in the stages, as values. */
  datatype CleanError =
    | MissingColumn(name: string)   // KeyError: a column the stage reads is absent
    | NotNumeric(column: string)    // TypeError: a string met a numeric operation
    | NotInteger(column: string)    // ValueError: NaN converted to int
    | SplitWidth(width: nat)        // ValueError: `_geopoint` did not split into two columns
    | NotFloat(token: string)       // ValueError: a coordinate is not a float

  /** Every row has a cell for every column of the table. */
  predicate WellFormed(f: Frame) {
    forall r, c :: r in f.rows && c in f.columns ==> c in r
  }

  /** The numeric value of a cell, if it has one. */
  function Numeric(c: Cell): (v: Option<real>)
    ensures v.Some? <==> c.Int? || c.Num?
  {
    match c
    case Int(i) => Some(i as real)
    case Num(x) => Some(x)
    case _ => None
  }

  /** A cell of a numeric column: anything but a string. */
  predicate NotText(c: Cell) {
    !c.Text?
  }

  /** The column has no string cell, so pandas can compare and aggregate it. */
  predicate NumericColumn(rows: seq<Row>, col: string) {
    forall r :: r in rows && col in r ==> NotText(r[col])
  }

  /** The non-missing numeric values of a column, in row order (what `quantile` and `median` see). */
  function Values(rows: seq<Row>, col: string): (vs: seq<real>)
    ensures |vs| <= |rows|
  {
    if rows == [] then []
    else
      var init := rows[..|rows| - 1];
      var last := rows[|rows| - 1];
      var vs := Values(init, col);
      if col in last && Numeric(last[col]).Some? then vs + [Numeric(last[col]).value] else vs
  }

  /** A row with a number in the column gives the column a value. */
  lemma {:induction false} ValuesNonEmpty(rows: seq<Row>, col: string, i: nat)
    requires i < |rows| && col in rows[i] && Numeric(rows[i][col]).Some?
    ensures Values(rows, col) != []
    decreases |rows|
  {
    if i < |rows| - 1 {
      ValuesNonEmpty(rows[..|rows| - 1], col, i);
    }
  }

  /** The cells of a column, in row order. */
  function Column(rows: seq<Row>, col: string): (cs: seq<Cell>)
    requires forall r :: r in rows ==> col in r
    ensures |cs| == |rows|
    ensures forall i :: 0 <= i < |rows| ==> cs[i] == rows[i][col]
  {
    seq(|rows|, i requires 0 <= i < |rows| => rows[i][col])
  }

  // ---------------------------------------------------------------------------
  // Row selection
  // ---------------------------------------------------------------------------

  /** `a` is `b` with some elements left out, order kept (greedy match from the back). */
  predicate IsSubsequence<T(==)>(a: seq<T>, b: seq<T>)
    decreases |b|
  {
    if a == [] then true
    else if b == [] then false
    else if a[|a| - 1] == b[|b| - 1] then IsSubsequence(a[..|a| - 1], b[..|b| - 1])
    else IsSubsequence(a, b[..|b| - 1])
  }

  /** A subsequence is no longer than the sequence it is taken from, and takes its elements from it. */
  lemma {:induction false} SubsequenceShorter<T>(a: seq<T>, b: seq<T>)
    requires IsSubsequence(a, b)
    ensures |a| <= |b|
    ensures forall x :: x in a ==> x in b
    decreases |b|
  {
    if a != [] {
      var bi := b[..|b| - 1];
      if a[|a| - 1] == b[|b| - 1] {
        var ai := a[..|a| - 1];
        SubsequenceShorter(ai, bi);
        assert a == ai + [b[|b| - 1]];
      } else {
        SubsequenceShorter(a, bi);
      }
    }
  }

  /** Boolean-mask indexing `df[mask]`: the rows the mask keeps, in order. */
  function Filter(rows: seq<Row>, keep: Row -> bool): (kept: seq<Row>)
    ensures IsSubsequence(kept, rows)
    ensures forall r :: r in kept <==> r in rows && keep(r)
  {
    if rows == [] then []
    else
      var init := rows[..|rows| - 1];
      var last := rows[|rows| - 1];
      assert rows == init + [last];
      var kept := Filter(init, keep);
      if keep(last) then
        assert (kept + [last])[..|kept|] == kept;
        kept + [last]
      else kept
  }

  /** A kept row occurs as often as in the input; a dropped one not at all. */
  lemma {:induction false} FilterCounts(rows: seq<Row>, keep: Row -> bool)
    ensures forall r :: multiset(Filter(rows, keep))[r] == if keep(r) then multiset(rows)[r] else 0
    decreases |rows|
  {
    if rows != [] {
      var init := rows[..|rows| - 1];
      var last := rows[|rows| - 1];
      assert rows == init + [last];
      FilterCounts(init, keep);
    }
  }

  /** Keeping rows twice with the same mask keeps the same rows. */
  lemma {:induction false} FilterIdempotent(rows: seq<Row>, keep: Row -> bool)
    ensures Filter(Filter(rows, keep), keep) == Filter(rows, keep)
    decreases |rows|
  {
    if rows != [] {
      var init := rows[..|rows| - 1];
      var last := rows[|rows| - 1];
      FilterIdempotent(init, keep);
      var kept := Filter(init, keep);
      if keep(last) {
        assert (kept + [last])[..|kept|] == kept;
      }
    }
  }

  /** A first mask implied by the second one changes nothing. */
  lemma {:induction false} FilterImplied(rows: seq<Row>, first: Row -> bool, second: Row -> bool)
    requires forall r :: second(r) ==> first(r)
    ensures Filter(Filter(rows, first), second) == Filter(rows, second)
    decreases |rows|
  {
    if rows != [] {
      var init := rows[..|rows| - 1];
      var last := rows[|rows| - 1];
      FilterImplied(init, first, second);
      var kept := Filter(init, first);
      if first(last) {
        assert (kept + [last])[..|kept|] == kept;
      }
    }
  }

  /** A mask that holds for every row keeps them all. */
  lemma {:induction false} FilterKeepsAll(rows: seq<Row>, keep: Row -> bool)
    requires forall i :: 0 <= i < |rows| ==> keep(rows[i])
    ensures Filter(rows, keep) == rows
    decreases |rows|
  {
    if rows != [] {
      var init := rows[..|rows| - 1];
      var last := rows[|rows| - 1];
      FilterKeepsAll(init, keep);
      assert keep(last);
      assert rows == init + [last];
    }
  }

  /** A cell is present in the row and not NaN. */
  predicate Present(r: Row, col: string) {
    col in r && !r[col].Missing?
  }

  /** Dropping the rows whose cell is missing leaves the column's values as they were. */
  lemma {:induction false} ValuesWithoutMissing(rows: seq<Row>, col: string)
    ensures Values(Filter(rows, r => Present(r, col)), col) == Values(rows, col)
    decreases |rows|
  {
    if rows != [] {
      var init := rows[..|rows| - 1];
      var last := rows[|rows| - 1];
      ValuesWithoutMissing(init, col);
      var kept := Filter(init, r => Present(r, col));
      if Present(last, col) {
        assert (kept + [last])[..|kept|] == kept;
      }
    }
  }

  // ---------------------------------------------------------------------------
  // Column layout
  // ---------------------------------------------------------------------------

  /** The column list after assigning `df[name]`: unchanged if present, else `name` appended. */
  function WithColumn(cs: seq<string>, name: string): (r: seq<string>)
    ensures forall c :: c in r <==> c in cs || c == name
    ensures name in cs ==> r == cs
    ensures name !in cs ==> r == cs + [name]
  {
    if name in cs then cs else cs + [name]
  }

  /** The column list after `drop(columns=[name])`. */
  function WithoutColumn(cs: seq<string>, name: string): (r: seq<string>)
    ensures forall c :: c in r <==> c in cs && c != name
    ensures IsSubsequence(r, cs)
  {
    if cs == [] then []
    else
      var init := cs[..|cs| - 1];
      var last := cs[|cs| - 1];
      assert cs == init + [last];
      var r := WithoutColumn(init, name);
      if last == name then
        assert r != [] ==> r[|r| - 1] in r && r[|r| - 1] != name;
        r
      else
        assert (r + [last])[..|r|] == r;
        r + [last]
  }
}

=== FILE: wrappers.dfy ===
/** Failure-compatible wrappers shared by every module of the model. */
module Wrappers {

  /** An optional value: Python's `None` versus a present value. */
  datatype Option<+T> = None | Some(value: T) {

    /** The value, or `default` when absent. */
    function GetOr(default: T): T {
      match this
      case Some(v) => v
      case None => default
    }
  }

  /** Either a value or the exception the source would raise instead. */
  datatype Result<+T, +E> = Ok(value: T) | Err(error: E)
}
